=== FILE: README.md ===
# Store builder: site generator, deploy pipeline, builder store and editor rules

A no-code storefront builder keeps its configuration in one store: settings, a product
catalogue, a cart, and the page being viewed. Several panels edit that store:
- a customization panel for colours, fonts and the logo;
- a template picker;
- a product editor;
- a live preview;
- an export dialog.

The deploy dialog turns the settings into a store configuration. It generates a
fourteen-file Next.js project from it. It then pushes the project to a new GitHub
repository file by file, checks that the critical files landed, creates a linked Vercel
project, and nudges a deployment. Progress is reported stage by stage:
`generating, repo, upload, verify, vercel, deploy, complete`.

This project models that core in Dafny as pure functions over immutable data:
- Remote services become an abstract branch, a map from path to (sha, content).
- Each HTTP exchange is reduced to "answered" or "rejected" with its error text.
- Clock readings, upload results and number parsing are parameters.

The modules follow the source files:

| module | file | models |
|---|---|---|
| `Text` | text.dfy | JavaScript string operations: `toLowerCase`, `replace(/\s+/g, "-")`, `split`, `indexOf`, first-match `replace`, `Number.toString`, `||` on strings |
| `SiteGenerator` | site_generator.dfy | `generateStoreApp` and the generators whose text carries configuration values |
| `GithubClient` | github_client.dfy | `githubService.js` over an abstract branch |
| `VercelClient` | vercel_client.dfy | `vercelService.js`: URL parsing, project request, error translation, the git nudge |
| `DeployPipeline` | deploy_pipeline.dfy | `deployToVercel` as a linear stage machine and its progress observer |
| `BuilderStore` | builder_store.dfy | the zustand store's state and every update it offers |
| `DeployModal`, `ProductManager`, `CustomizationPanel`, `TemplateSelector`, `LivePreview`, `ExportModal` | one file each | the decision rules of those components |
| `Wrappers`, `Seqs`, `Catalog`, `UploadHook` | | `Option`/`Result`, subsequences and filtering, the product record, an upload hook's reply |

## Model

| member | source | states |
|---|---|---|
| Text.Slug | utils/deployService.js:24-26 | lower-casing and collapsing every whitespace run to one hyphen leaves no whitespace and never lengthens the name |
| Text.Hyphenate | utils/deployService.js:26 | `replace(/\s+/g, "-")` removes every whitespace character and never lengthens the text; text without whitespace passes through unchanged |
| Text.SlugExample | utils/deployService.js:24-26 | "Acme Co" slugs to "acme-co" |
| Text.Lower | utils/deployService.js:25 | `toLowerCase` maps each character on its own, keeping the length and whitespace |
| Text.Split | utils/vercelService.js:15 | `split("/")` yields at least one piece, exactly one iff the text has no separator, and no piece contains the separator |
| Text.SplitJoin | utils/vercelService.js:15 | joining the pieces of a split with the separator gives back the original text |
| Text.ReplaceFirst | components/builder/ExportModal.jsx:172 | a string-pattern `replace` rewrites only the first occurrence and leaves text without the pattern alone |
| Text.IndexOf | components/builder/ExportModal.jsx:172 | the position found holds the pattern and no earlier position does; none is found exactly when the pattern occurs nowhere |
| Text.Decimal | store/builderStore.js:134 | `Date.now().toString()` is a non-empty run of decimal digits |
| UploadHook.KeptUrl | components/builder/CustomizationPanel.jsx:77-79 | an upload counts only when it returned a non-empty url |
| SiteGenerator.GenerateStoreApp | utils/deployService.js:103-133 | the generated app has exactly the fourteen listed paths, in insertion order, for every configuration |
| SiteGenerator.AppPathsDistinct | utils/deployService.js:106-130 | the fourteen paths are pairwise distinct |
| SiteGenerator.PackageNameIsStoreSlug | utils/deployService.js:170-172 | package.json's name is the slugged business name plus "-store" |
| DeployPipeline.PackageNameIsRepoName | utils/deployService.js:24-26 | package.json's name is exactly the repository name a deploy creates |
| SiteGenerator.ProductsJson | utils/deployService.js:136-167 | a non-empty list is written as given; an empty list or a non-array writes the two demo products |
| SiteGenerator.ProductsFileContents | utils/deployService.js:136-167 | public/products.json of the generated app holds the configuration's list when it is a non-empty array and the demo products otherwise |
| SiteGenerator.OmittedProductsAreEmpty | utils/deployService.js:104 | a configuration without `products` generates the same data file as an empty array |
| SiteGenerator.StylesCarryColors | utils/deployService.js:278-289 | globals.css interpolates exactly the primary, secondary and accent colours, in that order, verbatim |
| SiteGenerator.LayoutCarriesBusinessText | utils/deployService.js:292-306 | the layout interpolates exactly the business name (page title) then the tagline (meta description), unescaped |
| SiteGenerator.HomePageCarriesBusinessText | utils/deployService.js:310-376 | the home page interpolates name, tagline, email, phone and address verbatim, in page order |
| SiteGenerator.OnlyBusinessColorsAndProductsMatter | utils/deployService.js:103-133 | two configurations with equal business text, colours and products generate the same app, whatever their template, logo or font |
| GithubClient.CreateRepo | utils/githubService.js:25-39 | a refusal fails with "Repo create failed: " and the API message; otherwise the owner, name and page URL come from the reply and the branch falls back to "main" when absent or empty |
| GithubClient.GetFileSha | utils/githubService.js:43-55 | a 404 or an empty sha gives no sha; any other rejection throws "getFileSha failed for <path>: " with the message or status text; otherwise the stored sha |
| GithubClient.PutRequest | utils/githubService.js:61-68 | with a sha the body says "Update <path>" and carries the sha; without one it says "Add <path>" and has no sha |
| GithubClient.UploadFile | utils/githubService.js:58-83 | the PUT is sent only when the lookup answered; the upload succeeds iff both exchanges answer; a failure carries the path's error; success stores the path's content and leaves every other path unchanged |
| GithubClient.UpdateIffPresent | utils/githubService.js:61-68 | the upload is an update carrying the sha exactly when the branch already holds the path with a non-empty sha |
| GithubClient.UploadFrom | utils/githubService.js:91-97 | from entry i on: one tick per uploaded file with completed = position + 1, the total and that file's path; every file before the last tick was uploaded; the run has no error exactly when every remaining file got a tick |
| GithubClient.UploadFromFailure | utils/githubService.js:91-94 | a run that fails stops at the first upload that did not succeed and reports that file's error |
| GithubClient.UploadFiles | utils/githubService.js:86-101 | ticks count 1..total in entry order with each file's path; the run completes iff every upload succeeds; otherwise it stops at the first failure with that file's error and reports nothing after it |
| GithubClient.UploadFootprint | utils/githubService.js:91-94 | paths the loop never reached keep their state; a failed run uploads nothing after the failing entry |
| GithubClient.UploadStores | utils/githubService.js:91-94 | every file the loop got through is on the branch with its content, later entries having a different path |
| GithubClient.UploadFilesComplete | utils/githubService.js:86-97 | after a complete run with distinct paths every entry is on the branch with its content and no other path changed |
| GithubClient.MissingFrom | utils/githubService.js:105-111 | from position i on: a subsequence of the input that holds a path iff one of its lookups failed; empty iff every lookup succeeded |
| GithubClient.MissingFromExact | utils/githubService.js:105-111 | from position i on: one entry per failed lookup, in position order, each the path looked up there |
| GithubClient.VerifyFiles | utils/githubService.js:104-112 | a subsequence of the input that holds a path iff one of its lookups was not OK; empty iff every lookup succeeded |
| GithubClient.VerifyFilesExact | utils/githubService.js:104-112 | the result lists the path of every failed lookup, one entry per failed lookup, in input order |
| GithubClient.RepeatedPathReportedPerLookup | utils/githubService.js:104-112 | a path listed twice whose first lookup fails and second succeeds is reported once |
| VercelClient.ParseRepoUrl | utils/vercelService.js:15 | the owner and repo pieces contain no "/"; the repo is never null, and it is undefined exactly when no "/" remains once the first "https://github.com/" is removed |
| VercelClient.ParseRepoUrlRoundTrip | utils/vercelService.js:15 | "https://github.com/o/r" with no "/" in o or r parses back to owner o and repo r |
| VercelClient.GetGithubRepoId | utils/vercelService.js:4-11 | the repository id on success; "Failed to fetch GitHub repo details" on any non-OK reply |
| VercelClient.NewProject | utils/vercelService.js:24-38 | the request carries the project name, the "owner/repo" link, the repository id and the production branch |
| VercelClient.CreateProject | utils/vercelService.js:14-50 | a failed id lookup fails before any project request; a refusal throws the API's error message or "Failed to create Vercel project"; success returns the server's name and "https://" + name + ".vercel.app" |
| VercelClient.CreateProjectLinksRepo | utils/vercelService.js:15-36 | a project created from a repository page URL is linked to exactly that "owner/repo" on the given branch |
| VercelClient.TriggerPath | utils/vercelService.js:54 | the marker file is ".vercel-deploy-trigger-", then the clock reading in decimal digits, then ".txt" |
| VercelClient.TriggerDeploymentViaGit | utils/vercelService.js:53-72 | the nudge never fails: a rejected PUT only sets the warning; the body names the branch and the timestamp text |
| VercelClient.TriggerPathsDiffer | utils/vercelService.js:54 | nudges at different instants write different marker files |
| DeployPipeline.Reason | utils/deployService.js:97-98 | an error without a message reports "Deployment failed"; any other message is kept |
| DeployPipeline.RepoName | utils/deployService.js:24-26 | the repository name is the slugged business name plus "-store" and contains no whitespace |
| DeployPipeline.PercentIsRound | utils/deployService.js:45 | the integer progress is within one half of 100·completed/total, as `Math.round` is |
| DeployPipeline.PercentBounds | utils/deployService.js:45 | progress lies in 0..100, is 100 when completed = total, and never decreases as the count grows |
| DeployPipeline.Observe | utils/deployService.js:14-98 | without an observer nothing is reported and the result stands; an observer that never throws sees every report; one that throws on call k keeps the first k + 1 reports and turns the result into a failure with its message; the git nudge stands only when call k is a `complete` report, the one report made after the commit |
| DeployPipeline.DeployToVercel | utils/deployService.js:14-99 | `deployToVercel` with the git nudge: the observer sees a prefix of the run's reports, and the result is the run's own or the observer's failure |
| DeployPipeline.DeployAsWritten | utils/deployService.js:14-99 | `deployToVercel` as written: the observer sees a prefix of the run's reports, and the result is the run's own or the observer's failure |
| DeployPipeline.StagesInOrder | utils/deployService.js:15-90 | whatever the replies and the observer, the first report is `generating`, each report stays in its stage or moves to the next, and every percentage is in 0..100 |
| DeployPipeline.DeployedIffComplete | utils/deployService.js:89-96 | the run as a never-throwing observer sees it deploys exactly when it reports `complete`, which is then its last report |
| DeployPipeline.ObservedDeployedIffComplete | utils/deployService.js:14-98 | through any listener, the result is a deployment exactly when `complete` was reported and the listener did not throw on the last report it received |
| DeployPipeline.ThrowOnCompleteKeepsNudge | utils/deployService.js:79-98 | with every call answering, a listener throwing on the `complete` report makes the run fail although the marker file is already committed |
| DeployPipeline.RepoRefusedStops | utils/deployService.js:22-27 | a refused repository creation ends the run after the generating and repo reports with "Repo create failed: " + the API message |
| DeployPipeline.UploadFailureStops | utils/deployService.js:29-49 | the first failing upload ends the run with that file's error after every earlier upload succeeded; no report goes past the upload stage |
| DeployPipeline.VerifyAfterUpload | utils/deployService.js:35-64 | after a complete upload, a required file is reported missing only when its own lookup was rejected |
| DeployPipeline.RequiredPathsGenerated | utils/deployService.js:53-64 | the five paths the verification checks are among the generated ones |
| DeployPipeline.MissingFilesStop | utils/deployService.js:53-66 | missing required files end the run with "Critical files missing: " + the rejected paths joined by ", "; the verify report is the last of 18 and no nudge is made |
| DeployPipeline.CorrectedRunDeploys | utils/deployService.js:79-96 | when every remote call answers, a run using the git nudge reports 21 times, reaches 100% and deploys with the repository and project URLs |
| DeployPipeline.AsWrittenFailsAtTrigger | utils/deployService.js:81-87 | as written, a run whose remote calls all answer fails at the deploy step with the type error |
| DeployPipeline.AsWrittenNeverDeploys | utils/deployService.js:81-98 | as written, no run reports `complete` or deploys, for any replies and observer |
| DeployPipeline.ThrowingObserverStops | utils/deployService.js:15-98 | an observer throwing on call k yields a failure with its message and exactly the first k + 1 reports of the run; the nudge is kept only when call k is the `complete` report |
| BuilderStore.InitialIdsUnique | store/builderStore.js:18-91 | the six sample products have ids "1".."6" |
| BuilderStore.UpdateSetting | store/builderStore.js:108-111 | the key gets the value; every other setting, the products, the page and the cart are unchanged |
| BuilderStore.UpdateSettings | store/builderStore.js:114-117 | exactly the keys of the update are overridden, the rest kept |
| BuilderStore.UpdateSettingsOne | store/builderStore.js:108-117 | a one-entry batch is the single-key update |
| BuilderStore.UpdateSettingsCompose | store/builderStore.js:114-117 | two batches in a row equal one merged batch, the later winning |
| BuilderStore.ResetSettings | store/builderStore.js:120-123 | the defaults come back; products, page, selection and cart are kept |
| BuilderStore.ResetForgetsUpdates | store/builderStore.js:120-123 | resetting after any batch of updates is resetting without it |
| BuilderStore.SwitchTemplate | store/builderStore.js:126-129 | only the template setting changes |
| BuilderStore.SwitchTemplateIdempotent | store/builderStore.js:126-129 | switching to a template twice is switching once |
| BuilderStore.AddProduct | store/builderStore.js:132-135 | one product is appended with the clock reading as its id; the existing products keep their order |
| BuilderStore.AddKeepsIdsUnique | store/builderStore.js:132-135 | adding under an id not in use keeps the ids distinct |
| BuilderStore.Patch | store/builderStore.js:140 | for each of the seven fields, a value present in the update wins and an absent one keeps the product's value |
| BuilderStore.UpdateProduct | store/builderStore.js:137-142 | the length is kept; exactly the entries with that id are patched, the others unchanged |
| BuilderStore.UpdateAbsentIsIdentity | store/builderStore.js:137-142 | updating an id no product has changes nothing |
| BuilderStore.UpdateKeepsIds | store/builderStore.js:137-142 | a patch without an id keeps every product's id |
| BuilderStore.DeleteProduct | store/builderStore.js:144-147 | every product with that id is removed; every other product is kept, as many times as it occurred, in order |
| BuilderStore.DeleteAbsentIsIdentity | store/builderStore.js:144-147 | deleting an id no product has changes nothing |
| BuilderStore.DeleteUndoesAdd | store/builderStore.js:132-147 | deleting the product just added under a fresh id restores the catalogue |
| BuilderStore.SetCurrentPage | store/builderStore.js:150-153 | only the page changes |
| BuilderStore.SetSelectedProduct | store/builderStore.js:155-159 | the product is selected and the detail page shown; settings, products and cart are kept |
| BuilderStore.FindItem | store/builderStore.js:164 | the line found is in the cart and has that id; none is found exactly when no line has it |
| BuilderStore.AddToCart | store/builderStore.js:162-177 | adding a product changes only the cart; every existing line keeps its position and saved product, and only the product's own lines gain one; a product without a line gets exactly one new line of quantity 1, appended at the end |
| BuilderStore.AddToCartQuantities | store/builderStore.js:162-177 | the product's quantity rises by one, whether it had a line or gets a new line of one; other products keep their quantities; a well-formed cart (distinct ids, quantities ≥ 1) stays well-formed |
| BuilderStore.RemoveFromCart | store/builderStore.js:179-182 | no line of the product remains; every other line is kept, as many times as it occurred, in order; the rest of the state is unchanged |
| Seqs.FilterCounts | store/builderStore.js:146 | `filter` keeps each passing element exactly as often as the input holds it and no other element |
| Seqs.FilterUnique | store/builderStore.js:146 | the filter is the only subsequence of the input with those counts, so order and counts pin the result |
| BuilderStore.RemoveFromCartQuantities | store/builderStore.js:179-182 | the product's quantity becomes zero, every other product's is unchanged, and a well-formed cart stays well-formed |
| BuilderStore.UpdateCartQuantity | store/builderStore.js:184-193 | every remaining line has a positive quantity; the result is the cart with the product's lines set to max(0, quantity), in the same order and with the same saved products, keeping exactly the lines whose quantity is then positive, as many times as they occur |
| BuilderStore.UpdateCartQuantityEffect | store/builderStore.js:184-193 | on a well-formed cart, a product in the cart gets max(0, quantity) and loses its line at zero; other products keep their quantities; the cart stays well-formed |
| BuilderStore.ClearCart | store/builderStore.js:195-198 | the cart is empty, every quantity zero, the rest of the state kept |
| DeployModal.IndexIn | components/builder/DeployModal.jsx:26-27 | `indexOf`: the first position of the name, or -1 exactly when it is absent |
| DeployModal.StageStatus | components/builder/DeployModal.jsx:26-37 | a stage is done iff its index is below the current one, active iff equal, pending otherwise |
| DeployModal.OrderDistinct | components/builder/DeployModal.jsx:17-25 | the seven stage names are pairwise distinct |
| DeployModal.ExactlyOneActive | components/builder/DeployModal.jsx:26-37 | for a known current stage exactly that stage is active, earlier ones done and later ones pending |
| DeployModal.UnknownStageAllPending | components/builder/DeployModal.jsx:26-37 | without a report, or for an unknown stage name, every stage shows pending |
| DeployModal.OrderIsRunStages | components/builder/DeployModal.jsx:17-25 | the indicator's list is the pipeline's stage names, in run order |
| DeployModal.BuildConfig | components/builder/DeployModal.jsx:54-75 | template, logo, colours and font are copied; each empty or missing business field becomes "My Store", "Modern storefront", "hello@example.com", "+91-0000000000" or "India"; no product list is passed |
| DeployModal.BusinessNameDefault | components/builder/DeployModal.jsx:68 | a non-empty business name is kept and an empty or missing one becomes "My Store" |
| DeployModal.DeployedProductsAreDemos | components/builder/DeployModal.jsx:54-75 | the deployed or downloaded products file is always the two demo products |
| DeployModal.HandleDeployToVercel | components/builder/DeployModal.jsx:105-131 | over the corrected pipeline: deploy runs iff both tokens are non-empty; a missing GitHub token is reported first, then a missing Vercel token; otherwise the deploy's own result is shown |
| DeployModal.EnabledButtonDeploys | components/builder/DeployModal.jsx:216-217 | an enabled deploy button always gets past the token checks |
| DeployModal.ClickDeploys | components/builder/DeployModal.jsx:105-131 | over the corrected pipeline: with both tokens and every remote call answering, a click shows the deployed result with both URLs |
| DeployModal.DownloadName | components/builder/DeployModal.jsx:86-88 | the download is named like the repository, plus ".json", and contains no whitespace |
| DeployModal.DownloadNameOf | components/builder/DeployModal.jsx:86-88 | for a non-empty business name the file is its slug + "-store.json" |
| DeployModal.DownloadNameExample | components/builder/DeployModal.jsx:86-88 | business name "Acme Co" gives "acme-co-store.json" |
| DeployModal.UploadLabel | components/builder/DeployModal.jsx:244-248 | the upload stage shows its percentage only when one was reported and it is non-zero |
| ProductManager.FormPatch | components/builder/ProductManager.jsx:45-48 | every form field is carried over with the price parsed, and the id is left alone |
| ProductManager.SaveProduct | components/builder/ProductManager.jsx:39-66 | without a name or a price nothing changes; otherwise editing mode ends, the form is emptied, and the edited product is updated or a new one added |
| ProductManager.SaveAddsOne | components/builder/ProductManager.jsx:45-55 | adding through the form appends exactly one product carrying the form's fields and keeps the others in order |
| ProductManager.EditProduct | components/builder/ProductManager.jsx:68-78 | name, printed price, description, images, category and stock state are loaded into the form; the store is untouched |
| ProductManager.EditThenSaveIsIdentity | components/builder/ProductManager.jsx:39-78 | editing a listed product and saving the unchanged form leaves the catalogue as it was, when the price prints and parses back |
| ProductManager.CancelEdit | components/builder/ProductManager.jsx:80-90 | editing mode ends and the form is emptied; the store is untouched |
| ProductManager.AddImage | components/builder/ProductManager.jsx:22-37 | a returned url is appended to the images; without one nothing changes |
| ProductManager.DropAt | components/builder/ProductManager.jsx:190 | removing position idx deletes exactly that element and keeps the others in order; an index out of range changes nothing |
| ProductManager.RemoveImage | components/builder/ProductManager.jsx:187-191 | only the form's image list changes, by dropping the given position |
| ProductManager.RemoveUndoesAdd | components/builder/ProductManager.jsx:187-191 | removing the image just appended restores the form |
| ProductManager.DeleteClicked | components/builder/ProductManager.jsx:292-296 | only a confirmed deletion reaches the store |
| CustomizationPanel.ApplyPreset | components/builder/CustomizationPanel.jsx:85-89 | exactly the three colour settings take the preset's triple; every other setting and the rest of the state are kept |
| CustomizationPanel.OnlyAppliedPresetActive | components/builder/CustomizationPanel.jsx:250-252 | right after applying a preset, it is the only preset marked active |
| CustomizationPanel.DefaultPresetActive | components/builder/CustomizationPanel.jsx:38-44 | the default colours are Dark Mode's, so it alone starts out marked |
| CustomizationPanel.SelectFont | components/builder/CustomizationPanel.jsx:349 | choosing a font sets `fontFamily`, which then shows as selected |
| CustomizationPanel.OnlySelectedFontShown | components/builder/CustomizationPanel.jsx:349-351 | after choosing a listed font, exactly that option is highlighted |
| CustomizationPanel.ClearLogo | components/builder/CustomizationPanel.jsx:146 | the logo becomes null |
| CustomizationPanel.UploadLogo | components/builder/CustomizationPanel.jsx:71-83 | the logo changes to the returned url only when there is one; a failed or empty upload leaves the state as it was |
| TemplateSelector.SelectTemplate | components/builder/TemplateSelector.jsx:37-42 | selecting sets the template setting, and the chosen card shows as selected |
| TemplateSelector.OnlyPickedCardSelected | components/builder/TemplateSelector.jsx:57 | after picking a card, it is the only card shown selected |
| TemplateSelector.OneCardSelectedInitially | components/builder/TemplateSelector.jsx:9-57 | with the default settings exactly the minimal card is selected |
| LivePreview.TemplateAsWritten | components/builder/LivePreview.jsx:14-20 | the three ids dispatch to their components; any other name falls back to the minimal store unless it names an inherited object member |
| LivePreview.InheritedNameSlipsThrough | components/builder/LivePreview.jsx:20 | the template "toString" selects the inherited member instead of the fallback |
| LivePreview.TemplateFor | components/builder/LivePreview.jsx:14-20 | own-key dispatch: "minimal", "bold" and "modern" pick their components and anything else the minimal store |
| LivePreview.TemplateForAgrees | components/builder/LivePreview.jsx:20 | outside the inherited member names, the corrected and the written dispatch agree |
| LivePreview.PreviewOfStore | components/builder/LivePreview.jsx:20 | the store always previews with one of the three components, the default with the minimal store, and a template picked by its id with that template's component |
| LivePreview.Width | components/builder/LivePreview.jsx:62 | desktop, tablet and mobile give "100%", "768px" and "375px"; an unknown mode gives "100%" |
| LivePreview.FindWidth | components/builder/LivePreview.jsx:22-26 | a mode no entry has gives "100%"; otherwise the first matching entry gives its width, or "100%" when that width is empty |
| LivePreview.MinHeight | components/builder/LivePreview.jsx:65 | "100%" exactly for desktop, "auto" otherwise |
| ExportModal.Export | components/builder/ExportModal.jsx:14-35 | each of the twelve settings is copied, as it is, into its own field of the export |
| ExportModal.ExportRoundTrip | components/builder/ExportModal.jsx:14-35 | the export holds exactly the twelve settings, verbatim: reading it back yields those settings and nothing else |
| ExportModal.ExportIgnoresProductsAndCart | components/builder/ExportModal.jsx:14-35 | stores that agree on the twelve exported settings export equally, whatever their products, cart and other settings |
| ExportModal.ExportHasNoDefaults | components/builder/ExportModal.jsx:28 | an empty business name is exported empty but deployed as "My Store" |
| ExportModal.FontLabel | components/builder/ExportModal.jsx:172 | only the first hyphen becomes a space; the rest and the length are kept |
| ExportModal.FontLabelAt | components/builder/ExportModal.jsx:172 | a font id is shown with its first hyphen replaced by a space and everything else unchanged ("plus-jakarta" reads "plus jakarta") |
| ExportModal.FontLabelPlain | components/builder/ExportModal.jsx:172 | a font id without a hyphen ("inter") is shown unchanged |
| ExportModal.CopyEnabled | components/builder/ExportModal.jsx:196 | copying works exactly in the JSON view |
| ExportModal.ExportFileName | components/builder/ExportModal.jsx:50 | "store-config-", then the clock reading as digits, then ".json" |

## Left out

- Network and transport: `fetch`, status codes beyond OK / 404 / other, JSON bodies and real GitHub and Vercel behaviour. Every exchange is an abstract answered-or-rejected outcome; the branch is a map from path to (sha, content).
- Timers: the 800, 150, 1000, 2500 and 300 ms waits only order events and are omitted. The 300 ms delayed close of the template picker is omitted too.
- Encodings: `GithubService.encode` (base64 of UTF-8) and the nudge's `btoa` are opaque constructors (`Encoded`, `Ascii64`), so they are injective by construction.
- Serialization: the pretty-printed layout of `JSON.stringify` is not modelled. The products file carries the product list itself, and the package download's JSON text is not modelled. `ExportModal.ExportData` flattens two levels of the export's nesting: the source places logo, logo text, colours, typography and business under `customization`, and the font under `customization.typography.fontFamily`. The model keeps colours and business as records of their own and holds the rest as top-level fields.
- `storeReadmeTemplate` is not part of this model. README.md carries only the business name it is given.
- Fixed file text: the literal parts of the generated files (config files, styles, pages) are named blocks, not their characters. Only the interpolated values are modelled.
- The generated product detail page and the home page's product grid are fixed text. They interpolate nothing from the configuration.
- Floating point: `parseFloat` and the printing of prices are parameters of the product editor (`parse`, `show`). `toFixed`, NaN prices and the rating shown in the templates are left out.
- Clock readings (`Date.now()`, `new Date().toISOString()`) are parameters.
- Presentational code is left out: the three store templates, the page shell, the OAuth instructions, tabs and collapse toggles, styling, and React and zustand mechanics. The store is a pure state-to-state function.
- Browser objects (Blob, clipboard, object URLs, anchor clicks, `confirm`, `alert`) are omitted. The confirmation is a boolean parameter; the alert is the unchanged state.
- `useUpload` is not part of this model. Its reply is `UploadResult`: no file chosen, a url (possibly empty), or a thrown error.
- The deploy dialog's "Failed to generate" path is not modelled. The generator is total over the configuration the dialog builds, so that path cannot happen.
- Text.Lower: lower-cases ASCII letters only, because Unicode case mapping is outside Dafny's string model. `\s` in `Text.IsSpace` is the full JavaScript set: space, tab, line feed, vertical tab, form feed, carriage return, U+00A0, U+1680, U+2000 to U+200A, U+2028, U+2029, U+202F, U+205F, U+3000 and U+FEFF.
- MissingFrom: its own contract states membership, order and emptiness. That one entry is listed per failed lookup, so a repeated path appears as often as its lookups failed, is stated by `GithubClient.MissingFromExact`. It is kept apart because the deploy proofs unfold this function and do not need that fact.
- VerifyFiles: likewise, the one-entry-per-failed-lookup statement is `GithubClient.VerifyFilesExact`, kept apart for the same reason.
- DeployPipeline.PercentIsRound: states `Math.round` over exact rationals, not IEEE doubles. The product `(completed / total) * 100` is computed in floating point by the source.
- GithubClient.CreateRepo: a reply with a missing owner object, which would throw a type error at `data.owner.login`, is not represented. The reply always carries an owner.
- Uploads and verification run on the branch "main" whatever `default_branch` the repository reported. This is how the source calls them; the pipeline passes "main" explicitly.

Notes on the code's behaviour, which the model follows:
- The generator escapes nothing and applies no defaults. The defaults for business text live in the deploy dialog.
- The deploy stages after verification are named `vercel` and `deploy`.
- The token checks happen in the deploy dialog, not in `deployToVercel`.
- A cart line keeps a snapshot of the product as it was added.
- `updateCartQuantity` drops every line whose quantity is not positive after the update, not just the product's own line.

## Findings

| source | as written | input that shows it | evidently intended | confidence | as-written member | corrected member |
|---|---|---|---|---|---|---|
| utils/deployService.js:81 | calls `VercelService.triggerDeployment`, which `utils/vercelService.js` does not define, so the call throws a TypeError that the catch turns into `success: false` | any configuration with every remote call answering: the run reports `generating` through `deploy` and then fails | call `VercelService.triggerDeploymentViaGit(owner, name, githubToken)`, whose failure is only a warning, and reach `complete` | high; not executed | DeployPipeline.AsWrittenFailsAtTrigger | DeployPipeline.CorrectedRunDeploys |
| components/builder/LivePreview.jsx:20 | `templates[settings.template]` on a plain object also finds members inherited from `Object.prototype` | settings.template = "toString" selects `Object.prototype.toString` as the component instead of falling back to MinimalStore | an own-property lookup: every name other than the three ids falls back to MinimalStore | low (the template picker only sets the three ids); not executed | LivePreview.InheritedNameSlipsThrough | LivePreview.TemplateFor |

The deploy dialog in this model uses the corrected pipeline (`DeployPipeline.DeployToVercel`). `DeployPipeline.DeployAsWritten` and `DeployPipeline.AsWrittenNeverDeploys` record the code as written. The preview uses `LivePreview.TemplateFor`.

=== FILE: builder_store.dfy ===
/** The builder's global store of store/builderStore.js: the customization
    settings, the product catalogue, page navigation and the shopping cart.
    Every action is a pure function from the state before to the state after. */
module BuilderStore {
  import opened Wrappers
  import opened Text
  import opened Seqs
  import opened Catalog

  /** The settings object; keys are property names, values JavaScript strings or null. */
  type Settings = map<string, Value>

  const DefaultSettings: Settings := map[
    "template" := Str("minimal"),
    "logo" := Null,
    "logoText" := Str("Your Store"),
    "primaryColor" := Str("#000000"),
    "secondaryColor" := Str("#FFFFFF"),
    "accentColor" := Str("#3B82F6"),
    "fontFamily" := Str("inter"),
    "businessName" := Str("Your Store Name"),
    "businessTagline" := Str("Beautiful products for modern living"),
    "businessAddress" := Str("123 Main Street, City, State 12345"),
    "businessEmail" := Str("hello@yourstore.com"),
    "businessPhone" := Str("+1 (555) 123-4567")]

  function Sample(id: string, name: string, price: real, description: string, photo: string, category: string): Product {
    Product(id, name, price, description,
            ["https://images.pexels.com/photos/" + photo + "/pexels-photo-" + photo + ".jpeg?auto=compress&cs=tinysrgb&w=800"],
            category, true)
  }

  const SampleProducts: seq<Product> := [
    Sample("1", "Premium Wireless Headphones", 299.99,
      "Experience crystal-clear audio with our premium wireless headphones. Featuring active noise cancellation and 30-hour battery life.",
      "3587478", "Electronics"),
    Sample("2", "Minimalist Watch", 199.99,
      "Timeless design meets modern craftsmanship. This minimalist watch features a sapphire crystal and genuine leather band.",
      "190819", "Accessories"),
    Sample("3", "Leather Backpack", 149.99,
      "Handcrafted from premium leather, this backpack combines style with functionality. Perfect for work or travel.",
      "2905238", "Bags"),
    Sample("4", "Smart Fitness Tracker", 129.99,
      "Track your fitness goals with precision. Heart rate monitoring, sleep tracking, and GPS navigation.",
      "437039", "Electronics"),
    Sample("5", "Organic Cotton T-Shirt", 39.99,
      "Sustainable and comfortable. Made from 100% organic cotton with a perfect fit.",
      "1334602", "Clothing"),
    Sample("6", "Modern Table Lamp", 89.99,
      "Illuminate your space with style. Adjustable brightness and sleek modern design.",
      "1112598", "Home")]

  /** A cart line: the product as it was added, and how many. */
  datatype CartItem = CartItem(item: Product, quantity: int)

  datatype State = State(
    settings: Settings,
    products: seq<Product>,
    currentPage: string,
    selectedProductId: Value,
    cart: seq<CartItem>)

  const Initial: State := State(DefaultSettings, SampleProducts, "home", Null, [])

  function ProductIds(ps: seq<Product>): (ids: seq<string>)
    ensures |ids| == |ps| && forall i :: 0 <= i < |ps| ==> ids[i] == ps[i].id
  {
    seq(|ps|, i requires 0 <= i < |ps| => ps[i].id)
  }

  /** No two products share an id. */
  predicate UniqueIds(ps: seq<Product>) {
    forall i, j :: 0 <= i < j < |ps| ==> ps[i].id != ps[j].id
  }

  /** The initial catalogue has distinct ids. */
  lemma InitialIdsUnique()
    ensures UniqueIds(Initial.products) && |Initial.products| == 6
    ensures ProductIds(Initial.products) == ["1", "2", "3", "4", "5", "6"]
  {
  }

  // ---------- settings ----------

  /** `updateSetting`: one key set, every other setting and the rest of the state kept. */
  function UpdateSetting(s: State, key: string, value: Value): (r: State)
    ensures r.settings.Keys == s.settings.Keys + {key} && r.settings[key] == value
    ensures forall k :: k in s.settings && k != key ==> r.settings[k] == s.settings[k]
    ensures r == s.(settings := r.settings)
  {
    s.(settings := s.settings[key := value])
  }

  /** `updateSettings`: the spread merge, where the updates win. */
  function UpdateSettings(s: State, updates: Settings): (r: State)
    ensures r.settings.Keys == s.settings.Keys + updates.Keys
    ensures forall k :: k in updates ==> r.settings[k] == updates[k]
    ensures forall k :: k in s.settings && k !in updates ==> r.settings[k] == s.settings[k]
    ensures r == s.(settings := r.settings)
  {
    s.(settings := s.settings + updates)
  }

  /** A one-entry batch is a single-key update. */
  lemma UpdateSettingsOne(s: State, key: string, value: Value)
    ensures UpdateSettings(s, map[key := value]) == UpdateSetting(s, key, value)
  {
    assert s.settings + map[key := value] == s.settings[key := value];
  }

  /** Two batches in a row are one batch of both, the later winning. */
  lemma UpdateSettingsCompose(s: State, a: Settings, b: Settings)
    ensures UpdateSettings(UpdateSettings(s, a), b) == UpdateSettings(s, a + b)
  {
    assert (s.settings + a) + b == s.settings + (a + b);
  }

  /** `resetSettings`: the defaults back, products, page and cart kept. */
  function ResetSettings(s: State): (r: State)
    ensures r.settings == DefaultSettings
    ensures r.products == s.products && r.cart == s.cart
    ensures r.currentPage == s.currentPage && r.selectedProductId == s.selectedProductId
  {
    s.(settings := DefaultSettings)
  }

  /** Resetting forgets every settings change made before it. */
  lemma ResetForgetsUpdates(s: State, updates: Settings)
    ensures ResetSettings(UpdateSettings(s, updates)) == ResetSettings(s)
  {
  }

  /** `switchTemplate`: sets the template key. */
  function SwitchTemplate(s: State, name: string): (r: State)
    ensures "template" in r.settings && r.settings["template"] == Str(name)
    ensures r == UpdateSetting(s, "template", Str(name))
  {
    s.(settings := s.settings["template" := Str(name)])
  }

  /** Switching to the same template twice is switching once. */
  lemma SwitchTemplateIdempotent(s: State, name: string)
    ensures SwitchTemplate(SwitchTemplate(s, name), name) == SwitchTemplate(s, name)
  {
    assert s.settings["template" := Str(name)]["template" := Str(name)] == s.settings["template" := Str(name)];
  }

  // ---------- products ----------

  /** `addProduct`: appended with `Date.now().toString()` as its id; the clock reading is a parameter. */
  function AddProduct(s: State, p: Product, now: nat): (r: State)
    ensures |r.products| == |s.products| + 1
    ensures r.products[..|s.products|] == s.products
    ensures r.products[|s.products|] == p.(id := Decimal(now))
    ensures r == s.(products := r.products)
  {
    s.(products := s.products + [p.(id := Decimal(now))])
  }

  /** Adding under an id not yet in use keeps the ids distinct. */
  lemma AddKeepsIdsUnique(s: State, p: Product, now: nat)
    requires UniqueIds(s.products)
    requires Decimal(now) !in ProductIds(s.products)
    ensures UniqueIds(AddProduct(s, p, now).products)
  {
    var r := AddProduct(s, p, now).products;
    forall i, j | 0 <= i < j < |r| ensures r[i].id != r[j].id {
      if j == |s.products| {
        assert r[i].id == ProductIds(s.products)[i];
      }
    }
  }

  /** The optional fields of an `updates` object. */
  datatype ProductPatch = ProductPatch(
    id: Option<string>, name: Option<string>, price: Option<real>, description: Option<string>,
    images: Option<seq<string>>, category: Option<string>, inStock: Option<bool>)

  /** `{ ...p, ...updates }`. */
  function Patch(p: Product, u: ProductPatch): (q: Product)
    ensures u.id.Some? ==> q.id == u.id.value
    ensures u.id.None? ==> q.id == p.id
    ensures u.name.Some? ==> q.name == u.name.value
    ensures u.name.None? ==> q.name == p.name
    ensures u.price.Some? ==> q.price == u.price.value
    ensures u.price.None? ==> q.price == p.price
    ensures u.description.Some? ==> q.description == u.description.value
    ensures u.description.None? ==> q.description == p.description
    ensures u.images.Some? ==> q.images == u.images.value
    ensures u.images.None? ==> q.images == p.images
    ensures u.category.Some? ==> q.category == u.category.value
    ensures u.category.None? ==> q.category == p.category
    ensures u.inStock.Some? ==> q.inStock == u.inStock.value
    ensures u.inStock.None? ==> q.inStock == p.inStock
    ensures u == ProductPatch(None, None, None, None, None, None, None) ==> q == p
  {
    Product(u.id.GetOr(p.id), u.name.GetOr(p.name), u.price.GetOr(p.price), u.description.GetOr(p.description),
            u.images.GetOr(p.images), u.category.GetOr(p.category), u.inStock.GetOr(p.inStock))
  }

  /** `updateProduct`: every product with that id patched, the others and the order kept. */
  function UpdateProduct(s: State, id: string, u: ProductPatch): (r: State)
    ensures |r.products| == |s.products|
    ensures forall i :: 0 <= i < |s.products| && s.products[i].id == id ==> r.products[i] == Patch(s.products[i], u)
    ensures forall i :: 0 <= i < |s.products| && s.products[i].id != id ==> r.products[i] == s.products[i]
    ensures r == s.(products := r.products)
  {
    s.(products := seq(|s.products|, i requires 0 <= i < |s.products| =>
      if s.products[i].id == id then Patch(s.products[i], u) else s.products[i]))
  }

  /** Updating an id no product has changes nothing. */
  lemma UpdateAbsentIsIdentity(s: State, id: string, u: ProductPatch)
    requires id !in ProductIds(s.products)
    ensures UpdateProduct(s, id, u) == s
  {
    var r := UpdateProduct(s, id, u);
    assert forall i :: 0 <= i < |s.products| ==> s.products[i].id == ProductIds(s.products)[i];
    assert r.products == s.products;
  }

  /** A patch without an id keeps every product's id, so distinct ids stay distinct. */
  lemma UpdateKeepsIds(s: State, id: string, u: ProductPatch)
    requires u.id.None?
    ensures ProductIds(UpdateProduct(s, id, u).products) == ProductIds(s.products)
  {
  }

  function KeepOthers(id: string): Product -> bool {
    (p: Product) => p.id != id
  }

  /** `deleteProduct`: every product with that id dropped, the rest kept in order. */
  function DeleteProduct(s: State, id: string): (r: State)
    ensures forall i :: 0 <= i < |r.products| ==> r.products[i].id != id
    ensures forall p :: p in s.products && p.id != id ==> p in r.products
    ensures forall p :: p in r.products ==> p in s.products
    ensures IsSubseq(r.products, s.products)
    ensures forall p :: multiset(r.products)[p] == if p.id != id then multiset(s.products)[p] else 0
    ensures r == s.(products := r.products)
  {
    FilterIsSubseq(s.products, KeepOthers(id));
    FilterCounts(s.products, KeepOthers(id));
    s.(products := Filter(s.products, KeepOthers(id)))
  }

  /** Deleting an id no product has changes nothing. */
  lemma DeleteAbsentIsIdentity(s: State, id: string)
    requires id !in ProductIds(s.products)
    ensures DeleteProduct(s, id) == s
  {
    assert forall i :: 0 <= i < |s.products| ==> s.products[i].id == ProductIds(s.products)[i];
    FilterKeepsAll(s.products, KeepOthers(id));
  }

  /** Deleting the product just added under a fresh id restores the catalogue. */
  lemma DeleteUndoesAdd(s: State, p: Product, now: nat)
    requires Decimal(now) !in ProductIds(s.products)
    ensures DeleteProduct(AddProduct(s, p, now), Decimal(now)) == s
  {
    var keep := KeepOthers(Decimal(now));
    assert forall i :: 0 <= i < |s.products| ==> s.products[i].id == ProductIds(s.products)[i];
    FilterAppend(s.products, [p.(id := Decimal(now))], keep);
    FilterKeepsAll(s.products, keep);
    assert Filter([p.(id := Decimal(now))], keep) == [];
  }

  // ---------- navigation ----------

  /** `setCurrentPage`. */
  function SetCurrentPage(s: State, page: string): (r: State)
    ensures r.currentPage == page && r == s.(currentPage := page)
  {
    s.(currentPage := page)
  }

  /** `setSelectedProduct`: selects the product and shows its detail page. */
  function SetSelectedProduct(s: State, id: Value): (r: State)
    ensures r.selectedProductId == id && r.currentPage == "product-detail"
    ensures r.settings == s.settings && r.products == s.products && r.cart == s.cart
  {
    s.(selectedProductId := id, currentPage := "product-detail")
  }

  // ---------- cart ----------

  /** `cart.find(item => item.id === id)`. */
  function FindItem(cart: seq<CartItem>, id: string): (r: Option<CartItem>)
    ensures r.Some? ==> r.value in cart && r.value.item.id == id
    ensures r.None? <==> forall i :: 0 <= i < |cart| ==> cart[i].item.id != id
  {
    if |cart| == 0 then None
    else if cart[0].item.id == id then Some(cart[0])
    else FindItem(cart[1..], id)
  }

  /** How many of a product the cart holds. */
  function QuantityOf(cart: seq<CartItem>, id: string): int {
    match FindItem(cart, id)
    case Some(c) => c.quantity
    case None => 0
  }

  /** Cart lines have distinct products and positive quantities. */
  predicate CartOk(cart: seq<CartItem>) {
    && (forall i, j :: 0 <= i < j < |cart| ==> cart[i].item.id != cart[j].item.id)
    && (forall i :: 0 <= i < |cart| ==> cart[i].quantity >= 1)
  }

  /** The cart with `f` applied to the quantity of every line for `id`. */
  function Requantify(cart: seq<CartItem>, id: string, f: int -> int): (r: seq<CartItem>)
    ensures |r| == |cart|
    ensures forall i :: 0 <= i < |cart| ==> r[i].item == cart[i].item
    ensures forall i :: 0 <= i < |cart| ==>
      r[i].quantity == if cart[i].item.id == id then f(cart[i].quantity) else cart[i].quantity
  {
    seq(|cart|, i requires 0 <= i < |cart| =>
      if cart[i].item.id == id then cart[i].(quantity := f(cart[i].quantity)) else cart[i])
  }

  /** Changing the quantities of `id`'s lines changes what the cart reports for `id` only. */
  lemma {:induction false} RequantifyFind(cart: seq<CartItem>, id: string, f: int -> int, other: string)
    ensures FindItem(Requantify(cart, id, f), other) ==
      match FindItem(cart, other)
      case None => None
      case Some(c) => Some(if other == id then c.(quantity := f(c.quantity)) else c)
  {
    if |cart| > 0 {
      var r := Requantify(cart, id, f);
      assert r[1..] == Requantify(cart[1..], id, f);
      RequantifyFind(cart[1..], id, f, other);
    }
  }

  function Increment(q: int): int { q + 1 }

  /** `addToCart`: one more of an existing line, or a new line of one. */
  function AddToCart(s: State, p: Product): (r: State)
    ensures r == s.(cart := r.cart)
    ensures |r.cart| == |s.cart| + (if FindItem(s.cart, p.id).Some? then 0 else 1)
    ensures forall i :: 0 <= i < |s.cart| ==> r.cart[i].item == s.cart[i].item
    ensures forall i :: 0 <= i < |s.cart| ==>
      r.cart[i].quantity == if s.cart[i].item.id == p.id then s.cart[i].quantity + 1 else s.cart[i].quantity
    ensures FindItem(s.cart, p.id).None? ==> r.cart[|s.cart|] == CartItem(p, 1)
  {
    if FindItem(s.cart, p.id).Some? then s.(cart := Requantify(s.cart, p.id, Increment))
    else s.(cart := s.cart + [CartItem(p, 1)])
  }

  /** Finding in a cart with one more line. */
  lemma {:induction false} FindAppend(cart: seq<CartItem>, c: CartItem, id: string)
    ensures FindItem(cart + [c], id) ==
      if FindItem(cart, id).Some? then FindItem(cart, id) else if c.item.id == id then Some(c) else None
  {
    if |cart| > 0 {
      assert (cart + [c])[1..] == cart[1..] + [c];
      FindAppend(cart[1..], c, id);
    } else {
      assert cart + [c] == [c];
    }
  }

  /** Adding a product raises its quantity by one and leaves every other
      product's quantity and the cart's well-formedness as they were. */
  lemma AddToCartQuantities(s: State, p: Product)
    ensures var r := AddToCart(s, p);
      && QuantityOf(r.cart, p.id) == QuantityOf(s.cart, p.id) + 1
      && (forall o :: o != p.id ==> QuantityOf(r.cart, o) == QuantityOf(s.cart, o))
      && (CartOk(s.cart) ==> CartOk(r.cart))
  {
    var r := AddToCart(s, p);
    forall o
      ensures QuantityOf(r.cart, o) == if o == p.id then QuantityOf(s.cart, o) + 1 else QuantityOf(s.cart, o)
    {
      if FindItem(s.cart, p.id).Some? {
        RequantifyFind(s.cart, p.id, Increment, o);
      } else {
        FindAppend(s.cart, CartItem(p, 1), o);
      }
    }
    if CartOk(s.cart) && FindItem(s.cart, p.id).None? {
      assert r.cart == s.cart + [CartItem(p, 1)];
      forall i, j | 0 <= i < j < |r.cart| ensures r.cart[i].item.id != r.cart[j].item.id {
        if j == |s.cart| {
          assert s.cart[i].item.id != p.id;
        }
      }
    }
  }

  function KeepLinesOtherThan(id: string): CartItem -> bool {
    (c: CartItem) => c.item.id != id
  }

  function LineId(c: CartItem): string { c.item.id }

  /** Filtering out lines keeps well-formed carts well-formed. */
  lemma FilterCartOk(cart: seq<CartItem>, keep: CartItem -> bool)
    requires CartOk(cart)
    ensures CartOk(Filter(cart, keep))
  {
    assert DistinctBy(cart, LineId);
    FilterKeepsDistinct(cart, keep, LineId);
    var r := Filter(cart, keep);
    assert DistinctBy(r, LineId);
    forall i | 0 <= i < |r| ensures r[i].quantity >= 1 {
      assert r[i] in cart;
    }
  }

  /** Filtering out lines another product's lines pass leaves that product's quantity alone. */
  lemma {:induction false} FilterFind(cart: seq<CartItem>, keep: CartItem -> bool, id: string)
    requires forall i :: 0 <= i < |cart| && cart[i].item.id == id ==> keep(cart[i])
    ensures FindItem(Filter(cart, keep), id) == FindItem(cart, id)
  {
    if |cart| > 0 {
      var rest := Filter(cart[1..], keep);
      FilterFind(cart[1..], keep, id);
      if keep(cart[0]) {
        assert Filter(cart, keep) == [cart[0]] + rest;
        assert ([cart[0]] + rest)[1..] == rest;
      } else {
        assert Filter(cart, keep) == rest;
        assert cart[0].item.id != id;
      }
    }
  }

  /** `removeFromCart`: every line of the product dropped. */
  function RemoveFromCart(s: State, id: string): (r: State)
    ensures r == s.(cart := r.cart)
    ensures forall i :: 0 <= i < |r.cart| ==> r.cart[i].item.id != id
    ensures IsSubseq(r.cart, s.cart)
    ensures forall c :: multiset(r.cart)[c] == if c.item.id != id then multiset(s.cart)[c] else 0
  {
    FilterIsSubseq(s.cart, KeepLinesOtherThan(id));
    FilterCounts(s.cart, KeepLinesOtherThan(id));
    s.(cart := Filter(s.cart, KeepLinesOtherThan(id)))
  }

  /** Removing a product zeroes its quantity and keeps everything else. */
  lemma RemoveFromCartQuantities(s: State, id: string)
    ensures var r := RemoveFromCart(s, id);
      && QuantityOf(r.cart, id) == 0
      && (forall o :: o != id ==> QuantityOf(r.cart, o) == QuantityOf(s.cart, o))
      && (CartOk(s.cart) ==> CartOk(r.cart))
  {
    forall o | o != id {
      FilterFind(s.cart, KeepLinesOtherThan(id), o);
    }
    if CartOk(s.cart) {
      FilterCartOk(s.cart, KeepLinesOtherThan(id));
    }
  }

  function Positive(c: CartItem): bool { c.quantity > 0 }

  /** `Math.max(0, quantity)`. */
  function ClampQuantity(quantity: int): (q: nat)
    ensures q == quantity || (quantity < 0 && q == 0)
  {
    if quantity > 0 then quantity else 0
  }

  function SetTo(q: int): int -> int { (_: int) => q }

  /** `updateCartQuantity`: the product's lines set to `max(0, quantity)`, then
      every line whose quantity is not positive dropped. */
  function UpdateCartQuantity(s: State, id: string, quantity: int): (r: State)
    ensures r == s.(cart := r.cart)
    ensures forall i :: 0 <= i < |r.cart| ==> r.cart[i].quantity > 0
    ensures IsSubseq(r.cart, Requantify(s.cart, id, SetTo(ClampQuantity(quantity))))
    ensures forall c ::
      multiset(r.cart)[c] == if c.quantity > 0 then multiset(Requantify(s.cart, id, SetTo(ClampQuantity(quantity))))[c] else 0
  {
    var m := Requantify(s.cart, id, SetTo(ClampQuantity(quantity)));
    FilterIsSubseq(m, Positive);
    FilterCounts(m, Positive);
    s.(cart := Filter(m, Positive))
  }

  /** The effect of `updateCartQuantity` on the cart's lines themselves. */
  lemma RequantifiedFilterEffect(cart: seq<CartItem>, id: string, quantity: int)
    requires CartOk(cart)
    ensures var r := Filter(Requantify(cart, id, SetTo(ClampQuantity(quantity))), Positive);
      && QuantityOf(r, id) == (if FindItem(cart, id).Some? && quantity > 0 then quantity else 0)
      && (forall o :: o != id ==> QuantityOf(r, o) == QuantityOf(cart, o))
      && CartOk(r)
  {
    var f := SetTo(ClampQuantity(quantity));
    var m := Requantify(cart, id, f);
    forall o | o != id
      ensures QuantityOf(Filter(m, Positive), o) == QuantityOf(cart, o)
    {
      RequantifyFind(cart, id, f, o);
      FilterFind(m, Positive, o);
    }
    RequantifyFind(cart, id, f, id);
    if quantity > 0 {
      FilterFind(m, Positive, id);
    } else {
      assert forall i :: 0 <= i < |Filter(m, Positive)| ==> Filter(m, Positive)[i].item.id != id by {
        forall i | 0 <= i < |Filter(m, Positive)| ensures Filter(m, Positive)[i].item.id != id {
          var c := Filter(m, Positive)[i];
          assert c in m;
        }
      }
    }
    assert DistinctBy(m, LineId) by {
      forall i, j | 0 <= i < j < |m| ensures LineId(m[i]) != LineId(m[j]) {
        assert m[i].item == cart[i].item && m[j].item == cart[j].item;
      }
    }
    FilterKeepsDistinct(m, Positive, LineId);
  }

  /** On a well-formed cart, a product in the cart gets the clamped quantity
      (and leaves at zero), a product not in it stays out, and the others keep theirs. */
  lemma UpdateCartQuantityEffect(s: State, id: string, quantity: int)
    requires CartOk(s.cart)
    ensures var r := UpdateCartQuantity(s, id, quantity);
      && QuantityOf(r.cart, id) == (if FindItem(s.cart, id).Some? && quantity > 0 then quantity else 0)
      && (forall o :: o != id ==> QuantityOf(r.cart, o) == QuantityOf(s.cart, o))
      && CartOk(r.cart)
  {
    RequantifiedFilterEffect(s.cart, id, quantity);
  }

  /** `clearCart`. */
  function ClearCart(s: State): (r: State)
    ensures r.cart == [] && r == s.(cart := [])
    ensures forall id :: QuantityOf(r.cart, id) == 0
  {
    s.(cart := [])
  }
}

=== FILE: catalog.dfy ===
/** The product record shared by the builder store, the product editor and the
    generated site's data file. */
module Catalog {

  /** A product as the builder keeps it; `price` is a JavaScript number. */
  datatype Product = Product(
    id: string,
    name: string,
    price: real,
    description: string,
    images: seq<string>,
    category: string,
    inStock: bool)
}

=== FILE: customization_panel.dfy ===
/** The selection rules of components/builder/CustomizationPanel.jsx: colour
    presets, font options and the logo. */
module CustomizationPanel {
  import opened Wrappers
  import opened Text
  import opened UploadHook
  import opened BuilderStore

  datatype Preset = Preset(name: string, primary: string, secondary: string, accent: string)

  const Presets: seq<Preset> := [
    Preset("Dark Mode", "#000000", "#FFFFFF", "#3B82F6"),
    Preset("Ocean Blue", "#0C4A6E", "#F0F9FF", "#0EA5E9"),
    Preset("Forest Green", "#14532D", "#F0FDF4", "#22C55E"),
    Preset("Sunset Orange", "#7C2D12", "#FFF7ED", "#F97316"),
    Preset("Royal Purple", "#581C87", "#FAF5FF", "#A855F7")]

  /** The `value`s of `fontOptions`. */
  const FontValues: seq<string> := ["inter", "plus-jakarta", "sora", "montserrat", "poppins"]

  /** `applyColorPreset`: the three colour settings set to the preset's triple. */
  function ApplyPreset(s: State, p: Preset): (r: State)
    ensures r.settings.Keys == s.settings.Keys + {"primaryColor", "secondaryColor", "accentColor"}
    ensures r.settings["primaryColor"] == Str(p.primary)
    ensures r.settings["secondaryColor"] == Str(p.secondary)
    ensures r.settings["accentColor"] == Str(p.accent)
    ensures forall k :: k in s.settings && k !in {"primaryColor", "secondaryColor", "accentColor"} ==>
      r.settings[k] == s.settings[k]
    ensures r == s.(settings := r.settings)
  {
    var s1 := UpdateSetting(s, "primaryColor", Str(p.primary));
    var s2 := UpdateSetting(s1, "secondaryColor", Str(p.secondary));
    UpdateSetting(s2, "accentColor", Str(p.accent))
  }

  /** The check mark on a preset: all three colours match its triple. */
  predicate PresetActive(settings: Settings, p: Preset) {
    && "primaryColor" in settings && settings["primaryColor"] == Str(p.primary)
    && "secondaryColor" in settings && settings["secondaryColor"] == Str(p.secondary)
    && "accentColor" in settings && settings["accentColor"] == Str(p.accent)
  }

  /** After applying a preset, it is the only preset marked. */
  lemma OnlyAppliedPresetActive(s: State, i: nat)
    requires i < |Presets|
    ensures forall j :: 0 <= j < |Presets| ==>
      (PresetActive(ApplyPreset(s, Presets[i]).settings, Presets[j]) <==> j == i)
  {
    var r := ApplyPreset(s, Presets[i]).settings;
    forall j | 0 <= j < |Presets| && j != i
      ensures !PresetActive(r, Presets[j])
    {
      assert Presets[j].primary != Presets[i].primary;
    }
  }

  /** The default colours are the first preset's, so it starts out marked. */
  lemma DefaultPresetActive()
    ensures PresetActive(Initial.settings, Presets[0])
    ensures forall j :: 1 <= j < |Presets| ==> !PresetActive(Initial.settings, Presets[j])
  {
  }

  /** A font option's button. */
  function SelectFont(s: State, value: string): (r: State)
    ensures r == UpdateSetting(s, "fontFamily", Str(value))
    ensures FontSelected(r.settings, value)
  {
    s.(settings := s.settings["fontFamily" := Str(value)])
  }

  /** The highlighted font option. */
  predicate FontSelected(settings: Settings, value: string) {
    "fontFamily" in settings && settings["fontFamily"] == Str(value)
  }

  /** After choosing a listed font, exactly that option is highlighted. */
  lemma OnlySelectedFontShown(s: State, i: nat)
    requires i < |FontValues|
    ensures forall j :: 0 <= j < |FontValues| ==>
      (FontSelected(SelectFont(s, FontValues[i]).settings, FontValues[j]) <==> j == i)
  {
    assert forall a, b :: 0 <= a < b < |FontValues| ==> FontValues[a] != FontValues[b];
  }

  /** The remove button on the logo. */
  function ClearLogo(s: State): (r: State)
    ensures r == UpdateSetting(s, "logo", Null) && r.settings["logo"] == Null
  {
    UpdateSetting(s, "logo", Null)
  }

  /** `handleLogoUpload`: the logo changes only when the upload returned a url. */
  function UploadLogo(s: State, upload: UploadResult): (r: State)
    ensures KeptUrl(upload).Some? ==> r == UpdateSetting(s, "logo", Str(upload.url))
    ensures KeptUrl(upload).None? ==> r == s
  {
    match KeptUrl(upload)
    case Some(url) => UpdateSetting(s, "logo", Str(url))
    case None => s
  }
}

=== FILE: deploy_modal.dfy ===
/** The decision rules of components/builder/DeployModal.jsx: the stage
    indicator, the configuration built from the settings, the token checks in
    front of a deploy, and the name of the downloaded package. */
module DeployModal {
  import opened Wrappers
  import opened Text
  import opened SiteGenerator
  import opened BuilderStore
  import opened DeployPipeline

  /** The `order` list of the `Stage` component. */
  const Order: seq<string> := ["generating", "repo", "upload", "verify", "vercel", "deploy", "complete"]

  /** `xs.indexOf(x)`: the first position of `x`, or -1. */
  function IndexIn(xs: seq<string>, x: string): (i: int)
    ensures -1 <= i < |xs|
    ensures i == -1 <==> x !in xs
    ensures i >= 0 ==> xs[i] == x && forall j :: 0 <= j < i ==> xs[j] != x
  {
    if |xs| == 0 then -1
    else if xs[0] == x then 0
    else
      var k := IndexIn(xs[1..], x);
      if k == -1 then -1 else k + 1
  }

  datatype Status = Done | Active | Pending

  /** The `Stage` indicator for stage `id` given the last progress report's
      stage name (`None` while there is no report). */
  function StageStatus(id: string, current: Option<string>): (st: Status)
    ensures var me, cur := IndexIn(Order, id), IndexIn(Order, current.GetOr(""));
      && (st == Done <==> me < cur)
      && (st == Active <==> me == cur)
      && (st == Pending <==> me > cur)
  {
    var cur := IndexIn(Order, current.GetOr(""));
    var me := IndexIn(Order, id);
    if me < cur then Done else if me == cur then Active else Pending
  }

  /** The stage names are distinct. */
  lemma OrderDistinct()
    ensures forall i, j :: 0 <= i < j < |Order| ==> Order[i] != Order[j]
  {
  }

  /** For a reported stage the run knows, exactly the reported stage is active,
      the earlier ones are done and the later ones pending. */
  lemma ExactlyOneActive(current: string)
    requires current in Order
    ensures forall i :: 0 <= i < |Order| ==>
      (StageStatus(Order[i], Some(current)) == Active <==> Order[i] == current)
    ensures forall i :: 0 <= i < |Order| ==>
      (StageStatus(Order[i], Some(current)) == Done <==> i < IndexIn(Order, current))
  {
    OrderDistinct();
    forall i | 0 <= i < |Order|
      ensures IndexIn(Order, Order[i]) == i
    {
    }
  }

  /** Without a report, or with a stage name the run does not know, every
      stage of the run shows pending. */
  lemma UnknownStageAllPending(current: Option<string>, id: string)
    requires current.None? || current.value !in Order
    requires id in Order
    ensures StageStatus(id, current) == Pending
  {
    assert "" !in Order;
  }

  /** The stage names the indicator uses are the ones the run reports. */
  lemma OrderIsRunStages()
    ensures forall s: Stage :: Rank(s) < |Order| && StageName(s) == Order[Rank(s)] && IndexIn(Order, StageName(s)) == Rank(s)
  {
    OrderDistinct();
    forall s: Stage
      ensures Rank(s) < |Order| && StageName(s) == Order[Rank(s)]
    {
    }
    forall i | 0 <= i < |Order|
      ensures IndexIn(Order, Order[i]) == i
    {
    }
  }

  /** `settings[key]`, `undefined` when the key is missing. */
  function Setting(settings: Settings, key: string): (v: Value)
    ensures key in settings ==> v == settings[key]
    ensures key !in settings ==> v == Undefined
  {
    if key in settings then settings[key] else Undefined
  }

  /** The `storeConfig` object: settings copied, business text defaulted when
      empty or absent, and no `products` property. */
  function BuildConfig(settings: Settings): (c: StoreConfig)
    ensures c.products == Omitted
    ensures c.template == Setting(settings, "template")
    ensures c.customization.colors ==
      Colors(Setting(settings, "primaryColor"), Setting(settings, "secondaryColor"), Setting(settings, "accentColor"))
    ensures c.customization.business == Business(
      OrElse(Setting(settings, "businessName"), "My Store"),
      OrElse(Setting(settings, "businessTagline"), "Modern storefront"),
      OrElse(Setting(settings, "businessEmail"), "hello@example.com"),
      OrElse(Setting(settings, "businessPhone"), "+91-0000000000"),
      OrElse(Setting(settings, "businessAddress"), "India"))
    ensures c.customization.business.name != "" && c.customization.business.address != ""
  {
    StoreConfig(
      Setting(settings, "template"),
      Customization(
        Setting(settings, "logo"),
        Setting(settings, "logoText"),
        Colors(Setting(settings, "primaryColor"), Setting(settings, "secondaryColor"), Setting(settings, "accentColor")),
        Setting(settings, "fontFamily"),
        Business(
          OrElse(Setting(settings, "businessName"), "My Store"),
          OrElse(Setting(settings, "businessTagline"), "Modern storefront"),
          OrElse(Setting(settings, "businessEmail"), "hello@example.com"),
          OrElse(Setting(settings, "businessPhone"), "+91-0000000000"),
          OrElse(Setting(settings, "businessAddress"), "India"))),
      Omitted)
  }

  /** A non-empty business name is kept; an empty or missing one becomes "My Store". */
  lemma BusinessNameDefault(settings: Settings)
    ensures var n := BuildConfig(settings).customization.business.name;
      && ("businessName" in settings && settings["businessName"].Str? && settings["businessName"].s != "" ==> n == settings["businessName"].s)
      && (!("businessName" in settings && settings["businessName"].Str? && settings["businessName"].s != "") ==> n == "My Store")
  {
  }

  /** Since the configuration carries no products, the deployed or downloaded
      site always lists the two demo products, whatever the builder's catalogue. */
  lemma DeployedProductsAreDemos(settings: Settings)
    ensures FileAt(GenerateStoreApp(BuildConfig(settings)), "public/products.json") == Some(ProductData(FallbackProducts))
  {
    ProductsFileContents(BuildConfig(settings));
  }

  /** What clicking "Deploy to Vercel" does: whether the deploy ran, and the result shown. */
  datatype Click = Click(deployRan: bool, result: DeployResult)

  /** `handleDeployToVercel`: the GitHub token is checked first, then the
      Vercel token; only then does the deploy run, with an observer that only
      stores the report and so never throws. */
  function HandleDeployToVercel(githubToken: string, vercelToken: string, settings: Settings, env: Env): (k: Click)
    ensures k.deployRan <==> githubToken != "" && vercelToken != ""
    ensures githubToken == "" ==> k.result == Failed("Please enter your GitHub token")
    ensures githubToken != "" && vercelToken == "" ==> k.result == Failed("Please enter your Vercel API token")
    ensures k.deployRan ==> k.result == DeployToVercel(BuildConfig(settings), env, Listener(None, "")).result
  {
    if githubToken == "" then Click(false, Failed("Please enter your GitHub token"))
    else if vercelToken == "" then Click(false, Failed("Please enter your Vercel API token"))
    else Click(true, DeployToVercel(BuildConfig(settings), env, Listener(None, "")).result)
  }

  /** The deploy button's `disabled` attribute, negated. */
  function DeployEnabled(isDeploying: bool, githubToken: string, vercelToken: string): bool {
    !isDeploying && githubToken != "" && vercelToken != ""
  }

  /** An enabled button always gets past the token checks. */
  lemma EnabledButtonDeploys(githubToken: string, vercelToken: string, settings: Settings, env: Env)
    requires DeployEnabled(false, githubToken, vercelToken)
    ensures HandleDeployToVercel(githubToken, vercelToken, settings, env).deployRan
  {
  }

  /** With every remote call answering, a click with both tokens deploys to the
      project's vercel.app address. */
  lemma ClickDeploys(githubToken: string, vercelToken: string, settings: Settings, env: Env)
    requires githubToken != "" && vercelToken != ""
    requires AllAnswered(env)
    ensures HandleDeployToVercel(githubToken, vercelToken, settings, env).result ==
      Deployed(SuccessMessage, env.repoReply.htmlUrl, "https://" + env.projectReply.name + ".vercel.app")
  {
    CorrectedRunDeploys(BuildConfig(settings), env);
  }

  /** `a.download` of the package download. */
  function DownloadName(settings: Settings): (n: string)
    ensures n == RepoName(BuildConfig(settings).customization.business.name) + ".json"
    ensures NoSpace(n)
  {
    Slug(BuildConfig(settings).customization.business.name) + "-store.json"
  }

  /** The package is named from the business name as a deploy names the
      repository. */
  lemma DownloadNameOf(settings: Settings, name: string)
    requires "businessName" in settings && settings["businessName"] == Str(name) && name != ""
    ensures DownloadName(settings) == Slug(name) + "-store.json"
  {
    assert BuildConfig(settings).customization.business.name == name;
  }

  lemma StoreFileExample()
    ensures Slug("Acme Co") + "-store.json" == "acme-co-store.json"
  {
    SlugExample();
  }

  /** "Acme Co" gives "acme-co-store.json". */
  lemma DownloadNameExample(settings: Settings)
    requires "businessName" in settings && settings["businessName"] == Str("Acme Co")
    ensures DownloadName(settings) == "acme-co-store.json"
  {
    DownloadNameOf(settings, "Acme Co");
    StoreFileExample();
  }

  /** Upload stage label: the percentage is shown once it is non-zero. */
  function UploadLabel(percent: Option<int>): (l: string)
    ensures percent.None? || percent == Some(0) ==> l == "Uploading files"
    ensures percent.Some? && percent.value > 0 ==> l == "Uploading files (" + Decimal(percent.value) + "%)"
  {
    match percent
    case None => "Uploading files"
    case Some(p) =>
      if p == 0 then "Uploading files"
      else if p > 0 then "Uploading files (" + Decimal(p) + "%)"
      else "Uploading files (-" + Decimal(-p) + "%)"
  }
}

=== FILE: deploy_pipeline.dfy ===
/** The deploy orchestration of utils/deployService.js: generate the files,
    create the repository, upload, verify, create the hosting project and
    trigger the build, reporting progress to an observer. Every remote reply
    comes from an `Env`; the run itself is a pure function of the
    configuration, the environment and the observer. */
module DeployPipeline {
  import opened Wrappers
  import opened Text
  import opened SiteGenerator
  import opened GithubClient
  import opened VercelClient

  datatype Stage = Generating | Repo | Upload | Verify | Vercel | Deploy | Complete

  function StageName(s: Stage): string {
    match s
    case Generating => "generating"
    case Repo => "repo"
    case Upload => "upload"
    case Verify => "verify"
    case Vercel => "vercel"
    case Deploy => "deploy"
    case Complete => "complete"
  }

  /** Position of a stage in the run. */
  function Rank(s: Stage): nat {
    match s
    case Generating => 0
    case Repo => 1
    case Upload => 2
    case Verify => 3
    case Vercel => 4
    case Deploy => 5
    case Complete => 6
  }

  /** One `onProgress` call; `percent` is the optional `progress` property. */
  datatype Progress = Progress(stage: Stage, message: string, percent: Option<int>)

  datatype DeployResult =
    | Deployed(message: string, repoUrl: string, vercelUrl: string)
    | Failed(message: string)

  /** The progress calls made, the result returned, and the marker commit the
      corrected flow makes. */
  datatype Deployment = Deployment(trace: seq<Progress>, result: DeployResult, nudge: Option<Nudge>)

  /** The replies of GitHub and Vercel during one run, and the clock readings. */
  datatype Env = Env(
    repoReply: RepoReply,
    remote: Remote,
    upload: nat -> Attempt,
    verify: nat -> Link,
    repoLookup: RepoLookup,
    projectReply: ProjectReply,
    now: nat,
    isoTime: string,
    nudge: Link)

  /** The deploy-trigger step as written (a static method the client does not
      have) or as evidently intended (the git nudge the client does have). */
  datatype TriggerCall = MissingMethod | ViaGit

  const MissingMethodError: string := "VercelService.triggerDeployment is not a function"
  const SuccessMessage: string := "Your store has been deployed! Build may take a minute."
  const RequiredPaths: seq<string> :=
    ["package.json", "next.config.js", "public/products.json", "pages/index.js", "pages/product/[id].js"]

  /** `err.message || "Deployment failed"`. */
  function Reason(e: string): (m: string)
    ensures m != ""
    ensures e != "" ==> m == e
  {
    if e == "" then "Deployment failed" else e
  }

  /** The repository and project name: the slugged business name plus "-store". */
  function RepoName(businessName: string): (n: string)
    ensures n == Slug(businessName) + "-store"
    ensures NoSpace(n)
  {
    Slug(businessName) + "-store"
  }

  /** The generated package.json is named exactly as the repository a deploy creates. */
  lemma PackageNameIsRepoName(config: StoreConfig)
    ensures var t := FileAt(GenerateStoreApp(config), "package.json");
      t.Some? && t.value.Source? &&
      ValueAfter(t.value.segments, PackageHead) == Some(RepoName(config.customization.business.name))
  {
    PackageNameIsStoreSlug(config);
  }

  /** `Math.round((completed / total) * 100)` over integers. */
  function Percent(completed: nat, total: nat): int
    requires total > 0
  {
    (200 * completed + total) / (2 * total)
  }

  /** Multiplying by a non-negative factor keeps the order. */
  lemma {:induction false} MulMono(a: int, b: int, d: nat)
    requires a <= b
    ensures a * d <= b * d
  {
    if d > 0 {
      MulMono(a, b, d - 1);
      assert a * d == a * (d - 1) + a && b * d == b * (d - 1) + b;
    }
  }

  /** The quotient is the only `q` with `d·q <= n < d·q + d`. */
  lemma DivUnique(n: int, d: nat, q: int)
    requires d > 0 && d * q <= n < d * q + d
    ensures n / d == q
  {
    var r := n / d;
    assert d * r <= n < d * r + d;
    if r < q {
      assert d * (r + 1) == d * r + d;
      MulMono(r + 1, q, d);
    } else if q < r {
      assert d * (q + 1) == d * q + d;
      MulMono(q + 1, r, d);
    }
  }

  /** Two bounds on `n` scaled by a positive `t` bound `n / t`. */
  lemma RealDivBounds(lo: real, n: real, hi: real, t: real)
    requires t > 0.0 && lo * t <= n < hi * t
    ensures lo <= n / t < hi
  {
    var x := n / t;
    assert x * t == n;
  }

  /** `Percent` is `Math.round`: the nearest integer to 100·completed/total,
      halves rounding up. */
  lemma PercentIsRound(completed: nat, total: nat)
    requires total > 0
    ensures var p := Percent(completed, total);
      (p as real) - 0.5 <= 100.0 * (completed as real) / (total as real) < (p as real) + 0.5
  {
    var p := Percent(completed, total);
    var n := 200 * completed + total;
    assert 2 * total * p <= n < 2 * total * p + 2 * total;
    var T, C, P := total as real, completed as real, p as real;
    assert (P - 0.5) * T == (2 * total * p - total) as real / 2.0;
    assert (P + 0.5) * T == (2 * total * p + total) as real / 2.0;
    RealDivBounds(P - 0.5, 100.0 * C, P + 0.5, T);
  }

  /** The quotient defining `Percent` is bracketed by its divisor. */
  lemma PercentQuotient(completed: nat, total: nat)
    requires total > 0
    ensures var p := Percent(completed, total);
      2 * total * p <= 200 * completed + total < 2 * total * p + 2 * total
  {
  }

  lemma PercentInRange(completed: nat, total: nat)
    requires 0 < total && completed <= total
    ensures 0 <= Percent(completed, total) <= 100
  {
    var d, p := 2 * total, Percent(completed, total);
    PercentQuotient(completed, total);
    MulMono(completed, total, 200);
    if p > 100 {
      MulMono(101, p, d);
      assert false;
    }
  }

  lemma PercentFull(total: nat)
    requires 0 < total
    ensures Percent(total, total) == 100
  {
    DivUnique(200 * total + total, 2 * total, 100);
  }

  lemma PercentMonotone(completed: nat, total: nat)
    requires 0 < total
    ensures Percent(completed, total) <= Percent(completed + 1, total)
  {
    var d, p, p2 := 2 * total, Percent(completed, total), Percent(completed + 1, total);
    PercentQuotient(completed, total);
    PercentQuotient(completed + 1, total);
    if p2 < p {
      MulMono(p2 + 1, p, d);
      assert false;
    }
  }

  /** Upload percentages stay within 0..100, grow with the count and reach 100 at the end. */
  lemma PercentBounds(completed: nat, total: nat)
    requires 0 < total && completed <= total
    ensures 0 <= Percent(completed, total) <= 100
    ensures completed == total ==> Percent(completed, total) == 100
    ensures completed < total ==> Percent(completed, total) <= Percent(completed + 1, total)
  {
    PercentInRange(completed, total);
    PercentFull(total);
    PercentMonotone(completed, total);
  }

  /** The upload-stage progress call for each uploaded file. */
  function UploadEvents(ticks: seq<Tick>): (es: seq<Progress>)
    requires forall k :: 0 <= k < |ticks| ==> ticks[k].total > 0
    ensures |es| == |ticks|
    ensures forall k :: 0 <= k < |es| ==> es[k].stage == Upload
  {
    seq(|ticks|, k requires 0 <= k < |ticks| =>
      Progress(Upload, "Uploading " + ticks[k].current + "...", Some(Percent(ticks[k].completed, ticks[k].total))))
  }

  function Prepend(events: seq<Progress>, d: Deployment): (r: Deployment)
    ensures r.trace == events + d.trace && r.result == d.result && r.nudge == d.nudge
  {
    Deployment(events + d.trace, d.result, d.nudge)
  }

  // ---------- the run, stage by stage ----------

  /** Where a run stands after a remote call has answered: what it has
      obtained so far and which stage comes next. */
  datatype Cursor =
    | AtRepo
    | AtUpload(repo: RepoInfo)
    | AtVerify(remote: Remote, repo: RepoInfo)
    | AtVercel(repo: RepoInfo)
    | AtTrigger(repo: RepoInfo, project: Project)

  /** The first stage a cursor reports. */
  function First(at: Cursor): Stage {
    match at
    case AtRepo => Generating
    case AtUpload(_) => Upload
    case AtVerify(_, _) => Verify
    case AtVercel(_) => Vercel
    case AtTrigger(_, _) => Deploy
  }

  /** How many stages follow a cursor's own. */
  function Ahead(at: Cursor): nat {
    match at
    case AtRepo => 4
    case AtUpload(_) => 3
    case AtVerify(_, _) => 2
    case AtVercel(_) => 1
    case AtTrigger(_, _) => 0
  }

  /** One stage: its progress calls, then the next cursor or the end of the run. */
  datatype Step =
    | Next(events: seq<Progress>, next: Cursor)
    | Stop(events: seq<Progress>, result: DeployResult, nudge: Option<Nudge>)

  /** Generation and the repository creation. */
  function RepoStep(env: Env): (s: Step)
    ensures s.Next? ==> s.next.AtUpload?
  {
    var head := [Progress(Generating, "Generating project files...", None),
                 Progress(Repo, "Creating GitHub repository...", None)];
    match CreateRepo(env.repoReply)
    case Failure(e) => Stop(head, Failed(Reason(e)), None)
    case Success(repo) => Next(head, AtUpload(repo))
  }

  /** The upload of every generated file, with a report per file. */
  function UploadStep(files: FileSet, env: Env, repo: RepoInfo): (s: Step)
    requires |files| > 0
    ensures s.Next? ==> s.next.AtVerify?
  {
    var run := UploadFiles(env.remote, files, env.upload, DefaultBranch);
    var events := [Progress(Upload, "Uploading files to GitHub...", Some(0))] + UploadEvents(run.ticks);
    match run.failure
    case Some(e) => Stop(events, Failed(Reason(e)), None)
    case None => Next(events, AtVerify(run.remote, repo))
  }

  /** The lookup of the required files on the branch the upload left. */
  function VerifyStep(remote: Remote, env: Env, repo: RepoInfo): (s: Step)
    ensures s.Next? ==> s.next.AtVercel?
  {
    var verify := Progress(Verify, "Verifying files...", None);
    var missing := VerifyFiles(remote, RequiredPaths, env.verify);
    if |missing| > 0 then Stop([verify], Failed("Critical files missing: " + Join(missing, ", ")), None)
    else Next([verify], AtVercel(repo))
  }

  /** The project creation. */
  function VercelStep(env: Env, repo: RepoInfo, name: string): (s: Step)
    ensures s.Next? ==> s.next.AtTrigger?
  {
    var vercel := Progress(Vercel, "Creating Vercel project...", None);
    var c := CreateProject(repo.htmlUrl, name, DefaultBranch, env.repoLookup, env.projectReply);
    match c.result
    case Failure(e) => Stop([vercel], Failed(Reason(e)), None)
    case Success(project) => Next([vercel], AtTrigger(repo, project))
  }

  /** The deploy call, which ends every run that reaches it. */
  function TriggerStep(env: Env, call: TriggerCall, repo: RepoInfo, project: Project): (s: Step)
    ensures s.Stop?
  {
    var deploy := Progress(Deploy, "Triggering deployment...", None);
    match call
    case MissingMethod => Stop([deploy], Failed(MissingMethodError), None)
    case ViaGit =>
      var nudge := TriggerDeploymentViaGit(DefaultBranch, env.now, env.isoTime, env.nudge);
      Stop([deploy, Progress(Complete, "Deployment initiated!", None)],
           Deployed(SuccessMessage, repo.htmlUrl, project.url), Some(nudge))
  }

  /** The stage a cursor stands at; a stage always leads one step onwards. */
  function StepAt(at: Cursor, files: FileSet, name: string, env: Env, call: TriggerCall): (s: Step)
    requires |files| > 0
    ensures s.Next? ==> Ahead(s.next) + 1 == Ahead(at)
  {
    match at
    case AtRepo => RepoStep(env)
    case AtUpload(repo) => UploadStep(files, env, repo)
    case AtVerify(remote, repo) => VerifyStep(remote, env, repo)
    case AtVercel(repo) => VercelStep(env, repo, name)
    case AtTrigger(repo, project) => TriggerStep(env, call, repo, project)
  }

  /** The run from cursor `at` on. */
  function Run(at: Cursor, files: FileSet, name: string, env: Env, call: TriggerCall): Deployment
    requires |files| > 0
    decreases Ahead(at)
  {
    match StepAt(at, files, name, env, call)
    case Stop(events, result, nudge) => Deployment(events, result, nudge)
    case Next(events, next) => Prepend(events, Run(next, files, name, env, call))
  }

  /** `deployToVercel` with an observer that records every call and never throws. */
  function Script(config: StoreConfig, env: Env, call: TriggerCall): Deployment {
    Run(AtRepo, GenerateStoreApp(config), RepoName(config.customization.business.name), env, call)
  }

  /** The `onProgress` argument: absent, or a callback that throws `error` on its call number `throwsAt`. */
  datatype Observer = Silent | Listener(throwsAt: Option<nat>, error: string)

  /** The observer's effect: without one nothing is reported; a throwing one
      ends the run at that call, and the catch reports its message. The only
      remote write after a report is the git nudge, made between the `deploy`
      and `complete` reports, so it stands exactly when the failing call is
      a `complete` one. */
  function Observe(d: Deployment, obs: Observer): (o: Deployment)
    ensures o.trace <= d.trace
    ensures o.result == d.result || (obs.Listener? && o.result == Failed(Reason(obs.error)))
    ensures obs.Silent? ==> o.trace == [] && o.result == d.result && o.nudge == d.nudge
    ensures obs.Listener? && (obs.throwsAt.None? || obs.throwsAt.value >= |d.trace|) ==> o == d
    ensures obs.Listener? && obs.throwsAt.Some? && obs.throwsAt.value < |d.trace| ==>
      && o.trace == d.trace[..obs.throwsAt.value + 1]
      && o.result == Failed(Reason(obs.error))
      && o.nudge == if d.trace[obs.throwsAt.value].stage == Complete then d.nudge else None
  {
    match obs
    case Silent => d.(trace := [])
    case Listener(None, _) => d
    case Listener(Some(k), err) =>
      if k < |d.trace| then
        Deployment(d.trace[..k + 1], Failed(Reason(err)), if d.trace[k].stage == Complete then d.nudge else None)
      else d
  }

  /** `deployToVercel` as written: the trigger step calls a method that does
      not exist. The observer sees a prefix of the run's reports, and a
      result other than the run's own is the observer's failure. */
  function DeployAsWritten(config: StoreConfig, env: Env, obs: Observer): (d: Deployment)
    ensures d.trace <= Script(config, env, MissingMethod).trace
    ensures d.result == Script(config, env, MissingMethod).result || (obs.Listener? && d.result == Failed(Reason(obs.error)))
  {
    var run := Script(config, env, MissingMethod);
    Observe(run, obs)
  }

  /** `deployToVercel` with the trigger step using `triggerDeploymentViaGit`.
      The observer sees a prefix of the run's reports, and a result other
      than the run's own is the observer's failure. */
  function DeployToVercel(config: StoreConfig, env: Env, obs: Observer): (d: Deployment)
    ensures d.trace <= Script(config, env, ViaGit).trace
    ensures d.result == Script(config, env, ViaGit).result || (obs.Listener? && d.result == Failed(Reason(obs.error)))
  {
    var run := Script(config, env, ViaGit);
    Observe(run, obs)
  }

  // ---------- the shape of a run ----------

  /** Consecutive progress calls stay in a stage or move to the next one. */
  predicate Steps(t: seq<Progress>) {
    forall i :: 0 < i < |t| ==> Rank(t[i].stage) == Rank(t[i - 1].stage) || Rank(t[i].stage) == Rank(t[i - 1].stage) + 1
  }

  /** Stages are reported in the order of the run, starting with generation. */
  predicate InOrder(t: seq<Progress>) {
    (|t| > 0 ==> t[0].stage == Generating) && Steps(t)
  }

  /** Every reported percentage is within 0..100. */
  predicate PercentsInRange(t: seq<Progress>) {
    forall i :: 0 <= i < |t| && t[i].percent.Some? ==> 0 <= t[i].percent.value <= 100
  }

  /** The run from stage `first` on: stages in order, percentages in range, and
      a deployment result exactly when the run ends with the completion call,
      which nothing precedes. */
  predicate Shaped(d: Deployment, first: Stage) {
    && |d.trace| > 0 && d.trace[0].stage == first
    && Steps(d.trace)
    && PercentsInRange(d.trace)
    && (d.result.Deployed? <==> d.trace[|d.trace| - 1].stage == Complete)
    && (forall i :: 0 <= i < |d.trace| - 1 ==> d.trace[i].stage != Complete)
  }


  lemma PrependShaped(events: seq<Progress>, d: Deployment, first: Stage, next: Stage)
    requires |events| > 0 && events[0].stage == first && Steps(events) && PercentsInRange(events)
    requires forall i :: 0 <= i < |events| ==> events[i].stage != Complete
    requires Rank(next) == Rank(events[|events| - 1].stage) + 1
    requires Shaped(d, next)
    ensures Shaped(Prepend(events, d), first)
  {
    var t := events + d.trace;
    forall i | 0 < i < |t|
      ensures Rank(t[i].stage) == Rank(t[i - 1].stage) || Rank(t[i].stage) == Rank(t[i - 1].stage) + 1
    {
      if i < |events| {
        assert t[i] == events[i] && t[i - 1] == events[i - 1];
      } else if i == |events| {
        assert t[i] == d.trace[0] && t[i - 1] == events[|events| - 1];
      } else {
        assert t[i] == d.trace[i - |events|] && t[i - 1] == d.trace[i - 1 - |events|];
      }
    }
  }

  // ---------- the shape of each stage ----------

  /** A stage's reports are well formed: they start at `first`, stay in order
      with percentages in range, and either hand over to the stage right after
      their last one without completing, or end a well-shaped run. */
  predicate StepShaped(s: Step, first: Stage) {
    && |s.events| > 0 && s.events[0].stage == first
    && Steps(s.events) && PercentsInRange(s.events)
    && (s.Next? ==>
         && (forall i :: 0 <= i < |s.events| ==> s.events[i].stage != Complete)
         && Rank(First(s.next)) == Rank(s.events[|s.events| - 1].stage) + 1)
    && (s.Stop? ==> Shaped(Deployment(s.events, s.result, s.nudge), first))
  }

  /** Non-empty reports that all belong to stage `s`. */
  predicate InStage(events: seq<Progress>, s: Stage) {
    |events| > 0 && forall i :: 0 <= i < |events| ==> events[i].stage == s
  }

  /** Reports of one stage other than completion hand over to the next stage. */
  lemma NextInStage(events: seq<Progress>, s: Stage, next: Cursor)
    requires InStage(events, s) && s != Complete && PercentsInRange(events)
    requires Rank(First(next)) == Rank(s) + 1
    ensures StepShaped(Next(events, next), s)
  {
  }

  /** Reports of one stage other than completion end a run that does not deploy. */
  lemma StopInStage(events: seq<Progress>, s: Stage, result: DeployResult, nudge: Option<Nudge>)
    requires InStage(events, s) && s != Complete && PercentsInRange(events)
    requires !result.Deployed?
    ensures StepShaped(Stop(events, result, nudge), s)
  {
  }

  lemma RepoStepShaped(env: Env)
    ensures StepShaped(RepoStep(env), Generating)
  {
  }

  /** Percentages of upload reports whose counts never pass the total are in range. */
  lemma UploadEventsInRange(ticks: seq<Tick>)
    requires forall k :: 0 <= k < |ticks| ==> 0 < ticks[k].total && ticks[k].completed <= ticks[k].total
    ensures PercentsInRange(UploadEvents(ticks))
  {
    var es := UploadEvents(ticks);
    forall k | 0 <= k < |es|
      ensures es[k].percent.Some? && 0 <= es[k].percent.value <= 100
    {
      PercentBounds(ticks[k].completed, ticks[k].total);
    }
  }

  /** The opening upload report followed by per-file reports stays in the upload stage. */
  lemma UploadReportsInStage(start: Progress, es: seq<Progress>)
    requires start.stage == Upload && start.percent == Some(0)
    requires forall k :: 0 <= k < |es| ==> es[k].stage == Upload
    requires PercentsInRange(es)
    ensures InStage([start] + es, Upload) && PercentsInRange([start] + es)
  {
    var t := [start] + es;
    forall i | 0 < i < |t|
      ensures t[i] == es[i - 1]
    {
    }
  }

  lemma UploadStepShaped(files: FileSet, env: Env, repo: RepoInfo)
    requires |files| > 0
    ensures StepShaped(UploadStep(files, env, repo), Upload)
  {
    var run := UploadFiles(env.remote, files, env.upload, DefaultBranch);
    var es := UploadEvents(run.ticks);
    var events := [Progress(Upload, "Uploading files to GitHub...", Some(0))] + es;
    UploadEventsInRange(run.ticks);
    UploadReportsInStage(Progress(Upload, "Uploading files to GitHub...", Some(0)), es);
    if run.failure.Some? {
      StopInStage(events, Upload, Failed(Reason(run.failure.value)), None);
    } else {
      NextInStage(events, Upload, AtVerify(run.remote, repo));
    }
  }

  lemma VerifyStepShaped(remote: Remote, env: Env, repo: RepoInfo)
    ensures StepShaped(VerifyStep(remote, env, repo), Verify)
  {
    var s := VerifyStep(remote, env, repo);
    if s.Stop? {
      StopInStage(s.events, Verify, s.result, s.nudge);
    } else {
      NextInStage(s.events, Verify, s.next);
    }
  }

  lemma VercelStepShaped(env: Env, repo: RepoInfo, name: string)
    ensures StepShaped(VercelStep(env, repo, name), Vercel)
  {
    var s := VercelStep(env, repo, name);
    if s.Stop? {
      StopInStage(s.events, Vercel, s.result, s.nudge);
    } else {
      NextInStage(s.events, Vercel, s.next);
    }
  }

  lemma TriggerStepShaped(env: Env, call: TriggerCall, repo: RepoInfo, project: Project)
    ensures StepShaped(TriggerStep(env, call, repo, project), Deploy)
  {
    var s := TriggerStep(env, call, repo, project);
    if call.MissingMethod? {
      StopInStage(s.events, Deploy, s.result, s.nudge);
    }
  }

  lemma StepAtShaped(at: Cursor, files: FileSet, name: string, env: Env, call: TriggerCall)
    requires |files| > 0
    ensures StepShaped(StepAt(at, files, name, env, call), First(at))
  {
    match at
    case AtRepo => RepoStepShaped(env);
    case AtUpload(repo) => UploadStepShaped(files, env, repo);
    case AtVerify(remote, repo) => VerifyStepShaped(remote, env, repo);
    case AtVercel(repo) => VercelStepShaped(env, repo, name);
    case AtTrigger(repo, project) => TriggerStepShaped(env, call, repo, project);
  }

  // ---------- the shape of a run ----------

  /** Every run from a cursor on is well shaped. */
  lemma {:induction false} RunShaped(at: Cursor, files: FileSet, name: string, env: Env, call: TriggerCall)
    requires |files| > 0
    ensures Shaped(Run(at, files, name, env, call), First(at))
    decreases Ahead(at)
  {
    var s := StepAt(at, files, name, env, call);
    StepAtShaped(at, files, name, env, call);
    if s.Next? {
      RunShaped(s.next, files, name, env, call);
      PrependShaped(s.events, Run(s.next, files, name, env, call), First(at), First(s.next));
    }
  }

  /** A deployment is the run of the generated app for that configuration. */
  predicate RunOf(d: Deployment, config: StoreConfig, env: Env, call: TriggerCall) {
    d == Run(AtRepo, GenerateStoreApp(config), RepoName(config.customization.business.name), env, call)
  }

  lemma ScriptIsRun(config: StoreConfig, env: Env, call: TriggerCall)
    ensures RunOf(Script(config, env, call), config, env, call)
  {
  }

  /** What an observer leaves of a run: a prefix of its reports, and a
      deployment only when the run deployed. */
  lemma ObservePrefix(d: Deployment, obs: Observer)
    ensures var o := Observe(d, obs);
      && |o.trace| <= |d.trace|
      && (forall i :: 0 <= i < |o.trace| ==> o.trace[i] == d.trace[i])
      && (o.result.Deployed? ==> d.result.Deployed?)
  {
  }

  /** Observing a run that starts with generation keeps it in order. */
  lemma ObserveInOrder(d: Deployment, obs: Observer)
    requires Shaped(d, Generating)
    ensures InOrder(Observe(d, obs).trace) && PercentsInRange(Observe(d, obs).trace)
  {
    ObservePrefix(d, obs);
  }

  /** Whatever the replies and the observer, progress is reported stage by
      stage in the order of the run, with percentages within 0..100. */
  lemma StagesInOrder(config: StoreConfig, env: Env, call: TriggerCall, obs: Observer)
    ensures var d := Observe(Script(config, env, call), obs);
      InOrder(d.trace) && PercentsInRange(d.trace)
  {
    var d := Script(config, env, call);
    ScriptIsRun(config, env, call);
    RunShaped(AtRepo, GenerateStoreApp(config), RepoName(config.customization.business.name), env, call);
    ObserveInOrder(d, obs);
  }

  /** Only the deploy step can end a run with a deployment, and then its last report is the completion. */
  lemma StopDeployedLast(at: Cursor, files: FileSet, name: string, env: Env, call: TriggerCall)
    requires |files| > 0
    ensures var s := StepAt(at, files, name, env, call);
      s.Stop? && s.result.Deployed? ==>
        |s.events| > 0 && s.events[|s.events| - 1] == Progress(Complete, "Deployment initiated!", None)
  {
  }

  /** A run that deploys ends with the completion report. */
  lemma {:induction false} DeployedReportLast(at: Cursor, files: FileSet, name: string, env: Env, call: TriggerCall)
    requires |files| > 0
    requires Run(at, files, name, env, call).result.Deployed?
    ensures var d := Run(at, files, name, env, call);
      |d.trace| > 0 && d.trace[|d.trace| - 1] == Progress(Complete, "Deployment initiated!", None)
    decreases Ahead(at)
  {
    var s := StepAt(at, files, name, env, call);
    if s.Next? {
      DeployedReportLast(s.next, files, name, env, call);
    } else {
      StopDeployedLast(at, files, name, env, call);
    }
  }

  /** A run deploys exactly when it reports the completion stage, and then
      that is its last report. */
  lemma DeployedIffComplete(config: StoreConfig, env: Env, call: TriggerCall)
    ensures var d := Script(config, env, call);
      d.result.Deployed? <==> exists i :: 0 <= i < |d.trace| && d.trace[i].stage == Complete
    ensures var d := Script(config, env, call);
      d.result.Deployed? ==> d.trace[|d.trace| - 1] == Progress(Complete, "Deployment initiated!", None)
  {
    var files, name := GenerateStoreApp(config), RepoName(config.customization.business.name);
    var d := Script(config, env, call);
    ScriptIsRun(config, env, call);
    RunShaped(AtRepo, files, name, env, call);
    assert Shaped(d, Generating);
    if d.result.Deployed? {
      DeployedReportLast(AtRepo, files, name, env, call);
    }
  }

  // ---------- failures ----------

  /** A refused repository creation ends the run after two reports, with the API's message. */
  lemma RepoRefusedStops(config: StoreConfig, env: Env, call: TriggerCall)
    requires env.repoReply.RepoRefused?
    ensures Script(config, env, call) ==
      Deployment([Progress(Generating, "Generating project files...", None),
                  Progress(Repo, "Creating GitHub repository...", None)],
                 Failed("Repo create failed: " + Interpolate(env.repoReply.message)), None)
  {
  }

  /** The run of `files` once the repository exists: the repository reports,
      then the run from the upload on. */
  lemma CreatedRunsUpload(files: FileSet, name: string, env: Env, call: TriggerCall)
    requires |files| > 0
    requires env.repoReply.RepoCreated?
    ensures Run(AtRepo, files, name, env, call) ==
      Prepend([Progress(Generating, "Generating project files...", None),
               Progress(Repo, "Creating GitHub repository...", None)],
              Run(AtUpload(CreateRepo(env.repoReply).value), files, name, env, call))
  {
  }

  /** The run ended on upload `k`, where `k` counts the per-file reports after
      the generating, repo and upload-start ones: every earlier upload
      succeeded, upload `k` failed and its error is the result, and no report
      went past the upload stage. */
  predicate StoppedAtUpload(d: Deployment, env: Env) {
    var k := |d.trace| - 3;
    && 0 <= k < |AppPaths|
    && (forall j :: 0 <= j < k ==> Succeeds(env.upload(j)))
    && !Succeeds(env.upload(k))
    && d.result == Failed(UploadError(AppPaths[k], env.upload(k)))
    && (forall i :: 0 <= i < |d.trace| ==> Rank(d.trace[i].stage) <= Rank(Upload))
  }

  /** The first failing upload ends the run: the error names that file, and
      nothing from verification on is reported. */
  lemma UploadFailureStops(config: StoreConfig, env: Env, call: TriggerCall)
    requires env.repoReply.RepoCreated?
    requires exists k :: 0 <= k < |AppPaths| && !Succeeds(env.upload(k))
    ensures StoppedAtUpload(Script(config, env, call), env)
  {
    ScriptIsRun(config, env, call);
    UploadFailureFor(GenerateStoreApp(config), RepoName(config.customization.business.name), env, call, Script(config, env, call));
  }

  lemma UploadFailureFor(files: FileSet, name: string, env: Env, call: TriggerCall, d: Deployment)
    requires PathsOf(files) == AppPaths
    requires env.repoReply.RepoCreated?
    requires exists k :: 0 <= k < |AppPaths| && !Succeeds(env.upload(k))
    requires d == Run(AtRepo, files, name, env, call)
    ensures StoppedAtUpload(d, env)
  {
    var repo := CreateRepo(env.repoReply).value;
    CreatedRunsUpload(files, name, env, call);
    var run := UploadFiles(env.remote, files, env.upload, DefaultBranch);
    assert run.failure.Some?;
    var k := |run.ticks|;
    assert files[k].path == PathsOf(files)[k];
    assert UploadError(files[k].path, env.upload(k)) != "";
    var s := UploadStep(files, env, repo);
    assert Run(AtUpload(repo), files, name, env, call) == Deployment(s.events, s.result, s.nudge);
    assert forall i :: 2 <= i < |d.trace| ==> d.trace[i] == s.events[i - 2];
  }

  /** The paths of `paths[i..]` whose lookup was rejected, in order. */
  function RejectedFrom(paths: seq<string>, check: nat -> Link, i: nat): seq<string>
    requires i <= |paths|
    decreases |paths| - i
  {
    if i == |paths| then []
    else if check(i).Rejected? then [paths[i]] + RejectedFrom(paths, check, i + 1)
    else RejectedFrom(paths, check, i + 1)
  }

  /** When every path is on the branch, only rejected lookups are missing. */
  lemma {:induction false} MissingAreRejected(remote: Remote, paths: seq<string>, check: nat -> Link, i: nat)
    requires i <= |paths|
    requires forall k :: i <= k < |paths| ==> paths[k] in remote
    ensures MissingFrom(remote, paths, check, i) == RejectedFrom(paths, check, i)
    decreases |paths| - i
  {
    if i < |paths| {
      MissingAreRejected(remote, paths, check, i + 1);
    }
  }

  /** A rejected lookup puts its path on the list. */
  lemma {:induction false} RejectedListed(paths: seq<string>, check: nat -> Link, i: nat, j: nat)
    requires i <= j < |paths| && check(j).Rejected?
    ensures paths[j] in RejectedFrom(paths, check, i)
    decreases j - i
  {
    if i < j {
      RejectedListed(paths, check, i + 1, j);
    }
  }

  /** Nothing is rejected when every lookup is answered. */
  lemma {:induction false} NoneRejected(paths: seq<string>, check: nat -> Link, i: nat)
    requires i <= |paths|
    requires forall k :: i <= k < |paths| ==> check(k).Answered?
    ensures RejectedFrom(paths, check, i) == []
    decreases |paths| - i
  {
    if i < |paths| {
      NoneRejected(paths, check, i + 1);
    }
  }

  /** The required files are among the generated ones. */
  lemma RequiredPathsGenerated()
    ensures forall p :: p in RequiredPaths ==> p in AppPaths
  {
  }

  /** After a complete upload every required file is on the branch, so only a
      rejected lookup can make verification fail. */
  lemma VerifyAfterUpload(files: FileSet, env: Env)
    requires PathsOf(files) == AppPaths
    requires forall k :: 0 <= k < |AppPaths| ==> Succeeds(env.upload(k))
    ensures var run := UploadFiles(env.remote, files, env.upload, DefaultBranch);
      && run.failure.None?
      && VerifyFiles(run.remote, RequiredPaths, env.verify) == RejectedFrom(RequiredPaths, env.verify, 0)
  {
    AppPathsDistinct();
    UploadFilesComplete(env.remote, files, env.upload, DefaultBranch);
    var run := UploadFiles(env.remote, files, env.upload, DefaultBranch);
    RequiredOnBranch(files, run.remote);
    MissingAreRejected(run.remote, RequiredPaths, env.verify, 0);
    assert RequiredPaths[0..] == RequiredPaths;
  }

  /** A branch holding every generated file holds every required one. */
  lemma RequiredOnBranch(files: FileSet, remote: Remote)
    requires PathsOf(files) == AppPaths
    requires forall j :: 0 <= j < |files| ==> files[j].path in remote
    ensures forall k :: 0 <= k < |RequiredPaths| ==> RequiredPaths[k] in remote
  {
    var ps := PathsOf(files);
    assert files[0].path == ps[0] == RequiredPaths[0];
    assert files[1].path == ps[1] == RequiredPaths[1];
    assert files[13].path == ps[13] == RequiredPaths[2];
    assert files[8].path == ps[8] == RequiredPaths[3];
    assert files[9].path == ps[9] == RequiredPaths[4];
  }

  /** A rejected lookup of a required file ends the run with the list of the
      rejected paths, before any project is created. */
  lemma MissingFilesStop(config: StoreConfig, env: Env, call: TriggerCall)
    requires env.repoReply.RepoCreated?
    requires forall k :: 0 <= k < |AppPaths| ==> Succeeds(env.upload(k))
    requires exists j :: 0 <= j < |RequiredPaths| && env.verify(j).Rejected?
    ensures var d := Script(config, env, call);
      && d.result == Failed("Critical files missing: " + Join(RejectedFrom(RequiredPaths, env.verify, 0), ", "))
      && |d.trace| == 18
      && d.trace[17].stage == Verify
      && d.nudge.None?
  {
    ScriptIsRun(config, env, call);
    MissingFilesFor(GenerateStoreApp(config), RepoName(config.customization.business.name), env, call, Script(config, env, call));
  }

  /** After a complete upload, the run from the upload on: the upload reports,
      then the run from the verification on. */
  lemma UploadedRunsVerify(files: FileSet, name: string, env: Env, call: TriggerCall, repo: RepoInfo)
    requires PathsOf(files) == AppPaths
    requires forall k :: 0 <= k < |AppPaths| ==> Succeeds(env.upload(k))
    ensures var run := UploadFiles(env.remote, files, env.upload, DefaultBranch);
      && run.failure.None? && |run.ticks| == 14
      && Run(AtUpload(repo), files, name, env, call) ==
           Prepend([Progress(Upload, "Uploading files to GitHub...", Some(0))] + UploadEvents(run.ticks),
                   Run(AtVerify(run.remote, repo), files, name, env, call))
  {
    var run := UploadFiles(env.remote, files, env.upload, DefaultBranch);
    assert run.failure.None?;
  }

  lemma MissingFilesFor(files: FileSet, name: string, env: Env, call: TriggerCall, d: Deployment)
    requires PathsOf(files) == AppPaths
    requires env.repoReply.RepoCreated?
    requires forall k :: 0 <= k < |AppPaths| ==> Succeeds(env.upload(k))
    requires exists j :: 0 <= j < |RequiredPaths| && env.verify(j).Rejected?
    requires d == Run(AtRepo, files, name, env, call)
    ensures && d.result == Failed("Critical files missing: " + Join(RejectedFrom(RequiredPaths, env.verify, 0), ", "))
            && |d.trace| == 18
            && d.trace[17].stage == Verify
            && d.nudge.None?
  {
    var repo := CreateRepo(env.repoReply).value;
    VerifyAfterUpload(files, env);
    CreatedRunsUpload(files, name, env, call);
    UploadedRunsVerify(files, name, env, call, repo);
    var run := UploadFiles(env.remote, files, env.upload, DefaultBranch);
    var j :| 0 <= j < |RequiredPaths| && env.verify(j).Rejected?;
    RejectedListed(RequiredPaths, env.verify, 0, j);
    MissingEndsRun(run.remote, files, name, env, call, repo);
    var d1 := Run(AtUpload(repo), files, name, env, call);
    assert |d1.trace| == 16 && d1.trace[15].stage == Verify;
  }

  /** A missing required file ends the run at the verification. */
  lemma MissingEndsRun(remote: Remote, files: FileSet, name: string, env: Env, call: TriggerCall, repo: RepoInfo)
    requires |files| > 0
    requires |VerifyFiles(remote, RequiredPaths, env.verify)| > 0
    ensures Run(AtVerify(remote, repo), files, name, env, call) ==
      Deployment([Progress(Verify, "Verifying files...", None)],
                 Failed("Critical files missing: " + Join(VerifyFiles(remote, RequiredPaths, env.verify), ", ")), None)
  {
  }

  // ---------- success, and the trigger step ----------

  /** Every remote call answers as hoped. */
  predicate AllAnswered(env: Env) {
    && env.repoReply.RepoCreated?
    && (forall k :: 0 <= k < |AppPaths| ==> Succeeds(env.upload(k)))
    && (forall j :: 0 <= j < |RequiredPaths| ==> env.verify(j).Answered?)
    && env.repoLookup.RepoFound?
    && env.projectReply.ProjectCreated?
  }

  /** When every call answers, the run reports 19 times before the deploy
      step (the last upload at 100%) and ends as the deploy step does. */
  lemma AnsweredRun(files: FileSet, name: string, env: Env, call: TriggerCall, d: Deployment)
    requires PathsOf(files) == AppPaths
    requires AllAnswered(env)
    requires d == Run(AtRepo, files, name, env, call)
    ensures var s := TriggerStep(env, call, CreateRepo(env.repoReply).value,
                                 Project(env.projectReply.id, env.projectReply.name,
                                         "https://" + env.projectReply.name + ".vercel.app"));
      && |d.trace| == 19 + |s.events|
      && d.trace[16].percent == Some(100)
      && (forall i :: 0 <= i < |s.events| ==> d.trace[19 + i] == s.events[i])
      && d.result == s.result && d.nudge == s.nudge
  {
    var repo := CreateRepo(env.repoReply).value;
    var run := UploadFiles(env.remote, files, env.upload, DefaultBranch);
    var project := Project(env.projectReply.id, env.projectReply.name, "https://" + env.projectReply.name + ".vercel.app");
    VerifyAfterUpload(files, env);
    NoneRejected(RequiredPaths, env.verify, 0);
    CreatedRunsUpload(files, name, env, call);
    UploadedRunsVerify(files, name, env, call, repo);
    VerifiedRunsVercel(run.remote, files, name, env, call, repo);
    CreatedRunsTrigger(files, name, env, call, repo);
    TriggerEndsRun(files, name, env, call, repo, project);
    var es := UploadEvents(run.ticks);
    var ups := [Progress(Upload, "Uploading files to GitHub...", Some(0))] + es;
    LastUploadAtFull(files, env);
    assert ups[14] == es[13];
    FourStages(d, Run(AtUpload(repo), files, name, env, call), Run(AtVerify(run.remote, repo), files, name, env, call),
               Run(AtVercel(repo), files, name, env, call), Run(AtTrigger(repo, project), files, name, env, call), ups);
  }

  /** After a complete upload, the last per-file report is at 100%. */
  lemma LastUploadAtFull(files: FileSet, env: Env)
    requires PathsOf(files) == AppPaths
    requires forall k :: 0 <= k < |AppPaths| ==> Succeeds(env.upload(k))
    ensures var run := UploadFiles(env.remote, files, env.upload, DefaultBranch);
      |run.ticks| == 14 && UploadEvents(run.ticks)[13].percent == Some(100)
  {
    var run := UploadFiles(env.remote, files, env.upload, DefaultBranch);
    assert run.failure.None?;
    assert run.ticks[13] == Tick(14, 14, files[13].path);
    PercentBounds(14, 14);
  }

  /** With no required file missing, the run from the verification on: the
      verify report, then the run from the project creation on. */
  lemma VerifiedRunsVercel(remote: Remote, files: FileSet, name: string, env: Env, call: TriggerCall, repo: RepoInfo)
    requires |files| > 0
    requires VerifyFiles(remote, RequiredPaths, env.verify) == []
    ensures Run(AtVerify(remote, repo), files, name, env, call) ==
      Prepend([Progress(Verify, "Verifying files...", None)], Run(AtVercel(repo), files, name, env, call))
  {
  }

  /** With the project created, the run from the project creation on: the
      Vercel report, then the run from the deploy step on. */
  lemma CreatedRunsTrigger(files: FileSet, name: string, env: Env, call: TriggerCall, repo: RepoInfo)
    requires |files| > 0
    requires env.repoLookup.RepoFound? && env.projectReply.ProjectCreated?
    ensures Run(AtVercel(repo), files, name, env, call) ==
      Prepend([Progress(Vercel, "Creating Vercel project...", None)],
              Run(AtTrigger(repo, Project(env.projectReply.id, env.projectReply.name,
                                          "https://" + env.projectReply.name + ".vercel.app")),
                  files, name, env, call))
  {
  }

  /** The deploy step ends the run. */
  lemma TriggerEndsRun(files: FileSet, name: string, env: Env, call: TriggerCall, repo: RepoInfo, project: Project)
    requires |files| > 0
    ensures var s := TriggerStep(env, call, repo, project);
      Run(AtTrigger(repo, project), files, name, env, call) == Deployment(s.events, s.result, s.nudge)
  {
  }

  /** Indices through the reports of the repository, upload, verify and Vercel
      stages, which come in runs of 2, 15, 1 and 1. */
  lemma FourStages(d: Deployment, d1: Deployment, d2: Deployment, d3: Deployment, d4: Deployment, ups: seq<Progress>)
    requires |ups| == 15 && |d.trace| >= 2
    requires d == Prepend(d.trace[..2], d1) && d1 == Prepend(ups, d2)
    requires |d2.trace| > 0 && d2 == Prepend([d2.trace[0]], d3)
    requires |d3.trace| > 0 && d3 == Prepend([d3.trace[0]], d4)
    ensures |d.trace| == 19 + |d4.trace| && d.trace[16] == ups[14]
    ensures forall i :: 0 <= i < |d4.trace| ==> d.trace[19 + i] == d4.trace[i]
    ensures d.result == d4.result && d.nudge == d4.nudge
  {
    forall i | 0 <= i < |d4.trace|
      ensures d.trace[19 + i] == d4.trace[i]
    {
      assert d.trace[19 + i] == d1.trace[17 + i] == d2.trace[2 + i] == d3.trace[1 + i] == d4.trace[i];
    }
  }

  /** With the trigger step using the git nudge, a run whose remote calls all
      answer reports 21 times, ends complete, returns the repository page and
      the project URL, and commits one marker file. */
  lemma CorrectedRunDeploys(config: StoreConfig, env: Env)
    requires AllAnswered(env)
    ensures var d := Script(config, env, ViaGit);
      && |d.trace| == 21
      && d.trace[16].percent == Some(100)
      && d.trace[20] == Progress(Complete, "Deployment initiated!", None)
      && d.result == Deployed(SuccessMessage, env.repoReply.htmlUrl, "https://" + env.projectReply.name + ".vercel.app")
      && d.nudge.Some? && d.nudge.value.path == TriggerPath(env.now)
  {
    var d := Script(config, env, ViaGit);
    ScriptIsRun(config, env, ViaGit);
    AnsweredRun(GenerateStoreApp(config), RepoName(config.customization.business.name), env, ViaGit, d);
    var s := TriggerStep(env, ViaGit, CreateRepo(env.repoReply).value,
                         Project(env.projectReply.id, env.projectReply.name, "https://" + env.projectReply.name + ".vercel.app"));
    assert d.trace[19 + 1] == s.events[1];
  }

  /** As written, a run whose remote calls all answer fails at the trigger step with a type error. */
  lemma AsWrittenFailsAtTrigger(config: StoreConfig, env: Env)
    requires AllAnswered(env)
    ensures var d := Script(config, env, MissingMethod);
      d.result == Failed(MissingMethodError) && |d.trace| == 20 && d.trace[19].stage == Deploy
  {
    var d := Script(config, env, MissingMethod);
    ScriptIsRun(config, env, MissingMethod);
    AnsweredRun(GenerateStoreApp(config), RepoName(config.customization.business.name), env, MissingMethod, d);
    var s := TriggerStep(env, MissingMethod, CreateRepo(env.repoReply).value,
                         Project(env.projectReply.id, env.projectReply.name, "https://" + env.projectReply.name + ".vercel.app"));
    assert d.trace[19 + 0] == s.events[0];
  }

  /** With the missing method, no run from any cursor on deploys. */
  lemma {:induction false} AsWrittenRunFails(at: Cursor, files: FileSet, name: string, env: Env)
    requires |files| > 0
    ensures !Run(at, files, name, env, MissingMethod).result.Deployed?
    decreases Ahead(at)
  {
    var s := StepAt(at, files, name, env, MissingMethod);
    if s.Next? {
      AsWrittenRunFails(s.next, files, name, env);
    }
  }

  /** No report of a run that does not deploy is the completion report. */
  lemma FailedRunNoComplete(d: Deployment, first: Stage)
    requires Shaped(d, first) && !d.result.Deployed?
    ensures forall i :: 0 <= i < |d.trace| ==> d.trace[i].stage != Complete
  {
  }

  /** An observer neither adds a completion report nor turns a failure into a deployment. */
  lemma ObserveNoComplete(d: Deployment, obs: Observer, o: Deployment)
    requires o == Observe(d, obs)
    requires !d.result.Deployed? && forall i :: 0 <= i < |d.trace| ==> d.trace[i].stage != Complete
    ensures !o.result.Deployed? && forall i :: 0 <= i < |o.trace| ==> o.trace[i].stage != Complete
  {
    ObservePrefix(d, obs);
  }

  /** As written, no run reaches the completion report, so none deploys,
      whatever the replies and the observer. */
  lemma AsWrittenNeverDeploys(config: StoreConfig, env: Env, obs: Observer)
    ensures !DeployAsWritten(config, env, obs).result.Deployed?
    ensures forall i :: 0 <= i < |DeployAsWritten(config, env, obs).trace| ==> DeployAsWritten(config, env, obs).trace[i].stage != Complete
  {
    var files, name := GenerateStoreApp(config), RepoName(config.customization.business.name);
    var d := Script(config, env, MissingMethod);
    ScriptIsRun(config, env, MissingMethod);
    AsWrittenRunFails(AtRepo, files, name, env);
    RunShaped(AtRepo, files, name, env, MissingMethod);
    FailedRunNoComplete(d, Generating);
    ObserveNoComplete(d, obs, DeployAsWritten(config, env, obs));
  }

  /** A throwing observer ends the run at its failing call with its message;
      the marker commit survives only a throw on the `complete` report. */
  lemma ThrowingObserverStops(config: StoreConfig, env: Env, k: nat, error: string)
    requires k < |Script(config, env, ViaGit).trace|
    ensures var d, run := DeployToVercel(config, env, Listener(Some(k), error)), Script(config, env, ViaGit);
      && d.trace == run.trace[..k + 1]
      && d.result == Failed(Reason(error))
      && d.nudge == if run.trace[k].stage == Complete then run.nudge else None
  {
    ObserveThrowing(Script(config, env, ViaGit), k, error, DeployToVercel(config, env, Listener(Some(k), error)));
  }

  /** An observer throwing on call `k` keeps the first k + 1 reports and fails
      with its message; the nudge stays only behind a `complete` report. */
  lemma ObserveThrowing(d: Deployment, k: nat, error: string, o: Deployment)
    requires k < |d.trace|
    requires o == Observe(d, Listener(Some(k), error))
    ensures o.trace == d.trace[..k + 1] && o.result == Failed(Reason(error))
    ensures o.nudge == if d.trace[k].stage == Complete then d.nudge else None
  {
  }

  /** With every call answering, an observer throwing on the `complete` report
      turns the run into a failure although the marker file is committed. */
  lemma ThrowOnCompleteKeepsNudge(config: StoreConfig, env: Env, error: string)
    requires AllAnswered(env)
    ensures var o := DeployToVercel(config, env, Listener(Some(20), error));
      && |o.trace| == 21 && o.trace[20].stage == Complete
      && o.result == Failed(Reason(error))
      && o.nudge.Some? && o.nudge.value.path == TriggerPath(env.now)
  {
    var d := Script(config, env, ViaGit);
    CorrectedRunDeploys(config, env);
    ObserveThrowing(d, 20, error, DeployToVercel(config, env, Listener(Some(20), error)));
  }

  /** Through a listener, a run deploys exactly when it reported `complete`
      and the listener did not throw on the last report it got. */
  lemma ObservedDeployedIffComplete(config: StoreConfig, env: Env, call: TriggerCall, obs: Observer)
    requires obs.Listener?
    ensures var o := Observe(Script(config, env, call), obs);
      o.result.Deployed? <==>
        && (exists i :: 0 <= i < |o.trace| && o.trace[i].stage == Complete)
        && !(obs.throwsAt.Some? && obs.throwsAt.value + 1 == |o.trace|)
  {
    DeployedIffComplete(config, env, call);
  }
}

=== FILE: export_modal.dfy ===
/** The configuration export of components/builder/ExportModal.jsx. */
module ExportModal {
  import opened Wrappers
  import opened Text
  import opened BuilderStore
  import opened DeployModal

  datatype ExportColors = ExportColors(primary: Value, secondary: Value, accent: Value)
  datatype ExportBusiness = ExportBusiness(name: Value, tagline: Value, email: Value, phone: Value, address: Value)

  /** The export object. The source nests everything but `template` under
      `customization`, and the font one level deeper under `typography`;
      those two levels only shape the JSON text, so they are flattened here,
      while colours and business keep their own records. */
  datatype ExportData = ExportData(
    template: Value, logo: Value, logoText: Value,
    colors: ExportColors, fontFamily: Value, business: ExportBusiness)

  /** The settings keys the export carries. */
  const ExportKeys: set<string> := {
    "template", "logo", "logoText", "primaryColor", "secondaryColor", "accentColor", "fontFamily",
    "businessName", "businessTagline", "businessEmail", "businessPhone", "businessAddress"}

  /** `exportData`: twelve settings copied as they are, each into its own field. */
  function Export(settings: Settings): (e: ExportData)
    ensures forall k :: k in ExportKeys ==> Field(e, k) == Setting(settings, k)
  {
    ExportData(
      Setting(settings, "template"), Setting(settings, "logo"), Setting(settings, "logoText"),
      ExportColors(Setting(settings, "primaryColor"), Setting(settings, "secondaryColor"), Setting(settings, "accentColor")),
      Setting(settings, "fontFamily"),
      ExportBusiness(Setting(settings, "businessName"), Setting(settings, "businessTagline"),
                     Setting(settings, "businessEmail"), Setting(settings, "businessPhone"),
                     Setting(settings, "businessAddress")))
  }

  /** The exported value stored under a settings key. */
  function Field(e: ExportData, key: string): Value {
    match key
    case "template" => e.template
    case "logo" => e.logo
    case "logoText" => e.logoText
    case "primaryColor" => e.colors.primary
    case "secondaryColor" => e.colors.secondary
    case "accentColor" => e.colors.accent
    case "fontFamily" => e.fontFamily
    case "businessName" => e.business.name
    case "businessTagline" => e.business.tagline
    case "businessEmail" => e.business.email
    case "businessPhone" => e.business.phone
    case "businessAddress" => e.business.address
    case _ => Undefined
  }

  /** Reading an export back as settings; absent (undefined) values are dropped. */
  function Restore(e: ExportData): (s: Settings)
    ensures s.Keys <= ExportKeys
    ensures forall k :: k in s ==> s[k] != Undefined
  {
    map k | k in ExportKeys && Field(e, k) != Undefined :: Field(e, k)
  }

  /** Each of the twelve settings lands in its own field of the export. */
  lemma FieldOfExport(settings: Settings, k: string)
    requires k in ExportKeys
    ensures Field(Export(settings), k) == Setting(settings, k)
  {
  }

  /** The export keeps exactly the twelve settings, verbatim: reading it back
      gives those settings and nothing else. */
  lemma ExportRoundTrip(settings: Settings)
    ensures Restore(Export(settings)) ==
      map k | k in settings && k in ExportKeys && settings[k] != Undefined :: settings[k]
  {
    forall k | k in ExportKeys {
      FieldOfExport(settings, k);
    }
  }

  /** Only the twelve exported settings reach the export: the catalogue, the
      cart and any other setting never do. */
  lemma ExportIgnoresProductsAndCart(s: State, t: State)
    requires forall k :: k in ExportKeys ==> Setting(s.settings, k) == Setting(t.settings, k)
    ensures Export(s.settings) == Export(t.settings)
  {
    forall k | k in ExportKeys
      ensures Field(Export(s.settings), k) == Field(Export(t.settings), k)
    {
      FieldOfExport(s.settings, k);
      FieldOfExport(t.settings, k);
    }
  }

  /** Unlike the deploy configuration, the export applies no defaults: an empty
      business name is exported empty but deployed as "My Store". */
  lemma ExportHasNoDefaults(settings: Settings)
    requires "businessName" in settings && settings["businessName"] == Str("")
    ensures Export(settings).business.name == Str("")
    ensures BuildConfig(settings).customization.business.name == "My Store"
  {
  }

  /** `fontFamily.replace("-", " ")`: only the first hyphen becomes a space. */
  function FontLabel(font: string): (l: string)
    ensures |l| == |font|
    ensures IndexOf(font, "-").None? ==> l == font
    ensures IndexOf(font, "-").Some? ==> var i := IndexOf(font, "-").value;
      l[..i] == font[..i] && l[i] == ' ' && l[i + 1..] == font[i + 1..]
  {
    ReplaceFirst(font, "-", " ")
  }

  lemma OneCharOccurs(s: string, c: char, i: nat)
    ensures OccursAt(s, [c], i) <==> i < |s| && s[i] == c
  {
    if i < |s| {
      assert s[i..i + 1] == [s[i]];
    }
  }

  /** A font id whose first hyphen follows `a` is shown with a space there. */
  lemma FontLabelAt(a: string, b: string)
    requires '-' !in a
    ensures FontLabel(a + "-" + b) == a + " " + b
  {
    var font, k := a + "-" + b, |a|;
    assert font[k] == '-';
    OneCharOccurs(font, '-', k);
    forall i: nat | i < k ensures !OccursAt(font, "-", i) {
      OneCharOccurs(font, '-', i);
      assert font[i] == a[i];
    }
    var l := FontLabel(font);
    assert font[..k] == a && font[k + 1..] == b;
    assert l == l[..k] + [l[k]] + l[k + 1..];
  }

  /** A font id without a hyphen is shown unchanged. */
  lemma FontLabelPlain(font: string)
    requires '-' !in font
    ensures FontLabel(font) == font
  {
    forall i: nat ensures !OccursAt(font, "-", i) {
      OneCharOccurs(font, '-', i);
    }
  }

  /** The copy button works only in the JSON view. */
  function CopyEnabled(format: string): (b: bool)
    ensures b <==> format == "json"
  {
    format == "json"
  }

  /** `store-config-<Date.now()>.json`; the clock reading is a parameter. */
  function ExportFileName(now: nat): (n: string)
    ensures |n| > 18 && n[..13] == "store-config-" && n[|n| - 5..] == ".json"
    ensures forall i :: 13 <= i < |n| - 5 ==> '0' <= n[i] <= '9'
  {
    "store-config-" + Decimal(now) + ".json"
  }
}

=== FILE: github_client.dfy ===
/** The source-hosting client of utils/githubService.js over an abstract
    repository: the branch's files are a map from path to (sha, content), and
    every HTTP exchange is reduced to whether the API answered or rejected it. */
module GithubClient {
  import opened Wrappers
  import opened Text
  import opened Seqs
  import opened SiteGenerator

  /** A file on the branch: its blob sha and its content. */
  datatype Blob = Blob(sha: string, content: FileText)

  /** The files of the repository's branch. */
  type Remote = map<string, Blob>

  /** One HTTP exchange: answered by the repository as it stands (a 404 for an
      absent path), or rejected with a non-OK status other than 404, carrying the
      error body's `message` ("" when it has none) and the status text. */
  datatype Link = Answered | Rejected(message: string, statusText: string)

  /** `err.message || res.statusText`. */
  function RejectionText(l: Link): string
    requires l.Rejected?
  {
    if l.message != "" then l.message else l.statusText
  }

  // ---------- createRepo ----------

  /** The API's reply to the repository-creation POST. Absent JSON properties are `Undefined`. */
  datatype RepoReply =
    | RepoCreated(login: string, name: string, htmlUrl: string, defaultBranch: Value)
    | RepoRefused(message: Value)

  datatype RepoInfo = RepoInfo(owner: string, name: string, htmlUrl: string, defaultBranch: string)

  /** `createRepo`: a refusal becomes an error naming the API's message; a
      created repository reports its default branch, "main" when the reply has none. */
  function CreateRepo(reply: RepoReply): (r: Result<RepoInfo, string>)
    ensures r.Failure? <==> reply.RepoRefused?
    ensures reply.RepoRefused? ==> r.error == "Repo create failed: " + Interpolate(reply.message)
    ensures reply.RepoCreated? ==>
      && r.value.owner == reply.login && r.value.name == reply.name && r.value.htmlUrl == reply.htmlUrl
      && r.value.defaultBranch != ""
      && (reply.defaultBranch.Str? && reply.defaultBranch.s != "" ==> r.value.defaultBranch == reply.defaultBranch.s)
      && (!(reply.defaultBranch.Str? && reply.defaultBranch.s != "") ==> r.value.defaultBranch == "main")
  {
    match reply
    case RepoRefused(m) => Failure("Repo create failed: " + Interpolate(m))
    case RepoCreated(login, name, url, branch) => Success(RepoInfo(login, name, url, OrElse(branch, "main")))
  }

  // ---------- getFileSha ----------

  /** `getFileSha`: no sha for an absent path (404) or an empty one, the
      stored sha otherwise, and an error for any other non-OK status. */
  function GetFileSha(remote: Remote, path: string, l: Link): (r: Result<Option<string>, string>)
    ensures r.Failure? <==> l.Rejected?
    ensures l.Rejected? ==> r.error == "getFileSha failed for " + path + ": " + RejectionText(l)
    ensures l.Answered? ==> (r.value.Some? <==> path in remote && remote[path].sha != "")
    ensures r.Success? && r.value.Some? ==> r.value.value == remote[path].sha
  {
    match l
    case Rejected(_, _) => Failure("getFileSha failed for " + path + ": " + RejectionText(l))
    case Answered =>
      if path !in remote then Success(None)
      else if remote[path].sha == "" then Success(None)
      else Success(Some(remote[path].sha))
  }

  // ---------- uploadFile ----------

  /** `GithubService.encode(content)`: base64 of the UTF-8 bytes, kept opaque. */
  datatype Encoded = Encoded(text: FileText)

  /** The JSON body of the contents PUT. */
  datatype PutBody = PutBody(message: string, content: Encoded, branch: string, sha: Option<string>)

  /** The body `uploadFile` sends: an update carrying the current sha when the
      file exists, a plain creation without a sha otherwise. */
  function PutRequest(path: string, content: FileText, branch: string, existing: Option<string>): (b: PutBody)
    ensures b.sha == existing
    ensures existing.Some? ==> b.message == "Update " + path
    ensures existing.None? ==> b.message == "Add " + path
    ensures b.content == Encoded(content) && b.branch == branch
  {
    PutBody((if existing.Some? then "Update " else "Add ") + path, Encoded(content), branch, existing)
  }

  /** How the two exchanges of one upload go, and the sha the API gives the new blob. */
  datatype Attempt = Attempt(lookup: Link, put: Link, newSha: string)

  predicate Succeeds(a: Attempt) {
    a.lookup.Answered? && a.put.Answered?
  }

  /** The error an upload throws when one of its exchanges is rejected. */
  function UploadError(path: string, a: Attempt): string
    requires !Succeeds(a)
  {
    if a.lookup.Rejected? then "getFileSha failed for " + path + ": " + RejectionText(a.lookup)
    else "Upload failed for " + path + ": " + RejectionText(a.put)
  }

  /** What one upload sent (nothing when the sha lookup threw) and the branch afterwards. */
  datatype UploadStep = UploadStep(sent: Option<PutBody>, result: Result<Remote, string>)

  /** `uploadFile`: look the path up, then PUT the content. */
  function UploadFile(remote: Remote, path: string, content: FileText, branch: string, a: Attempt): (u: UploadStep)
    ensures u.sent.Some? <==> a.lookup.Answered?
    ensures u.sent.Some? ==> u.sent.value == PutRequest(path, content, branch, GetFileSha(remote, path, a.lookup).value)
    ensures u.result.Success? <==> Succeeds(a)
    ensures u.result.Failure? ==> u.result.error == UploadError(path, a)
    ensures u.result.Success? ==>
      && u.result.value.Keys == remote.Keys + {path}
      && u.result.value[path] == Blob(a.newSha, content)
      && forall q :: q in remote && q != path ==> u.result.value[q] == remote[q]
  {
    match GetFileSha(remote, path, a.lookup)
    case Failure(e) => UploadStep(None, Failure(e))
    case Success(existing) =>
      var body := PutRequest(path, content, branch, existing);
      if a.put.Rejected? then UploadStep(Some(body), Failure("Upload failed for " + path + ": " + RejectionText(a.put)))
      else UploadStep(Some(body), Success(remote[path := Blob(a.newSha, content)]))
  }

  /** Create-versus-update follows the branch: an existing file with a sha is
      updated under that sha, anything else is added without one. */
  lemma UpdateIffPresent(remote: Remote, path: string, content: FileText, branch: string, a: Attempt)
    requires a.lookup.Answered?
    ensures var b := UploadFile(remote, path, content, branch, a).sent.value;
      && (path in remote && remote[path].sha != "" ==> b.message == "Update " + path && b.sha == Some(remote[path].sha))
      && (!(path in remote && remote[path].sha != "") ==> b.message == "Add " + path && b.sha.None?)
  {
  }

  // ---------- uploadFiles ----------

  /** The `onProgress` argument of one call. */
  datatype Tick = Tick(completed: nat, total: nat, current: string)

  /** The ticks reported, the branch afterwards, and the error that stopped the loop, if any. */
  datatype UploadRun = UploadRun(ticks: seq<Tick>, remote: Remote, failure: Option<string>)

  /** The loop of `uploadFiles` from the `i`-th entry on. */
  function UploadFrom(remote: Remote, files: FileSet, attempt: nat -> Attempt, branch: string, i: nat): (r: UploadRun)
    requires i <= |files|
    ensures |r.ticks| <= |files| - i
    ensures forall k :: 0 <= k < |r.ticks| ==> r.ticks[k] == Tick(i + k + 1, |files|, files[i + k].path)
    ensures forall k :: i <= k < i + |r.ticks| ==> Succeeds(attempt(k))
    ensures r.failure.None? <==> |r.ticks| == |files| - i
    decreases |files| - i
  {
    if i == |files| then UploadRun([], remote, None)
    else
      var step := UploadFile(remote, files[i].path, files[i].text, branch, attempt(i));
      match step.result
      case Failure(e) => UploadRun([], remote, Some(e))
      case Success(next) =>
        var rest := UploadFrom(next, files, attempt, branch, i + 1);
        UploadRun([Tick(i + 1, |files|, files[i].path)] + rest.ticks, rest.remote, rest.failure)
  }

  /** The loop stops at the first failing upload and reports that file's error. */
  lemma {:induction false} UploadFromFailure(remote: Remote, files: FileSet, attempt: nat -> Attempt, branch: string, i: nat)
    requires i <= |files|
    ensures var r := UploadFrom(remote, files, attempt, branch, i);
      r.failure.Some? ==>
        var k := i + |r.ticks|;
        k < |files| && !Succeeds(attempt(k)) && r.failure.value == UploadError(files[k].path, attempt(k))
    decreases |files| - i
  {
    if i < |files| && Succeeds(attempt(i)) {
      var next := UploadFile(remote, files[i].path, files[i].text, branch, attempt(i)).result.value;
      UploadFromFailure(next, files, attempt, branch, i + 1);
    }
  }

  /** `uploadFiles`: the entries one after another, in order, with one progress
      call per uploaded file; the first failing upload ends the loop. */
  function UploadFiles(remote: Remote, files: FileSet, attempt: nat -> Attempt, branch: string): (r: UploadRun)
    ensures |r.ticks| <= |files|
    ensures forall k :: 0 <= k < |r.ticks| ==> r.ticks[k] == Tick(k + 1, |files|, files[k].path)
    ensures r.failure.None? <==> |r.ticks| == |files|
    ensures r.failure.None? <==> forall k :: 0 <= k < |files| ==> Succeeds(attempt(k))
    ensures r.failure.Some? ==>
      var k := |r.ticks|;
      && (forall j :: 0 <= j < k ==> Succeeds(attempt(j)))
      && !Succeeds(attempt(k))
      && r.failure.value == UploadError(files[k].path, attempt(k))
  {
    UploadFromFailure(remote, files, attempt, branch, 0);
    UploadFrom(remote, files, attempt, branch, 0)
  }

  /** Paths the loop did not reach keep their state: a failed run leaves the
      later files untouched. */
  lemma {:induction false} UploadFootprint(remote: Remote, files: FileSet, attempt: nat -> Attempt, branch: string, i: nat, q: string)
    requires i <= |files|
    requires var r := UploadFrom(remote, files, attempt, branch, i);
      forall k :: i <= k < i + |r.ticks| ==> files[k].path != q
    ensures var r := UploadFrom(remote, files, attempt, branch, i);
      (q in r.remote <==> q in remote) && (q in remote ==> r.remote[q] == remote[q])
    decreases |files| - i
  {
    if i < |files| {
      var step := UploadFile(remote, files[i].path, files[i].text, branch, attempt(i));
      if step.result.Success? {
        var next := step.result.value;
        var rest := UploadFrom(next, files, attempt, branch, i + 1);
        assert files[i].path != q;
        UploadFootprint(next, files, attempt, branch, i + 1, q);
      }
    }
  }

  /** Every file the loop got through is on the branch with its content. */
  lemma {:induction false} UploadStores(remote: Remote, files: FileSet, attempt: nat -> Attempt, branch: string, i: nat, k: nat)
    requires i <= k < |files|
    requires Distinct(PathsOf(files))
    requires k < i + |UploadFrom(remote, files, attempt, branch, i).ticks|
    ensures var r := UploadFrom(remote, files, attempt, branch, i);
      files[k].path in r.remote && r.remote[files[k].path].content == files[k].text
    decreases |files| - i
  {
    var step := UploadFile(remote, files[i].path, files[i].text, branch, attempt(i));
    var next := step.result.value;
    if k == i {
      var rest := UploadFrom(next, files, attempt, branch, i + 1);
      forall j | i + 1 <= j < i + 1 + |rest.ticks|
        ensures files[j].path != files[i].path
      {
        assert PathsOf(files)[i] != PathsOf(files)[j];
      }
      UploadFootprint(next, files, attempt, branch, i + 1, files[i].path);
    } else {
      UploadStores(next, files, attempt, branch, i + 1, k);
    }
  }

  /** After a complete run every entry is on the branch with its content, and
      nothing else changed. */
  lemma UploadFilesComplete(remote: Remote, files: FileSet, attempt: nat -> Attempt, branch: string)
    requires Distinct(PathsOf(files))
    requires forall k :: 0 <= k < |files| ==> Succeeds(attempt(k))
    ensures var r := UploadFiles(remote, files, attempt, branch);
      && r.failure.None?
      && (forall k :: 0 <= k < |files| ==> files[k].path in r.remote && r.remote[files[k].path].content == files[k].text)
      && (forall q :: q !in PathsOf(files) ==> (q in r.remote <==> q in remote) && (q in remote ==> r.remote[q] == remote[q]))
  {
    assert UploadFiles(remote, files, attempt, branch).failure.None?;
    assert UploadFiles(remote, files, attempt, branch) == UploadFrom(remote, files, attempt, branch, 0);
    forall k | 0 <= k < |files|
      ensures var r := UploadFiles(remote, files, attempt, branch);
        files[k].path in r.remote && r.remote[files[k].path].content == files[k].text
    {
      UploadStores(remote, files, attempt, branch, 0, k);
    }
    forall q | q !in PathsOf(files)
      ensures var r := UploadFiles(remote, files, attempt, branch);
        (q in r.remote <==> q in remote) && (q in remote ==> r.remote[q] == remote[q])
    {
      UploadFootprint(remote, files, attempt, branch, 0, q);
    }
  }

  // ---------- verifyFiles ----------

  /** A path counts as present when its lookup is answered and the branch has it. */
  predicate Found(remote: Remote, path: string, l: Link) {
    l.Answered? && path in remote
  }

  /** Whether the lookup at position `k` failed. */
  function LookupFailed(remote: Remote, paths: seq<string>, check: nat -> Link): nat -> bool {
    (k: nat) => k < |paths| && !Found(remote, paths[k], check(k))
  }

  /** The positions from `i` on whose lookup failed, in increasing order. */
  function FailedFrom(remote: Remote, paths: seq<string>, check: nat -> Link, i: nat): (ks: seq<nat>)
    requires i <= |paths|
    ensures forall j :: 0 <= j < |ks| ==> i <= ks[j] < |paths|
  {
    var ks := Filter(Range(i, |paths|), LookupFailed(remote, paths, check));
    assert forall j :: 0 <= j < |ks| ==> ks[j] in Range(i, |paths|);
    ks
  }

  /** `missing` lists the paths at the positions `ks`, one for one. */
  predicate PathsAt(missing: seq<string>, paths: seq<string>, ks: seq<nat>) {
    |missing| == |ks| && forall j :: 0 <= j < |ks| ==> ks[j] < |paths| && missing[j] == paths[ks[j]]
  }

  /** `verifyFiles` from the `i`-th path on: the path of every failed lookup,
      once per failed lookup, in input order. */
  function MissingFrom(remote: Remote, paths: seq<string>, check: nat -> Link, i: nat): (missing: seq<string>)
    requires i <= |paths|
    ensures IsSubseq(missing, paths[i..])
    ensures forall p :: p in missing <==> exists k :: i <= k < |paths| && paths[k] == p && !Found(remote, p, check(k))
    ensures |missing| == 0 <==> forall k :: i <= k < |paths| ==> Found(remote, paths[k], check(k))
    decreases |paths| - i
  {
    if i == |paths| then []
    else
      var rest := MissingFrom(remote, paths, check, i + 1);
      assert paths[i..][1..] == paths[i + 1..];
      if Found(remote, paths[i], check(i)) then
        SubseqCons(rest, paths[i + 1..], paths[i]);
        assert [paths[i]] + paths[i + 1..] == paths[i..];
        rest
      else
        [paths[i]] + rest
  }

  /** `MissingFrom` lists the path of each failed lookup once per failed
      lookup, in position order: repeated paths are reported as often as
      their lookups failed. */
  lemma {:induction false} MissingFromExact(remote: Remote, paths: seq<string>, check: nat -> Link, i: nat)
    requires i <= |paths|
    ensures PathsAt(MissingFrom(remote, paths, check, i), paths, FailedFrom(remote, paths, check, i))
    decreases |paths| - i
  {
    if i < |paths| {
      MissingFromExact(remote, paths, check, i + 1);
      FailedStep(remote, paths, check, i);
    }
  }

  /** One step of `FailedFrom`: position `i` first when its lookup failed. */
  lemma FailedStep(remote: Remote, paths: seq<string>, check: nat -> Link, i: nat)
    requires i < |paths|
    ensures FailedFrom(remote, paths, check, i) ==
      (if Found(remote, paths[i], check(i)) then [] else [i]) + FailedFrom(remote, paths, check, i + 1)
  {
    var r := Range(i, |paths|);
    assert r[1..] == Range(i + 1, |paths|);
  }

  /** `verifyFiles`: exactly the paths whose lookup was not OK, in input order. */
  function VerifyFiles(remote: Remote, paths: seq<string>, check: nat -> Link): (missing: seq<string>)
    ensures IsSubseq(missing, paths)
    ensures forall p :: p in missing <==> exists k :: 0 <= k < |paths| && paths[k] == p && !Found(remote, p, check(k))
    ensures |missing| == 0 <==> forall k :: 0 <= k < |paths| ==> Found(remote, paths[k], check(k))
  {
    assert paths[0..] == paths;
    MissingFrom(remote, paths, check, 0)
  }

  /** `verifyFiles` reports one path per failed lookup, in input order. */
  lemma VerifyFilesExact(remote: Remote, paths: seq<string>, check: nat -> Link)
    ensures PathsAt(VerifyFiles(remote, paths, check), paths, FailedFrom(remote, paths, check, 0))
  {
    MissingFromExact(remote, paths, check, 0);
  }

  /** A path listed twice with one failed lookup is reported once. */
  lemma RepeatedPathReportedPerLookup(remote: Remote, check: nat -> Link)
    requires "a" in remote && check(0).Rejected? && check(1).Answered?
    ensures VerifyFiles(remote, ["a", "a"], check) == ["a"]
  {
    VerifyFilesExact(remote, ["a", "a"], check);
    FailedStep(remote, ["a", "a"], check, 0);
    FailedStep(remote, ["a", "a"], check, 1);
    assert FailedFrom(remote, ["a", "a"], check, 2) == [];
  }
}

=== FILE: live_preview.dfy ===
/** The preview pane of components/builder/LivePreview.jsx: which template
    component renders the store, and how wide the frame is. */
module LivePreview {
  import opened Text
  import opened BuilderStore

  /** What `templates[settings.template] || MinimalStore` yields. */
  datatype Renderer = MinimalStore | BoldCommerce | ModernShop | Inherited(member: string)

  /** Property names every plain object inherits from `Object.prototype`. */
  const InheritedNames: set<string> := {
    "constructor", "__proto__", "hasOwnProperty", "isPrototypeOf", "propertyIsEnumerable",
    "toLocaleString", "toString", "valueOf",
    "__defineGetter__", "__defineSetter__", "__lookupGetter__", "__lookupSetter__"}

  /** The three own properties of the `templates` object. */
  function OwnTemplate(key: string): Renderer {
    if key == "minimal" then MinimalStore
    else if key == "bold" then BoldCommerce
    else if key == "modern" then ModernShop
    else MinimalStore
  }

  predicate IsOwnKey(key: string) {
    key == "minimal" || key == "bold" || key == "modern"
  }

  /** The lookup as written: the key is the template value converted to a
      property name, and inherited members are found as well as own ones. */
  function TemplateAsWritten(template: Value): (r: Renderer)
    ensures IsOwnKey(Interpolate(template)) ==> r == OwnTemplate(Interpolate(template))
    ensures !IsOwnKey(Interpolate(template)) && Interpolate(template) !in InheritedNames ==> r == MinimalStore
  {
    var key := Interpolate(template);
    if IsOwnKey(key) then OwnTemplate(key)
    else if key in InheritedNames then Inherited(key)
    else MinimalStore
  }

  /** The template "toString" picks `Object.prototype.toString` instead of
      falling back to the minimal store. */
  lemma InheritedNameSlipsThrough()
    ensures TemplateAsWritten(Str("toString")) == Inherited("toString")
  {
  }

  /** The lookup with own keys only: every value renders one of the three templates. */
  function TemplateFor(template: Value): (r: Renderer)
    ensures !r.Inherited?
    ensures template == Str("minimal") ==> r == MinimalStore
    ensures template == Str("bold") ==> r == BoldCommerce
    ensures template == Str("modern") ==> r == ModernShop
    ensures !IsOwnKey(Interpolate(template)) ==> r == MinimalStore
  {
    OwnTemplate(Interpolate(template))
  }

  /** The corrected lookup differs from the written one only on inherited names. */
  lemma TemplateForAgrees(template: Value)
    requires Interpolate(template) !in InheritedNames
    ensures TemplateFor(template) == TemplateAsWritten(template)
  {
  }

  /** The store's template renders as one of the three; the default is the
      minimal store, and a card picked in the selector is the one rendered. */
  lemma PreviewOfStore(s: State)
    ensures var t := if "template" in s.settings then s.settings["template"] else Undefined;
      !TemplateFor(t).Inherited?
    ensures TemplateFor(Initial.settings["template"]) == MinimalStore
    ensures forall id | IsOwnKey(id) :: TemplateFor(SwitchTemplate(s, id).settings["template"]) == OwnTemplate(id)
  {
  }

  datatype ViewMode = ViewMode(id: string, width: string)

  const ViewModes: seq<ViewMode> := [ViewMode("desktop", "100%"), ViewMode("tablet", "768px"), ViewMode("mobile", "375px")]

  /** `viewModes.find(m => m.id === mode)?.width || "100%"`. */
  function Width(mode: string): (w: string)
    ensures mode == "desktop" ==> w == "100%"
    ensures mode == "tablet" ==> w == "768px"
    ensures mode == "mobile" ==> w == "375px"
    ensures mode != "tablet" && mode != "mobile" ==> w == "100%"
  {
    FindWidth(ViewModes, mode)
  }

  function FindWidth(modes: seq<ViewMode>, mode: string): (w: string)
    ensures (forall i :: 0 <= i < |modes| ==> modes[i].id != mode) ==> w == "100%"
    ensures forall i :: 0 <= i < |modes| && modes[i].id == mode && (forall j :: 0 <= j < i ==> modes[j].id != mode) ==>
      w == if modes[i].width != "" then modes[i].width else "100%"
  {
    if |modes| == 0 then "100%"
    else if modes[0].id == mode then (if modes[0].width != "" then modes[0].width else "100%")
    else FindWidth(modes[1..], mode)
  }

  /** The frame's `minHeight`. */
  function MinHeight(mode: string): (h: string)
    ensures h == "100%" <==> mode == "desktop"
    ensures h != "100%" ==> h == "auto"
  {
    if mode == "desktop" then "100%" else "auto"
  }
}

=== FILE: product_manager.dfy ===
/** The product editor of components/builder/ProductManager.jsx: a form that
    either adds a new product to the store or updates the one being edited.
    Number parsing and printing of prices are parameters. */
module ProductManager {
  import opened Wrappers
  import opened Text
  import opened Catalog
  import opened UploadHook
  import opened BuilderStore

  /** The `productForm` state; `price` is the text of the number input. */
  datatype Form = Form(
    name: string, price: string, description: string,
    images: seq<string>, category: string, inStock: bool)

  const EmptyForm: Form := Form("", "", "", [], "", true)

  /** The store, the product being edited (if any) and the form. */
  datatype Editor = Editor(store: State, editing: Option<Product>, form: Form)

  function Open(store: State): Editor {
    Editor(store, None, EmptyForm)
  }

  /** `productData`: every form field, the price parsed. */
  function FormPatch(f: Form, parse: string -> real): (u: ProductPatch)
    ensures u.id.None?
    ensures forall p ::
      Patch(p, u) == Product(p.id, f.name, parse(f.price), f.description, f.images, f.category, f.inStock)
  {
    ProductPatch(None, Some(f.name), Some(parse(f.price)), Some(f.description),
                 Some(f.images), Some(f.category), Some(f.inStock))
  }

  /** A new product built from the form; its id is assigned by the store. */
  function FormProduct(f: Form, parse: string -> real): Product {
    Product("", f.name, parse(f.price), f.description, f.images, f.category, f.inStock)
  }

  /** `handleSaveProduct`: refused without a name or a price; otherwise update
      the edited product or add a new one, then leave editing and clear the form. */
  function SaveProduct(e: Editor, parse: string -> real, now: nat): (r: Editor)
    ensures e.form.name == "" || e.form.price == "" ==> r == e
    ensures e.form.name != "" && e.form.price != "" ==> r.editing.None? && r.form == EmptyForm
    ensures e.form.name != "" && e.form.price != "" && e.editing.Some? ==>
      r.store == UpdateProduct(e.store, e.editing.value.id, FormPatch(e.form, parse))
    ensures e.form.name != "" && e.form.price != "" && e.editing.None? ==>
      r.store == AddProduct(e.store, FormProduct(e.form, parse), now)
  {
    if e.form.name == "" || e.form.price == "" then e
    else
      match e.editing
      case Some(p) => Editor(UpdateProduct(e.store, p.id, FormPatch(e.form, parse)), None, EmptyForm)
      case None => Editor(AddProduct(e.store, FormProduct(e.form, parse), now), None, EmptyForm)
  }

  /** Adding through the form appends exactly one product, carrying the form's
      fields and the fresh id, after the existing ones. */
  lemma SaveAddsOne(e: Editor, parse: string -> real, now: nat)
    requires e.form.name != "" && e.form.price != "" && e.editing.None?
    ensures var ps := SaveProduct(e, parse, now).store.products;
      && |ps| == |e.store.products| + 1
      && ps[..|e.store.products|] == e.store.products
      && ps[|e.store.products|] == Product(Decimal(now), e.form.name, parse(e.form.price),
           e.form.description, e.form.images, e.form.category, e.form.inStock)
  {
  }

  /** `handleEditProduct`: load the product into the form, the price printed. */
  function EditProduct(e: Editor, p: Product, show: real -> string): (r: Editor)
    ensures r.store == e.store && r.editing == Some(p)
    ensures r.form.name == p.name && r.form.price == show(p.price) && r.form.description == p.description
    ensures r.form.images == p.images && r.form.category == p.category && r.form.inStock == p.inStock
  {
    Editor(e.store, Some(p), Form(p.name, show(p.price), p.description, p.images, p.category, p.inStock))
  }

  /** Editing a listed product and saving without touching the form leaves the
      catalogue as it was, when printing and parsing the price round-trip. */
  lemma EditThenSaveIsIdentity(e: Editor, i: nat, parse: string -> real, show: real -> string, now: nat)
    requires i < |e.store.products| && UniqueIds(e.store.products)
    requires e.store.products[i].name != "" && show(e.store.products[i].price) != ""
    requires parse(show(e.store.products[i].price)) == e.store.products[i].price
    ensures SaveProduct(EditProduct(e, e.store.products[i], show), parse, now).store == e.store
  {
    var p := e.store.products[i];
    var r := SaveProduct(EditProduct(e, p, show), parse, now).store;
    assert |r.products| == |e.store.products|;
    forall j | 0 <= j < |e.store.products|
      ensures r.products[j] == e.store.products[j]
    {
      if e.store.products[j].id == p.id {
        assert j == i;
      }
    }
  }

  /** `handleCancelEdit`: leave editing and clear the form; the store is untouched. */
  function CancelEdit(e: Editor): (r: Editor)
    ensures r.store == e.store && r.editing.None? && r.form == EmptyForm
  {
    Editor(e.store, None, EmptyForm)
  }

  /** `handleProductImageUpload`: a url that came back is appended to the form's images. */
  function AddImage(e: Editor, upload: UploadResult): (r: Editor)
    ensures r.store == e.store && r.editing == e.editing
    ensures KeptUrl(upload).Some? ==> r.form == e.form.(images := e.form.images + [upload.url])
    ensures KeptUrl(upload).None? ==> r == e
  {
    match KeptUrl(upload)
    case Some(url) => e.(form := e.form.(images := e.form.images + [url]))
    case None => e
  }

  /** `xs.filter((_, i) => i !== idx)`. */
  function DropAt<T>(xs: seq<T>, idx: int): (r: seq<T>)
    ensures 0 <= idx < |xs| ==> r == xs[..idx] + xs[idx + 1..]
    ensures !(0 <= idx < |xs|) ==> r == xs
    decreases |xs|
  {
    if |xs| == 0 then []
    else
      var rest := DropAt(xs[1..], idx - 1);
      if idx == 0 then
        assert xs[..0] + xs[1..] == xs[1..];
        rest
      else
        assert 0 < idx < |xs| ==> [xs[0]] + (xs[1..][..idx - 1] + xs[1..][idx..]) == xs[..idx] + xs[idx + 1..];
        assert [xs[0]] + xs[1..] == xs;
        [xs[0]] + rest
  }

  /** The remove button of image `idx`. */
  function RemoveImage(e: Editor, idx: int): (r: Editor)
    ensures r.store == e.store && r.editing == e.editing
    ensures r.form == e.form.(images := DropAt(e.form.images, idx))
  {
    e.(form := e.form.(images := DropAt(e.form.images, idx)))
  }

  /** Removing the image just appended restores the list. */
  lemma RemoveUndoesAdd(e: Editor, url: string)
    requires url != ""
    ensures RemoveImage(AddImage(e, Uploaded(url)), |e.form.images|).form == e.form
  {
    var xs := e.form.images + [url];
    assert xs[..|e.form.images|] == e.form.images;
    assert e.form.images + [] == e.form.images;
  }

  /** The delete button: only a confirmed deletion reaches the store. */
  function DeleteClicked(e: Editor, id: string, confirmed: bool): (r: Editor)
    ensures !confirmed ==> r == e
    ensures confirmed ==> r == e.(store := DeleteProduct(e.store, id))
  {
    if confirmed then e.(store := DeleteProduct(e.store, id)) else e
  }
}

=== FILE: seqs.dfy ===
/** Order-preserving selection over sequences: JavaScript's `Array.prototype.filter`. */
module Seqs {

  /** `a` is `b` with some elements deleted and the rest kept in order. */
  predicate IsSubseq<T(==)>(a: seq<T>, b: seq<T>)
    decreases |b|
  {
    if |a| == 0 then true
    else if |b| == 0 then false
    else if a[0] == b[0] then IsSubseq(a[1..], b[1..])
    else IsSubseq(a, b[1..])
  }

  /** `xs.filter(keep)`. */
  function Filter<T(==)>(xs: seq<T>, keep: T -> bool): (r: seq<T>)
    ensures |r| <= |xs|
    ensures forall x :: x in r ==> x in xs && keep(x)
    ensures forall i :: 0 <= i < |r| ==> keep(r[i])
    ensures forall x :: x in xs && keep(x) ==> x in r
    decreases |xs|
  {
    if |xs| == 0 then []
    else (if keep(xs[0]) then [xs[0]] else []) + Filter(xs[1..], keep)
  }

  /** The filter holds every passing element exactly as often as `xs` does,
      and no other element. */
  lemma {:induction false} FilterCounts<T>(xs: seq<T>, keep: T -> bool)
    ensures forall x :: multiset(Filter(xs, keep))[x] == if keep(x) then multiset(xs)[x] else 0
    decreases |xs|
  {
    if |xs| > 0 {
      FilterCounts(xs[1..], keep);
      assert xs == [xs[0]] + xs[1..];
    }
  }

  /** The positions `lo`, ..., `hi - 1`, in increasing order. */
  function Range(lo: nat, hi: nat): (r: seq<nat>)
    requires lo <= hi
    ensures |r| == hi - lo
    ensures forall j :: 0 <= j < |r| ==> r[j] == lo + j
  {
    seq(hi - lo, j requires 0 <= j < hi - lo => lo + j)
  }

  /** A subsequence holds each element at most as often as the whole. */
  lemma {:induction false} SubseqMultiset<T>(a: seq<T>, b: seq<T>)
    requires IsSubseq(a, b)
    ensures multiset(a) <= multiset(b)
    decreases |b|
  {
    if |a| > 0 {
      assert b == [b[0]] + b[1..];
      if a[0] == b[0] {
        SubseqMultiset(a[1..], b[1..]);
        assert a == [a[0]] + a[1..];
      } else {
        SubseqMultiset(a, b[1..]);
      }
    }
  }

  /** The filter is the only subsequence that keeps exactly the passing
      elements with their multiplicities, so the two facts pin it down. */
  lemma {:induction false} FilterUnique<T>(r: seq<T>, xs: seq<T>, keep: T -> bool)
    requires IsSubseq(r, xs)
    requires forall x :: multiset(r)[x] == if keep(x) then multiset(xs)[x] else 0
    ensures r == Filter(xs, keep)
    decreases |xs|
  {
    if |xs| > 0 {
      var x, t := xs[0], xs[1..];
      assert xs == [x] + t;
      if |r| > 0 && r[0] == x {
        assert r == [x] + r[1..];
        assert keep(x);
        FilterUnique(r[1..], t, keep);
      } else {
        SubseqMultiset(r, t);
        assert !keep(x);
        forall y ensures multiset(r)[y] == if keep(y) then multiset(t)[y] else 0 {
          if keep(y) {
            assert y != x;
          }
        }
        FilterUnique(r, t, keep);
      }
    }
  }

  /** The kept elements appear in the result in their original order. */
  lemma {:induction false} FilterIsSubseq<T>(xs: seq<T>, keep: T -> bool)
    ensures IsSubseq(Filter(xs, keep), xs)
    decreases |xs|
  {
    if |xs| > 0 {
      FilterIsSubseq(xs[1..], keep);
      var rest := Filter(xs[1..], keep);
      if keep(xs[0]) {
        assert Filter(xs, keep) == [xs[0]] + rest;
        assert ([xs[0]] + rest)[1..] == rest;
      } else {
        assert Filter(xs, keep) == rest;
        if |rest| > 0 {
          assert keep(rest[0]);
          assert rest[0] != xs[0];
        }
      }
    }
  }

  /** Filtering with a test every element passes changes nothing. */
  lemma {:induction false} FilterKeepsAll<T>(xs: seq<T>, keep: T -> bool)
    requires forall i :: 0 <= i < |xs| ==> keep(xs[i])
    ensures Filter(xs, keep) == xs
    decreases |xs|
  {
    if |xs| > 0 {
      FilterKeepsAll(xs[1..], keep);
    }
  }

  /** A subsequence of `b` is a subsequence of `b` with one more element in front. */
  lemma {:induction false} SubseqCons<T>(a: seq<T>, b: seq<T>, x: T)
    requires IsSubseq(a, b)
    ensures IsSubseq(a, [x] + b)
    decreases |b|, 1
  {
    if |a| > 0 && a[0] == x {
      SubseqTail(a, b);
      assert ([x] + b)[1..] == b;
    } else if |a| > 0 {
      assert ([x] + b)[1..] == b;
    }
  }

  /** Dropping the first element of a subsequence keeps it a subsequence. */
  lemma {:induction false} SubseqTail<T>(a: seq<T>, b: seq<T>)
    requires |a| > 0 && IsSubseq(a, b)
    ensures IsSubseq(a[1..], b)
    decreases |b|, 0
  {
    if a[0] == b[0] {
      SubseqCons(a[1..], b[1..], b[0]);
      assert [b[0]] + b[1..] == b;
    } else {
      SubseqTail(a, b[1..]);
      SubseqCons(a[1..], b[1..], b[0]);
      assert [b[0]] + b[1..] == b;
    }
  }

  /** Filtering distributes over concatenation. */
  lemma {:induction false} FilterAppend<T>(a: seq<T>, b: seq<T>, keep: T -> bool)
    ensures Filter(a + b, keep) == Filter(a, keep) + Filter(b, keep)
    decreases |a|
  {
    if |a| > 0 {
      assert (a + b)[1..] == a[1..] + b;
      FilterAppend(a[1..], b, keep);
    } else {
      assert a + b == b;
    }
  }

  /** No two elements of `xs` share a key. */
  predicate DistinctBy<T, K(==)>(xs: seq<T>, key: T -> K) {
    forall i, j :: 0 <= i < j < |xs| ==> key(xs[i]) != key(xs[j])
  }

  /** Filtering keeps elements with pairwise distinct keys distinct. */
  lemma {:induction false} FilterKeepsDistinct<T, K>(xs: seq<T>, keep: T -> bool, key: T -> K)
    requires DistinctBy(xs, key)
    ensures DistinctBy(Filter(xs, keep), key)
    decreases |xs|
  {
    if |xs| > 0 {
      var tail := xs[1..];
      assert DistinctBy(tail, key) by {
        forall i, j | 0 <= i < j < |tail| ensures key(tail[i]) != key(tail[j]) {
          assert tail[i] == xs[i + 1] && tail[j] == xs[j + 1];
        }
      }
      FilterKeepsDistinct(tail, keep, key);
      var rest := Filter(tail, keep);
      if keep(xs[0]) {
        var r := [xs[0]] + rest;
        forall i, j | 0 <= i < j < |r|
          ensures key(r[i]) != key(r[j])
        {
          if i == 0 {
            assert r[j] == rest[j - 1];
            assert r[j] in tail;
            var k :| 0 <= k < |tail| && tail[k] == r[j];
            assert xs[k + 1] == r[j];
            assert key(xs[0]) != key(xs[k + 1]);
          } else {
            assert r[i] == rest[i - 1] && r[j] == rest[j - 1];
          }
        }
        assert Filter(xs, keep) == r;
      } else {
        assert Filter(xs, keep) == rest;
      }
    }
  }
}

=== FILE: site_generator.dfy ===
/** The site generator of utils/deployService.js (`generateStoreApp` and the
    `generate*` helpers): a total function from a store configuration to the
    ordered set of files of a Next.js storefront. The fixed wording of each file
    is kept opaque (named `Block`s); what the model spells out is where the
    configuration's values are interpolated, and that they go in verbatim. */
module SiteGenerator {
  import opened Wrappers
  import opened Text
  import opened Catalog

  // ---------- store configuration ----------

  datatype Colors = Colors(primary: Value, secondary: Value, accent: Value)

  datatype Business = Business(
    name: string,
    tagline: string,
    email: string,
    phone: string,
    address: string)

  datatype Customization = Customization(
    logo: Value,
    logoText: Value,
    colors: Colors,
    fontFamily: Value,
    business: Business)

  /** The `products` property of a configuration: left out, something that is
      not an array, or an array. */
  datatype ProductList = Omitted | NotAList | Items(items: seq<Product>)

  datatype StoreConfig = StoreConfig(
    template: Value,
    customization: Customization,
    products: ProductList)

  // ---------- generated files ----------

  /** The fixed stretches of text of the generated files. Their wording is not
      modelled; each name says where the stretch sits. */
  datatype Block =
    | PackageHead          // package.json up to the value of "name"
    | PackageRest          // the closing `",` then version, scripts and dependencies
    | NextConfigFile
    | GitIgnoreFile
    | TailwindConfigFile
    | PostCssConfigFile
    | AppWrapperFile
    | DocumentFile
    | ProductPageFile      // pages/product/[id].js
    | PrimaryColorDecl     // tailwind directives, `:root {` and `--primary-color: `
    | SecondaryColorDecl   // `;` and `--secondary-color: `
    | AccentColorDecl      // `;` and `--accent-color: `
    | StylesRest
    | TitleOpen            // Layout.js up to `<title>`
    | DescriptionOpen      // `</title>` and `<meta name="description" content="`
    | LayoutRest
    | HeroOpen             // home page up to the <h1> holding the business name
    | TaglineOpen          // `</h1>` and the tagline paragraph
    | EmailOpen
    | PhoneOpen
    | AddressOpen
    | HomeRest             // footer end, getStaticProps reading public/products.json

  /** A piece of a template literal: fixed text, or an interpolated `${...}`. */
  datatype Segment = Fixed(block: Block) | Field(value: string)

  datatype FileText =
    | Source(segments: seq<Segment>)
      /** `JSON.stringify(products, null, 2)`; the layout of the JSON is not modelled. */
    | ProductData(products: seq<Product>)
      /** `storeReadmeTemplate(name)`; that template is not part of this model. */
    | ReadmeFor(businessName: string)

  datatype Entry = Entry(path: string, text: FileText)

  /** The object `generateStoreApp` returns, in its insertion order. */
  type FileSet = seq<Entry>

  /** The fourteen paths of the generated app, in the order they are written. */
  const AppPaths: seq<string> := [
    "package.json", "next.config.js", ".gitignore", "tailwind.config.js",
    "postcss.config.js", "README.md", "pages/_app.js", "pages/_document.js",
    "pages/index.js", "pages/product/[id].js", "components/Layout.js",
    "styles/globals.css", "public/.gitkeep", "public/products.json"]

  function PathsOf(files: FileSet): (ps: seq<string>)
    ensures |ps| == |files|
    ensures forall i :: 0 <= i < |files| ==> ps[i] == files[i].path
  {
    seq(|files|, i requires 0 <= i < |files| => files[i].path)
  }

  predicate Distinct(ps: seq<string>) {
    forall i, j :: 0 <= i < j < |ps| ==> ps[i] != ps[j]
  }

  /** `files[path]`: the text stored under `path`, if any. */
  function FileAt(files: FileSet, path: string): (t: Option<FileText>)
    ensures t.Some? <==> path in PathsOf(files)
    decreases |files|
  {
    if |files| == 0 then None
    else if files[0].path == path then Some(files[0].text)
    else
      assert PathsOf(files) == [files[0].path] + PathsOf(files[1..]);
      FileAt(files[1..], path)
  }

  /** With distinct paths, the lookup finds the entry that holds the path. */
  lemma {:induction false} FileAtEntry(files: FileSet, i: nat)
    requires i < |files|
    requires Distinct(PathsOf(files))
    ensures FileAt(files, files[i].path) == Some(files[i].text)
    decreases i
  {
    if i > 0 {
      assert files[0].path != files[i].path by {
        assert PathsOf(files)[0] != PathsOf(files)[i];
      }
      assert PathsOf(files[1..]) == PathsOf(files)[1..];
      FileAtEntry(files[1..], i - 1);
    }
  }

  /** The interpolated values of a file, in order of appearance. */
  function Fields(segments: seq<Segment>): (r: seq<string>)
    ensures |r| <= |segments|
  {
    if |segments| == 0 then []
    else (if segments[0].Field? then [segments[0].value] else []) + Fields(segments[1..])
  }

  /** The value interpolated right after the first occurrence of `b`. */
  function ValueAfter(segments: seq<Segment>, b: Block): Option<string> {
    if |segments| < 2 then None
    else if segments[0] == Fixed(b) && segments[1].Field? then Some(segments[1].value)
    else ValueAfter(segments[1..], b)
  }

  /** A template literal: fixed blocks alternating with interpolated values,
      closed by a final block. */
  function Literal(blocks: seq<Block>, values: seq<string>, tail: Block): seq<Segment>
    requires |blocks| == |values|
    decreases |blocks|
  {
    if |blocks| == 0 then [Fixed(tail)]
    else [Fixed(blocks[0]), Field(values[0])] + Literal(blocks[1..], values[1..], tail)
  }

  /** The values of a template literal are exactly the interpolated ones, in order. */
  lemma {:induction false} LiteralFields(blocks: seq<Block>, values: seq<string>, tail: Block)
    requires |blocks| == |values|
    ensures Fields(Literal(blocks, values, tail)) == values
    decreases |blocks|
  {
    if |blocks| > 0 {
      LiteralFields(blocks[1..], values[1..], tail);
      var s := Literal(blocks, values, tail);
      assert s[1..][1..] == Literal(blocks[1..], values[1..], tail);
    }
  }

  /** Each value of a template literal follows its own block when the blocks are distinct. */
  lemma {:induction false} LiteralValueAfter(blocks: seq<Block>, values: seq<string>, tail: Block, i: nat)
    requires |blocks| == |values| && i < |blocks|
    requires forall j :: 0 <= j < i ==> blocks[j] != blocks[i]
    ensures ValueAfter(Literal(blocks, values, tail), blocks[i]) == Some(values[i])
    decreases i
  {
    if i > 0 {
      LiteralValueAfter(blocks[1..], values[1..], tail, i - 1);
      var s := Literal(blocks, values, tail);
      assert s[1..][1..] == Literal(blocks[1..], values[1..], tail);
      assert ValueAfter(s[1..], blocks[i]) == ValueAfter(s[1..][1..], blocks[i]);
    }
  }

  // ---------- the generators ----------

  /** The two demo products written when the configuration has none. */
  const FallbackProducts: seq<Product> := [
    Product("demo-1", "Minimalist Watch", 299.0, "Timeless steel watch with leather band.",
      ["https://images.pexels.com/photos/190819/pexels-photo-190819.jpeg?auto=compress&cs=tinysrgb&w=800"],
      "Accessories", true),
    Product("demo-2", "Leather Wallet", 89.0, "Handcrafted full-grain leather wallet.",
      ["https://images.pexels.com/photos/4464825/pexels-photo-4464825.jpeg?auto=compress&cs=tinysrgb&w=800"],
      "Accessories", true)]

  /** `generateProductsJson`: the given list when it is a non-empty array,
      otherwise the two demo products. */
  function ProductsJson(list: ProductList): (t: FileText)
    ensures t.ProductData? && |t.products| > 0
    ensures list.Items? && |list.items| > 0 ==> t.products == list.items
    ensures !(list.Items? && |list.items| > 0) ==>
      t.products == FallbackProducts && t.products[0].id == "demo-1" && t.products[1].id == "demo-2"
  {
    if list.Items? && |list.items| > 0 then ProductData(list.items)
    else ProductData(FallbackProducts)
  }

  /** `generatePackageJson`: the project name is the slug of the business name
      followed by `-store`. */
  function PackageJson(name: string): FileText {
    Source(Literal([PackageHead], [Slug(name) + "-store"], PackageRest))
  }

  /** `generateGlobalStyles`: the three colours as CSS custom properties. */
  function GlobalStyles(c: Customization): FileText {
    Source(Literal(
      [PrimaryColorDecl, SecondaryColorDecl, AccentColorDecl],
      [Interpolate(c.colors.primary), Interpolate(c.colors.secondary), Interpolate(c.colors.accent)],
      StylesRest))
  }

  /** `generateLayoutComponent`: business name as page title, tagline as meta description. */
  function LayoutComponent(c: Customization): FileText {
    Source(Literal([TitleOpen, DescriptionOpen], [c.business.name, c.business.tagline], LayoutRest))
  }

  /** `generateHomePage`: the template argument is accepted but not used. */
  function HomePage(template: Value, c: Customization): FileText {
    var b := c.business;
    Source(Literal(
      [HeroOpen, TaglineOpen, EmailOpen, PhoneOpen, AddressOpen],
      [b.name, b.tagline, b.email, b.phone, b.address],
      HomeRest))
  }

  function Static(b: Block): FileText {
    Source(Literal([], [], b))
  }

  /** `generateStoreApp`: the fourteen files, in insertion order. A missing
      `products` defaults to `[]`. */
  function GenerateStoreApp(config: StoreConfig): (files: FileSet)
    ensures PathsOf(files) == AppPaths
  {
    var c := config.customization;
    [
      Entry("package.json", PackageJson(c.business.name)),
      Entry("next.config.js", Static(NextConfigFile)),
      Entry(".gitignore", Static(GitIgnoreFile)),
      Entry("tailwind.config.js", Static(TailwindConfigFile)),
      Entry("postcss.config.js", Static(PostCssConfigFile)),
      Entry("README.md", ReadmeFor(c.business.name)),
      Entry("pages/_app.js", Static(AppWrapperFile)),
      Entry("pages/_document.js", Static(DocumentFile)),
      Entry("pages/index.js", HomePage(config.template, c)),
      Entry("pages/product/[id].js", Static(ProductPageFile)),
      Entry("components/Layout.js", LayoutComponent(c)),
      Entry("styles/globals.css", GlobalStyles(c)),
      Entry("public/.gitkeep", Source([])),
      Entry("public/products.json", ProductsJson(config.products))
    ]
  }

  // ---------- properties ----------

  /** The fourteen paths are pairwise distinct, so the generated object has fourteen keys. */
  lemma AppPathsDistinct()
    ensures Distinct(AppPaths)
    ensures |AppPaths| == 14
  {
  }

  /** Each generated entry is what a lookup of its path finds. */
  lemma GeneratedFileAt(config: StoreConfig, i: nat)
    requires i < 14
    ensures var files := GenerateStoreApp(config);
      i < |files| && FileAt(files, files[i].path) == Some(files[i].text)
  {
    AppPathsDistinct();
    FileAtEntry(GenerateStoreApp(config), i);
  }

  /** The name field of package.json is the slug of the business name plus "-store". */
  lemma PackageNameIsStoreSlug(config: StoreConfig)
    ensures var t := FileAt(GenerateStoreApp(config), "package.json");
      t.Some? && t.value.Source? &&
      ValueAfter(t.value.segments, PackageHead) == Some(Slug(config.customization.business.name) + "-store")
  {
    var files := GenerateStoreApp(config);
    AppPathsDistinct();
    FileAtEntry(files, 0);
    LiteralValueAfter([PackageHead], [Slug(config.customization.business.name) + "-store"], PackageRest, 0);
  }

  /** The products file: the configuration's list when it is a non-empty array,
      else the two demo products; an omitted list behaves like an empty one. */
  lemma ProductsFileContents(config: StoreConfig)
    ensures var t := FileAt(GenerateStoreApp(config), "public/products.json");
      && t == Some(ProductsJson(config.products))
      && (config.products.Items? && |config.products.items| > 0 ==>
            t.value.products == config.products.items)
      && (!(config.products.Items? && |config.products.items| > 0) ==>
            t.value.products == FallbackProducts)
  {
    var files := GenerateStoreApp(config);
    AppPathsDistinct();
    FileAtEntry(files, 13);
  }

  /** An omitted product list and an empty array generate the same data file. */
  lemma OmittedProductsAreEmpty()
    ensures ProductsJson(Omitted) == ProductsJson(Items([]))
  {
  }

  lemma StylesLiteral(c: Customization)
    ensures var s := GlobalStyles(c).segments;
      var k := c.colors;
      && Fields(s) == [Interpolate(k.primary), Interpolate(k.secondary), Interpolate(k.accent)]
      && ValueAfter(s, PrimaryColorDecl) == Some(Interpolate(k.primary))
      && ValueAfter(s, SecondaryColorDecl) == Some(Interpolate(k.secondary))
      && ValueAfter(s, AccentColorDecl) == Some(Interpolate(k.accent))
  {
    var k := c.colors;
    var bs := [PrimaryColorDecl, SecondaryColorDecl, AccentColorDecl];
    var vs := [Interpolate(k.primary), Interpolate(k.secondary), Interpolate(k.accent)];
    LiteralFields(bs, vs, StylesRest);
    LiteralValueAfter(bs, vs, StylesRest, 0);
    LiteralValueAfter(bs, vs, StylesRest, 1);
    LiteralValueAfter(bs, vs, StylesRest, 2);
  }

  /** globals.css holds exactly the three colours, primary, secondary and accent
      in that order, each right after its custom-property name. */
  lemma StylesCarryColors(config: StoreConfig)
    ensures var t := FileAt(GenerateStoreApp(config), "styles/globals.css");
      var k := config.customization.colors;
      && t.Some? && t.value.Source?
      && Fields(t.value.segments) == [Interpolate(k.primary), Interpolate(k.secondary), Interpolate(k.accent)]
      && ValueAfter(t.value.segments, PrimaryColorDecl) == Some(Interpolate(k.primary))
      && ValueAfter(t.value.segments, SecondaryColorDecl) == Some(Interpolate(k.secondary))
      && ValueAfter(t.value.segments, AccentColorDecl) == Some(Interpolate(k.accent))
  {
    var files := GenerateStoreApp(config);
    AppPathsDistinct();
    FileAtEntry(files, 11);
    StylesLiteral(config.customization);
  }

  /** The business name is the page title and the tagline the meta description,
      character for character: nothing is escaped. */
  lemma LayoutCarriesBusinessText(config: StoreConfig)
    ensures var t := FileAt(GenerateStoreApp(config), "components/Layout.js");
      var b := config.customization.business;
      && t.Some? && t.value.Source?
      && ValueAfter(t.value.segments, TitleOpen) == Some(b.name)
      && ValueAfter(t.value.segments, DescriptionOpen) == Some(b.tagline)
  {
    var files := GenerateStoreApp(config);
    GeneratedFileAt(config, 10);
    assert files[10] == Entry("components/Layout.js", LayoutComponent(config.customization));
    LayoutValues(config.customization);
  }

  lemma LayoutValues(c: Customization)
    ensures ValueAfter(LayoutComponent(c).segments, TitleOpen) == Some(c.business.name)
    ensures ValueAfter(LayoutComponent(c).segments, DescriptionOpen) == Some(c.business.tagline)
  {
    var b := c.business;
    LiteralValueAfter([TitleOpen, DescriptionOpen], [b.name, b.tagline], LayoutRest, 0);
    LiteralValueAfter([TitleOpen, DescriptionOpen], [b.name, b.tagline], LayoutRest, 1);
  }

  /** The home page interpolates the five business fields verbatim, in page order. */
  lemma HomePageCarriesBusinessText(config: StoreConfig)
    ensures var t := FileAt(GenerateStoreApp(config), "pages/index.js");
      var b := config.customization.business;
      && t.Some? && t.value.Source?
      && Fields(t.value.segments) == [b.name, b.tagline, b.email, b.phone, b.address]
  {
    var files := GenerateStoreApp(config);
    GeneratedFileAt(config, 8);
    assert files[8] == Entry("pages/index.js", HomePage(config.template, config.customization));
    var b := config.customization.business;
    LiteralFields([HeroOpen, TaglineOpen, EmailOpen, PhoneOpen, AddressOpen],
      [b.name, b.tagline, b.email, b.phone, b.address], HomeRest);
  }

  /** The generated app depends only on the business fields, the colours and
      the products file: template, logo, logo text and font are not used. */
  lemma OnlyBusinessColorsAndProductsMatter(c1: StoreConfig, c2: StoreConfig)
    requires c1.customization.business == c2.customization.business
    requires c1.customization.colors == c2.customization.colors
    requires ProductsJson(c1.products) == ProductsJson(c2.products)
    ensures GenerateStoreApp(c1) == GenerateStoreApp(c2)
  {
  }
}

=== FILE: template_selector.dfy ===
/** The template picker of components/builder/TemplateSelector.jsx. */
module TemplateSelector {
  import opened Text
  import opened BuilderStore

  datatype Card = Card(id: string, name: string)

  const Cards: seq<Card> := [
    Card("minimal", "Minimal Store"),
    Card("bold", "Bold Commerce"),
    Card("modern", "Modern Shop")]

  /** `handleSelectTemplate`: switch the store's template (the delayed close is left out). */
  function SelectTemplate(s: State, id: string): (r: State)
    ensures r == SwitchTemplate(s, id)
    ensures IsSelected(r.settings, Card(id, ""))
  {
    SwitchTemplate(s, id)
  }

  /** `isSelected`: the card's id is the store's template. */
  predicate IsSelected(settings: Settings, c: Card) {
    "template" in settings && settings["template"] == Str(c.id)
  }

  /** After picking a card, it is the only card shown selected. */
  lemma OnlyPickedCardSelected(s: State, i: nat)
    requires i < |Cards|
    ensures forall j :: 0 <= j < |Cards| ==>
      (IsSelected(SelectTemplate(s, Cards[i].id).settings, Cards[j]) <==> j == i)
  {
  }

  /** The default template is a card, so exactly one card starts out selected. */
  lemma OneCardSelectedInitially()
    ensures forall j :: 0 <= j < |Cards| ==> (IsSelected(Initial.settings, Cards[j]) <==> j == 0)
  {
  }
}

=== FILE: text.dfy ===
/** JavaScript string handling the builder relies on: template-literal
    interpolation of values, `||` defaults, `toLowerCase` followed by
    `replace(/\s+/g, "-")`, `join`, `split` and the first-match `replace`. */
module Text {
  import opened Wrappers

  /** A JavaScript value as the builder stores it in a setting. */
  datatype Value = Str(s: string) | Null | Undefined

  /** `${v}` inside a template literal. */
  function Interpolate(v: Value): string {
    match v
    case Str(s) => s
    case Null => "null"
    case Undefined => "undefined"
  }

  /** `v || fallback`, for a value used as a string. */
  function OrElse(v: Value, fallback: string): (r: string)
    ensures v.Str? && v.s != "" ==> r == v.s
    ensures !(v.Str? && v.s != "") ==> r == fallback
  {
    if v.Str? && v.s != "" then v.s else fallback
  }

  // ---------- the slug rule ----------

  /** The characters `\s` matches in a JavaScript regular expression. */
  predicate IsSpace(c: char) {
    || c == ' ' || c == '\t' || c == '\n' || c == '\r'
    || c == '\U{000B}' || c == '\U{000C}' || c == '\U{00A0}' || c == '\U{1680}'
    || ('\U{2000}' <= c <= '\U{200A}')
    || c == '\U{2028}' || c == '\U{2029}' || c == '\U{202F}' || c == '\U{205F}'
    || c == '\U{3000}' || c == '\U{FEFF}'
  }

  predicate NoSpace(s: string) {
    forall i :: 0 <= i < |s| ==> !IsSpace(s[i])
  }

  predicate AllSpace(s: string) {
    forall i :: 0 <= i < |s| ==> IsSpace(s[i])
  }

  /** `toLowerCase` on one character (ASCII letters only). */
  function LowerChar(c: char): (r: char)
    ensures IsSpace(r) == IsSpace(c)
    ensures 'A' <= c <= 'Z' ==> 'a' <= r <= 'z'
    ensures !('A' <= c <= 'Z') ==> r == c
  {
    if 'A' <= c <= 'Z' then (c as int + 32) as char else c
  }

  function Lower(s: string): (r: string)
    ensures |r| == |s|
    ensures forall i :: 0 <= i < |s| ==> r[i] == LowerChar(s[i])
  {
    seq(|s|, i requires 0 <= i < |s| => LowerChar(s[i]))
  }

  /** Skips the whitespace run at the front of `s`. */
  function DropSpaces(s: string): (r: string)
    ensures |r| <= |s|
    ensures |r| == 0 || !IsSpace(r[0])
  {
    if |s| > 0 && IsSpace(s[0]) then DropSpaces(s[1..]) else s
  }

  /** `s.replace(/\s+/g, "-")`: every maximal whitespace run becomes one hyphen. */
  function Hyphenate(s: string): (r: string)
    ensures |r| <= |s|
    ensures NoSpace(r)
    decreases |s|
  {
    if |s| == 0 then ""
    else if IsSpace(s[0]) then "-" + Hyphenate(DropSpaces(s[1..]))
    else [s[0]] + Hyphenate(s[1..])
  }

  /** `s.toLowerCase().replace(/\s+/g, "-")`. */
  function Slug(s: string): (r: string)
    ensures NoSpace(r)
    ensures |r| <= |s|
  {
    Hyphenate(Lower(s))
  }

  /** Text without whitespace passes through `Hyphenate` unchanged. */
  lemma {:induction false} HyphenateKeepsWords(s: string)
    requires NoSpace(s)
    ensures Hyphenate(s) == s
    decreases |s|
  {
    if |s| > 0 {
      HyphenateKeepsWords(s[1..]);
    }
  }

  lemma {:induction false} DropSpacesAppend(s: string, t: string)
    requires !AllSpace(s)
    ensures DropSpaces(s + t) == DropSpaces(s) + t
    decreases |s|
  {
    if IsSpace(s[0]) {
      assert (s + t)[1..] == s[1..] + t;
      DropSpacesAppend(s[1..], t);
    } else {
      assert (s + t)[0] == s[0];
    }
  }

  lemma {:induction false} DropSpacesRun(w: string, b: string)
    requires AllSpace(w)
    requires |b| == 0 || !IsSpace(b[0])
    ensures DropSpaces(w + b) == b
    decreases |w|
  {
    if |w| > 0 {
      assert (w + b)[1..] == w[1..] + b;
      DropSpacesRun(w[1..], b);
    } else {
      assert w + b == b;
    }
  }

  /** One step of `Hyphenate` at a whitespace character. */
  lemma HyphenateAtSpace(s: string)
    requires |s| > 0 && IsSpace(s[0])
    ensures Hyphenate(s) == "-" + Hyphenate(DropSpaces(s[1..]))
  {
  }

  /** One step of `Hyphenate` at any other character. */
  lemma HyphenateAtWord(s: string)
    requires |s| > 0 && !IsSpace(s[0])
    ensures Hyphenate(s) == [s[0]] + Hyphenate(s[1..])
  {
  }

  /** A whitespace run between two pieces of text becomes exactly one hyphen:
      `Hyphenate(a + w + b) == Hyphenate(a) + "-" + Hyphenate(b)`. */
  lemma {:induction false} HyphenateRun(a: string, w: string, b: string)
    requires |a| == 0 || !IsSpace(a[|a| - 1])
    requires |w| > 0 && AllSpace(w)
    requires |b| == 0 || !IsSpace(b[0])
    ensures Hyphenate(a + w + b) == Hyphenate(a) + "-" + Hyphenate(b)
    decreases |a|, 1
  {
    if |a| == 0 {
      HyphenateRunAtStart(w, b);
      assert a + w + b == w + b;
    } else if IsSpace(a[0]) {
      HyphenateRunAfterSpace(a, w, b);
    } else {
      HyphenateRunAfterWord(a, w, b);
    }
  }

  lemma HyphenateRunAtStart(w: string, b: string)
    requires |w| > 0 && AllSpace(w)
    requires |b| == 0 || !IsSpace(b[0])
    ensures Hyphenate(w + b) == "-" + Hyphenate(b)
  {
    var s := w + b;
    assert s[1..] == w[1..] + b;
    DropSpacesRun(w[1..], b);
    HyphenateAtSpace(s);
  }

  /** Dropping the leading run of `a + t` stops inside `a` when `a` ends in a non-space. */
  lemma SkipLeadingRun(a: string, t: string)
    requires |a| > 0 && IsSpace(a[0]) && !IsSpace(a[|a| - 1])
    ensures var d := DropSpaces(a[1..]);
      && |d| > 0 && !IsSpace(d[|d| - 1])
      && DropSpaces((a + t)[1..]) == d + t
  {
    var rest := a[1..];
    assert !IsSpace(rest[|rest| - 1]);
    assert !AllSpace(rest);
    DropSpacesAppend(rest, t);
    assert (a + t)[1..] == rest + t;
    DropSpacesKeepsLast(rest);
  }

  lemma {:induction false} DropSpacesKeepsLast(s: string)
    requires |s| > 0 && !IsSpace(s[|s| - 1])
    ensures var r := DropSpaces(s); |r| > 0 && r[|r| - 1] == s[|s| - 1]
    decreases |s|
  {
    if IsSpace(s[0]) {
      DropSpacesKeepsLast(s[1..]);
    }
  }

  lemma {:induction false} HyphenateRunAfterSpace(a: string, w: string, b: string)
    requires |a| > 0 && IsSpace(a[0]) && !IsSpace(a[|a| - 1])
    requires |w| > 0 && AllSpace(w)
    requires |b| == 0 || !IsSpace(b[0])
    ensures Hyphenate(a + w + b) == Hyphenate(a) + "-" + Hyphenate(b)
    decreases |a|, 0
  {
    var s := a + w + b;
    var d := DropSpaces(a[1..]);
    SkipLeadingRun(a, w + b);
    assert s == a + (w + b);
    assert d + (w + b) == d + w + b;
    HyphenateRun(d, w, b);
    var hd, hb := Hyphenate(d), Hyphenate(b);
    calc {
      Hyphenate(s);
      { HyphenateAtSpace(s); }
      "-" + Hyphenate(d + w + b);
      "-" + (hd + "-" + hb);
      { Regroup("-", hd, "-", hb); }
      ("-" + hd) + "-" + hb;
      { HyphenateAtSpace(a); }
      Hyphenate(a) + "-" + hb;
    }
  }

  lemma {:induction false} HyphenateRunAfterWord(a: string, w: string, b: string)
    requires |a| > 0 && !IsSpace(a[0]) && !IsSpace(a[|a| - 1])
    requires |w| > 0 && AllSpace(w)
    requires |b| == 0 || !IsSpace(b[0])
    ensures Hyphenate(a + w + b) == Hyphenate(a) + "-" + Hyphenate(b)
    decreases |a|, 0
  {
    var s := a + w + b;
    assert s[1..] == a[1..] + w + b;
    assert s[0] == a[0];
    HyphenateRun(a[1..], w, b);
    var ht, hb := Hyphenate(a[1..]), Hyphenate(b);
    calc {
      Hyphenate(s);
      { HyphenateAtWord(s); }
      [a[0]] + Hyphenate(a[1..] + w + b);
      [a[0]] + (ht + "-" + hb);
      { Regroup([a[0]], ht, "-", hb); }
      ([a[0]] + ht) + "-" + hb;
      { HyphenateAtWord(a); }
      Hyphenate(a) + "-" + hb;
    }
  }

  lemma Regroup(x: string, y: string, z: string, u: string)
    ensures x + (y + z + u) == (x + y) + z + u
  {
  }

  lemma LowerExample()
    ensures Lower("Acme Co") == "acme co"
  {
    var r := Lower("Acme Co");
    assert r[0] == 'a' && r[1] == 'c' && r[2] == 'm' && r[3] == 'e';
    assert r[4] == ' ' && r[5] == 'c' && r[6] == 'o';
  }

  /** Two words around one space are joined by a hyphen. */
  lemma HyphenateTwoWords(a: string, b: string)
    requires |a| > 0 && |b| > 0 && NoSpace(a) && NoSpace(b)
    ensures Hyphenate(a + " " + b) == a + "-" + b
  {
    assert AllSpace(" ");
    HyphenateRun(a, " ", b);
    HyphenateKeepsWords(a);
    HyphenateKeepsWords(b);
  }

  lemma HyphenateExample()
    ensures Hyphenate("acme co") == "acme-co"
  {
    assert NoSpace("acme") && NoSpace("co");
    HyphenateTwoWords("acme", "co");
    assert "acme" + " " + "co" == "acme co";
    assert "acme" + "-" + "co" == "acme-co";
  }

  /** The documented example: "Acme Co" becomes "acme-co". */
  lemma SlugExample()
    ensures Slug("Acme Co") == "acme-co"
  {
    LowerExample();
    HyphenateExample();
  }

  // ---------- join, split, replace ----------

  /** `xs.join(sep)`. */
  function Join(xs: seq<string>, sep: string): string
    decreases |xs|
  {
    if |xs| == 0 then ""
    else if |xs| == 1 then xs[0]
    else xs[0] + sep + Join(xs[1..], sep)
  }

  /** `s.split(sep)` for a one-character separator. */
  function Split(s: string, sep: char): (r: seq<string>)
    ensures |r| >= 1
    ensures |r| == 1 <==> sep !in s
    ensures forall i :: 0 <= i < |r| ==> sep !in r[i]
    decreases |s|
  {
    if |s| == 0 then [""]
    else if s[0] == sep then [""] + Split(s[1..], sep)
    else
      var rest := Split(s[1..], sep);
      [[s[0]] + rest[0]] + rest[1..]
  }

  /** Splitting and joining back with the same separator is the identity. */
  lemma {:induction false} SplitJoin(s: string, sep: char)
    ensures Join(Split(s, sep), [sep]) == s
    decreases |s|
  {
    if |s| > 0 {
      SplitJoin(s[1..], sep);
      var rest := Split(s[1..], sep);
      if s[0] == sep {
        assert Split(s, sep) == [""] + rest;
        assert ([""] + rest)[1..] == rest;
      } else {
        var r := Split(s, sep);
        assert r == [[s[0]] + rest[0]] + rest[1..];
        if |rest| > 1 {
          assert r[1..] == rest[1..];
        }
      }
    }
  }

  /** A piece without the separator followed by the separator splits off as the first element. */
  lemma {:induction false} SplitFirst(a: string, b: string, sep: char)
    requires sep !in a
    ensures Split(a + [sep] + b, sep) == [a] + Split(b, sep)
    decreases |a|
  {
    if |a| == 0 {
      assert a + [sep] + b == [sep] + b;
      assert ([sep] + b)[1..] == b;
    } else {
      assert (a + [sep] + b)[1..] == a[1..] + [sep] + b;
      SplitFirst(a[1..], b, sep);
      assert [a[0]] + a[1..] == a;
    }
  }

  /** Text without the separator splits into itself alone. */
  lemma {:induction false} SplitWhole(s: string, sep: char)
    requires sep !in s
    ensures Split(s, sep) == [s]
    decreases |s|
  {
    if |s| > 0 {
      assert sep !in s[1..];
      SplitWhole(s[1..], sep);
      assert [s[0]] + s[1..] == s;
      assert [s[1..]][1..] == [];
    }
  }

  predicate OccursAt(s: string, pat: string, i: nat) {
    i + |pat| <= |s| && s[i..i + |pat|] == pat
  }

  /** `s.indexOf(pat)`: the first position where `pat` occurs. */
  function IndexOf(s: string, pat: string): (r: Option<nat>)
    ensures r.Some? ==> OccursAt(s, pat, r.value)
    ensures r.Some? ==> forall i: nat :: i < r.value ==> !OccursAt(s, pat, i)
    ensures r.None? ==> forall i: nat :: !OccursAt(s, pat, i)
    decreases |s|
  {
    if OccursAt(s, pat, 0) then Some(0)
    else if |s| == 0 then None
    else
      match IndexOf(s[1..], pat)
      case Some(i) =>
        assert forall j: nat :: 0 < j <= i ==> (OccursAt(s, pat, j) <==> OccursAt(s[1..], pat, j - 1));
        Some(i + 1)
      case None =>
        assert forall j: nat :: 0 < j ==> (OccursAt(s, pat, j) <==> OccursAt(s[1..], pat, j - 1));
        None
  }

  /** `s.replace(pat, repl)` with a string pattern: only the first occurrence is replaced. */
  function ReplaceFirst(s: string, pat: string, repl: string): (r: string)
    ensures IndexOf(s, pat).None? ==> r == s
    ensures IndexOf(s, pat).Some? ==>
      var i := IndexOf(s, pat).value;
      r == s[..i] + repl + s[i + |pat|..]
  {
    match IndexOf(s, pat)
    case None => s
    case Some(i) => s[..i] + repl + s[i + |pat|..]
  }

  /** Decimal digits of `n`, as `n.toString()` prints them. */
  function Decimal(n: nat): (r: string)
    ensures |r| >= 1
    ensures forall i :: 0 <= i < |r| ==> '0' <= r[i] <= '9'
  {
    if n < 10 then [(n + 48) as char] else Decimal(n / 10) + [(n % 10 + 48) as char]
  }
}

=== FILE: upload_hook.dfy ===
/** The outcome of the image-upload hook (`useUpload`) as the builder sees it;
    the hook itself is not part of this model. */
module UploadHook {
  import opened Wrappers

  datatype UploadResult =
    | NoFile                  // the file picker returned nothing
    | Uploaded(url: string)   // the hook resolved; "" stands for a result without a url
    | UploadFailed            // the hook threw; the error is only logged

  /** The url the builder keeps: present only when the upload resolved with a non-empty url. */
  function KeptUrl(r: UploadResult): (u: Option<string>)
    ensures u.Some? <==> r.Uploaded? && r.url != ""
    ensures u.Some? ==> u.value == r.url
  {
    if r.Uploaded? && r.url != "" then Some(r.url) else None
  }
}

=== FILE: vercel_client.dfy ===
/** The hosting client of utils/vercelService.js: project creation linked to a
    repository, and the optional commit that nudges a deployment. */
module VercelClient {
  import opened Wrappers
  import opened Text
  import opened GithubClient

  const GithubPrefix: string := "https://github.com/"

  /** `productionBranch = "main"`, the default the deploy flow relies on. */
  const DefaultBranch: string := "main"

  /** The destructured `[owner, repo]`; `repo` is `Undefined` when the path has no "/". */
  datatype RepoPath = RepoPath(owner: string, repo: Value)

  /** `repoUrl.replace("https://github.com/", "").split("/")`, first two parts. */
  function ParseRepoUrl(url: string): (p: RepoPath)
    ensures '/' !in p.owner
    ensures p.repo.Str? ==> '/' !in p.repo.s
    ensures !p.repo.Null?
    ensures p.repo.Undefined? <==> '/' !in ReplaceFirst(url, GithubPrefix, "")
  {
    var parts := Split(ReplaceFirst(url, GithubPrefix, ""), '/');
    RepoPath(parts[0], if |parts| > 1 then Str(parts[1]) else Undefined)
  }

  /** The repository page URL GitHub reports parses back to its owner and name. */
  lemma {:induction false} ParseRepoUrlRoundTrip(owner: string, name: string)
    requires '/' !in owner && '/' !in name
    ensures ParseRepoUrl(GithubPrefix + owner + "/" + name) == RepoPath(owner, Str(name))
  {
    var url := GithubPrefix + owner + "/" + name;
    assert OccursAt(url, GithubPrefix, 0) by {
      assert url[..|GithubPrefix|] == GithubPrefix;
    }
    assert IndexOf(url, GithubPrefix) == Some(0);
    assert ReplaceFirst(url, GithubPrefix, "") == owner + ['/'] + name by {
      assert url[|GithubPrefix|..] == owner + ['/'] + name;
    }
    SplitFirst(owner, name, '/');
    SplitWhole(name, '/');
    assert Split(owner + ['/'] + name, '/') == [owner, name];
  }

  /** `${owner}/${repo}`, the `gitRepository.repo` field. */
  function FullName(p: RepoPath): string {
    p.owner + "/" + Interpolate(p.repo)
  }

  // ---------- getGithubRepoId ----------

  /** The reply to the repository-details GET. */
  datatype RepoLookup = RepoFound(id: int) | RepoLookupFailed

  /** `getGithubRepoId`: the numeric id, or an error on any non-OK status. */
  function GetGithubRepoId(l: RepoLookup): (r: Result<int, string>)
    ensures r.Success? <==> l.RepoFound?
    ensures l.RepoFound? ==> r.value == l.id
    ensures l.RepoLookupFailed? ==> r.error == "Failed to fetch GitHub repo details"
  {
    match l
    case RepoFound(id) => Success(id)
    case RepoLookupFailed => Failure("Failed to fetch GitHub repo details")
  }

  // ---------- createProject ----------

  datatype GitRepository = GitRepository(kind: string, repo: string, repoId: int, productionBranch: string)

  /** The JSON body of the project POST. */
  datatype ProjectRequest = ProjectRequest(
    name: string, framework: string, buildCommand: string, devCommand: string,
    installCommand: string, outputDirectory: string, gitRepository: GitRepository,
    publicSource: bool)

  /** The reply to the project POST; `errorMessage` is `data.error?.message`. */
  datatype ProjectReply = ProjectCreated(id: string, name: string) | ProjectRefused(errorMessage: Value)

  datatype Project = Project(projectId: string, projectName: string, url: string)

  /** What `createProject` sent (nothing when the id lookup threw) and what it returned. */
  datatype Creation = Creation(sent: Option<ProjectRequest>, result: Result<Project, string>)

  /** The fixed Next.js build settings and the repository link of a new project. */
  function NewProject(name: string, path: RepoPath, repoId: int, branch: string): (q: ProjectRequest)
    ensures q.name == name && q.gitRepository.repo == FullName(path)
    ensures q.gitRepository.repoId == repoId && q.gitRepository.productionBranch == branch
  {
    ProjectRequest(name, "nextjs", "npm run build", "npm run dev", "npm install", ".next",
                   GitRepository("github", FullName(path), repoId, branch), true)
  }

  /** `createProject`: resolve the repository id, then create the project; its
      URL is the project name under vercel.app. */
  function CreateProject(repoUrl: string, projectName: string, branch: string, lookup: RepoLookup, reply: ProjectReply): (c: Creation)
    ensures c.sent.Some? <==> lookup.RepoFound?
    ensures lookup.RepoLookupFailed? ==> c.result == Failure("Failed to fetch GitHub repo details")
    ensures lookup.RepoFound? ==> c.sent.value == NewProject(projectName, ParseRepoUrl(repoUrl), lookup.id, branch)
    ensures c.result.Success? <==> lookup.RepoFound? && reply.ProjectCreated?
    ensures lookup.RepoFound? && reply.ProjectRefused? ==>
      c.result.error == OrElse(reply.errorMessage, "Failed to create Vercel project") && c.result.error != ""
    ensures c.result.Success? ==>
      c.result.value == Project(reply.id, reply.name, "https://" + reply.name + ".vercel.app")
  {
    match GetGithubRepoId(lookup)
    case Failure(e) => Creation(None, Failure(e))
    case Success(id) =>
      var request := NewProject(projectName, ParseRepoUrl(repoUrl), id, branch);
      match reply
      case ProjectRefused(m) => Creation(Some(request), Failure(OrElse(m, "Failed to create Vercel project")))
      case ProjectCreated(pid, name) => Creation(Some(request), Success(Project(pid, name, "https://" + name + ".vercel.app")))
  }

  /** A project created from a repository page URL is linked to exactly that repository. */
  lemma CreateProjectLinksRepo(owner: string, name: string, projectName: string, branch: string, id: int, reply: ProjectReply)
    requires '/' !in owner && '/' !in name
    ensures var c := CreateProject(GithubPrefix + owner + "/" + name, projectName, branch, RepoFound(id), reply);
      c.sent.value.gitRepository == GitRepository("github", owner + "/" + name, id, branch)
  {
    ParseRepoUrlRoundTrip(owner, name);
  }

  // ---------- triggerDeploymentViaGit ----------

  /** `btoa(...)` of a plain ASCII text, kept opaque. */
  datatype Ascii64 = Ascii64(text: string)

  datatype NudgeBody = NudgeBody(message: string, content: Ascii64, branch: string)

  /** The file the nudge commits, the body it sends, and whether it logged the warning. */
  datatype Nudge = Nudge(path: string, body: NudgeBody, warned: bool)

  /** The marker file for a given `Date.now()`. */
  function TriggerPath(now: nat): (p: string)
    ensures |p| > |".vercel-deploy-trigger-.txt"|
    ensures p[..23] == ".vercel-deploy-trigger-" && p[|p| - 4..] == ".txt"
    ensures p[23..|p| - 4] == Decimal(now)
    ensures forall i :: 23 <= i < |p| - 4 ==> '0' <= p[i] <= '9'
  {
    ".vercel-deploy-trigger-" + Decimal(now) + ".txt"
  }

  /** `triggerDeploymentViaGit`: commits a new marker file; a rejected PUT only
      logs a warning and is never an error. The clock readings are parameters. */
  function TriggerDeploymentViaGit(branch: string, now: nat, isoTime: string, put: Link): (n: Nudge)
    ensures n.warned <==> put.Rejected?
    ensures n.path == TriggerPath(now) && n.body.branch == branch
    ensures n.body.content == Ascii64("Triggered at " + isoTime)
  {
    Nudge(TriggerPath(now), NudgeBody("Trigger Vercel deploy", Ascii64("Triggered at " + isoTime), branch), put.Rejected?)
  }

  /** Decimal digits determine the number. */
  lemma {:induction false} DecimalInjective(a: nat, b: nat)
    requires Decimal(a) == Decimal(b)
    ensures a == b
  {
    if a >= 10 && b >= 10 {
      var da, db := Decimal(a), Decimal(b);
      assert da[..|da| - 1] == Decimal(a / 10);
      assert db[..|db| - 1] == Decimal(b / 10);
      DecimalInjective(a / 10, b / 10);
      assert da[|da| - 1] == db[|db| - 1];
    }
  }

  /** Nudges at different instants write different marker files, so a nudge
      never needs the sha of an earlier one. */
  lemma TriggerPathsDiffer(t1: nat, t2: nat)
    requires t1 != t2
    ensures TriggerPath(t1) != TriggerPath(t2)
  {
    if TriggerPath(t1) == TriggerPath(t2) {
      var p1, p2 := TriggerPath(t1), TriggerPath(t2);
      var n := |".vercel-deploy-trigger-"|;
      assert |Decimal(t1)| == |Decimal(t2)|;
      assert Decimal(t1) == p1[n..|p1| - 4];
      assert Decimal(t2) == p2[n..|p2| - 4];
      DecimalInjective(t1, t2);
    }
  }
}

=== FILE: wrappers.dfy ===
/** Option and Result, the failure-compatible shapes the rest of the model uses
    for JavaScript's `null`/`undefined` returns and thrown errors. */
module Wrappers {

  datatype Option<+T> = None | Some(value: T) {

    /** The value, or `default` when there is none. */
    function GetOr(default: T): T {
      match this
      case Some(v) => v
      case None => default
    }
  }

  /** `Failure(error)` stands for an exception carrying `error` as its message. */
  datatype Result<+T, +E> = Success(value: T) | Failure(error: E) {

    predicate IsFailure() {
      Failure?
    }

    function PropagateFailure<U>(): Result<U, E>
      requires Failure?
    {
      Failure(error)
    }

    function Extract(): T
      requires Success?
    {
      value
    }
  }
}
